=== FILE: README.md ===
# TransactionService ledger model

A Dafny model of the bookkeeping core of the TransactionService worker of
towech-financeApp. The worker answers queue messages about wallets and transactions.
Every wallet carries a running `money` total that each store operation adjusts by hand.
The property the whole design rests on is that this total equals the signed sum of the
transactions filed against the wallet.

The model covers two generations of the code:

- **Live generation.** `MessageProcessor` dispatches ten message types to handlers that
  validate through `Validator` and write through the category-aware stores `DbWallets`
  and `DbTransactions`. A transaction stores a non-negative amount; its category's kind
  ("Income" or anything else) decides the sign. Transfers link two transactions through
  `transfer_id`.
- **Earlier generation.** The route handlers under `src/routes` write through the
  schema stores under `src/database/schemas`. A transaction keeps a signed amount and
  has no category.

How the model is built:

- **State.** Both generations share one `Ledger.State`, with wallets, transactions and
  categories as finite maps from id.
- **Exceptions.** A store operation or handler that throws returns `Crash`, or a 500
  reply where the handler catches it. Either way it carries the state written up to the
  throw, because nothing is rolled back.
- **Replies.** Handlers return the state they leave and the reply they send: 200 with a
  body, 403/422/500 with the exact messages and field errors, 304 for the earlier
  "nothing to change", or the unsupported-type reply.
- **Invariants.** The live invariant is `Ledger.Invariant`: ids match keys, every
  transaction's wallet and category exist, no transaction is its own partner, and every
  wallet is balanced by category. The earlier invariant is `Ledger.LegacyBalanced`:
  every wallet is balanced by raw amounts.
- **Amounts.** Whole cents. `parseFloat` is a parameter (`Env.parseFloat`), and rounding
  is `Math.round(x * 100)`.
- **Dates.** A calendar day, kept as midnight UTC of that day.

The files follow the program:

| file | what it models |
|---|---|
| `common.dfy` | options, outcomes, field errors |
| `text.dfy` | `trim`, `parseInt` |
| `dates.dfy` | `validateDate`, ISO rendering, month windows |
| `ledger.dfy` | records, weighted sums, both invariants |
| `wallet_store.dfy` | `src/database/dbWallets.ts` |
| `transaction_store.dfy` | `src/database/dbTransactions.ts` |
| `bookkeeping.dfy` | that the live store operations keep the invariant |
| `validator.dfy` | `src/utils/validator.ts` |
| `message_processor.dfy` | `src/MessageProcessor.ts` |
| `handler_proofs.dfy` | that the live handlers keep the invariant, plus round trips |
| `legacy_wallets.dfy` | `src/database/schemas/dbWallets.ts` |
| `legacy_transactions.dfy` | `src/database/schemas/dbTransactions.ts` |
| `legacy_routes.dfy` | the four earlier route handlers |

## Model

| member | source | states |
|---|---|---|
| Text.Trim | src/utils/validator.ts:79 | `trim` leaves an empty string exactly when the input is all white space; otherwise the result starts and ends with a visible character and is the middle of the input |
| Text.TrimIdempotent | src/MessageProcessor.ts:159-166 | trimming a trimmed concept or name changes nothing, so the stored form compares equal to a re-trimmed one |
| Text.ParseInt | src/MessageProcessor.ts:234 | radix-less `parseInt`: after white space and a sign, a `0x`/`0X` prefix switches to base 16 and is `NaN` with no hexadecimal digit after it; without the prefix it agrees with `parseInt(s, 10)`; the values read are stated by `Text.ParseIntReads` and `Text.ParseIntReadsHex` |
| Text.ParseInt10 | src/utils/validator.ts:216-221 | `parseInt(s, 10)`: `NaN` exactly when, after white space and a sign, no decimal digit follows; without a '-' the result is not negative; the value read is stated by `Text.ParseInt10Reads` |
| Text.ParseIntHexWithoutDigits | src/database/dbTransactions.ts:155-157 | a `0x` prefix with no hexadecimal digit after it is `NaN` without a radix |
| Text.ParseInt10HexPrefix | src/database/dbTransactions.ts:155-157 | with radix 10, text starting `0x` or `0X` reads as 0: the prefix is not special |
| Text.ParseIntOfHexDigits | src/MessageProcessor.ts:234 | without a radix, `0x` followed by hex digits reads as their base-16 value |
| Text.ParseIntOfDigits | src/database/dbTransactions.ts:153-158 | a non-empty run of digits parses to the number it spells, with radix 10 and without a radix alike |
| Text.ParseInt10Reads | src/utils/validator.ts:216-221 | `parseInt(s, 10)` skips leading white space, applies one optional sign and reads the leading decimal digits, ignoring whatever follows them ("12ab" is 12, " -7" is -7) |
| Text.ParseIntReads | src/MessageProcessor.ts:234 | without a radix, the same reading of sign and leading digits holds whenever the digits do not open a `0x` prefix |
| Text.ParseIntReadsHex | src/database/dbTransactions.ts:155-157 | without a radix, after white space, a sign and `0x`/`0X`, the leading hexadecimal digits are read in base 16 and the rest ignored (" 0x1fz" is 31) |
| Text.NatToStringLength | src/MessageProcessor.ts:236 | a four-digit year renders in four characters and a month in one or two |
| Dates.FormatDate | src/MessageProcessor.ts:190 | `toISOString().slice(0, 10)` of a stored day is `YYYY-MM-DD` text that names the same day |
| Dates.FormatParseRoundTrip | src/utils/validator.ts:132-145 | a string that matches the date pattern is rendered back unchanged from the day it names |
| Dates.ValidateDate | src/utils/validator.ts:132-177 | a string off the pattern gets the format message; a string on it that fails gets the invalid-date message; no other field is reported |
| Dates.ValidateDateIsCalendar | src/utils/validator.ts:132-177 | `validateDate` accepts exactly the pattern-shaped strings that name a real Gregorian day (leap years, 30-day months) |
| Dates.ValidateDateLeapExamples | src/utils/validator.ts:146-159 | 2021-02-29 is refused and 2020-02-29 accepted |
| Dates.ValidateDateShortMonthExamples | src/utils/validator.ts:160-170 | 2021-04-31 is refused and 2021-04-30 accepted |
| Dates.MonthWindowIsOneMonth | src/database/dbTransactions.ts:158-170 | the window `[Date.UTC(y, m-1, 1), Date.UTC(y, m, 1))` holds exactly the days of one calendar month, after `Date.UTC`'s roll-over |
| Ledger.SumReplace | src/database/dbTransactions.ts:309-315 | storing a record under an id replaces that id's old weight in a wallet's total by the new one |
| Ledger.SumSubmap | src/database/dbTransactions.ts:119-121 | dropping records that weigh nothing for a wallet leaves its total alone |
| WalletStore.GetById | src/database/dbWallets.ts:116-119 | the wallet stored under the id, or none |
| WalletStore.GetByName | src/database/dbWallets.ts:104-107 | a wallet is found exactly when one of the user's wallets has that exact, untrimmed name; every candidate has it |
| WalletStore.Add | src/database/dbWallets.ts:39-57 | a new wallet holds no money, with the "-1" parent stored as none; a reused id throws and writes nothing; nothing else changes |
| WalletStore.AddChild | src/database/dbWallets.ts:66-68 | the child is appended to the parent's list and nothing else changes; a missing parent is left alone |
| WalletStore.Delete | src/database/dbWallets.ts:77-94 | the wallet, its subwallets and every transaction of any of them are gone; everything else is kept |
| WalletStore.DeleteKeepsInvariant | src/database/dbWallets.ts:77-94 | deleting a wallet keeps the live invariant for the wallets that remain |
| WalletStore.GetWallets | src/database/dbWallets.ts:128-141 | exactly the user's top-level wallets |
| WalletStore.Update | src/database/dbWallets.ts:152-165 | only the supplied name, currency and icon change; money never does; a missing wallet gives `null` |
| WalletStore.UpdateAmount | src/database/dbWallets.ts:174-177 | only the named wallet moves: by `+amount` for "Income", `-amount` for any other kind; its parent does not move |
| WalletStore.UpdateAmountUndo | src/database/dbWallets.ts:174-177 | applying the negated amount under the same kind undoes an increment |
| WalletStore.UpdateAmountIncomeThenExpense | src/database/dbWallets.ts:174-177 | an income and then an expense of the same amount restore the wallet |
| WalletStore.UpdateAmountZero | src/database/dbWallets.ts:174-177 | an increment of zero changes nothing |
| TransactionStore.GetById | src/database/dbTransactions.ts:139-142 | the transaction stored under the id, or none |
| TransactionStore.GetCategory | src/database/dbTransactions.ts:193-196 | the category stored under the id, or none |
| TransactionStore.AddAsWritten | src/database/dbTransactions.ts:54-80 | as written: the record holds `Math.abs(amount)` while the wallet moves by the raw amount |
| TransactionStore.AddAsWrittenBreaksBalance | src/database/dbTransactions.ts:67-77 | a negative "Income" amount leaves a balanced wallet unbalanced |
| TransactionStore.Add | src/database/dbTransactions.ts:54-80 | corrected: a fresh id and an existing category give a stored record, and the wallet moves by that record's signed contribution; otherwise it throws |
| TransactionStore.AddAsWrittenAgrees | src/database/dbTransactions.ts:67-77 | for a non-negative amount the corrected `add` and the one as written are the same operation |
| TransactionStore.Remove | src/database/dbTransactions.ts:92-97 | the record goes and its wallet moves back by its contribution; a missing record throws with nothing written; an unresolved category throws after the record is deleted, with no wallet moved |
| TransactionStore.RemoveMovesMoney | src/database/dbTransactions.ts:92-97 | after a removal each wallet has moved by exactly the removed record's weight for it |
| TransactionStore.Delete | src/database/dbTransactions.ts:89-112 | the record and then its transfer partner are removed and reversed, and they are returned in that order |
| TransactionStore.AddThenDelete | src/database/dbTransactions.ts:54-112 | deleting a record right after adding it restores the store exactly |
| TransactionStore.DeleteAll | src/database/dbTransactions.ts:119-121 | exactly the wallet's transactions go; no money moves |
| TransactionStore.DeleteUser | src/database/dbTransactions.ts:128-130 | exactly the user's transactions go; no money moves |
| TransactionStore.YearMonth | src/database/dbTransactions.ts:154-157 | the year and month the radix-less `parseInt` reads from `YYYY` and `MM` (hexadecimal after `0x`), or none when either is `NaN` |
| TransactionStore.GetAll | src/database/dbTransactions.ts:153-184 | the listing succeeds exactly when year and month parse and a named wallet exists; it then holds exactly the user's transactions dated in that month (and in the wallet or its children, if one is named) |
| TransactionStore.GetAllSelectsParsedMonth | src/database/dbTransactions.ts:153-184 | when the text names a year and a month 1..12, `getAll` succeeds and lists only transactions of that month of the year `Date.UTC` makes of it |
| TransactionStore.GetAllListsParsedMonth | src/database/dbTransactions.ts:153-184 | when the text names a year and a month 1..12, `getAll` lists exactly the user's transactions of that month, in the wallet and its `child_id` list or, for "-1", in every wallet |
| TransactionStore.HexMonthThrows | src/database/dbTransactions.ts:154-166 | "20210x" names no month, because its "0x" is `NaN`, so `getAll` throws |
| TransactionStore.DefaultMonthSelectsCurrent | src/MessageProcessor.ts:236-239 | the fallback `${year}${month}` makes `getAll` select exactly the current month |
| TransactionStore.DefaultMonthParses | src/MessageProcessor.ts:236 | the fallback month string reads back as the year and month it was made from |
| TransactionStore.BasicOf | src/database/dbTransactions.ts:198-210 | the ids of the global "Other" categories of a kind |
| TransactionStore.GetBasicCategories | src/database/dbTransactions.ts:198-241 | both global "Other" categories exist afterwards; an existing one is returned and a missing one is created |
| TransactionStore.GetBasicCategoriesIdempotent | src/database/dbTransactions.ts:198-241 | a second call creates nothing and returns the same ids |
| TransactionStore.Reassign | src/database/dbTransactions.ts:259 | every record of the wallet moves to the parent; no other record changes |
| TransactionStore.MigrateToParentAsWritten | src/database/dbTransactions.ts:251-263 | as written: records move to the parent and the child is zeroed, but the parent's money is unchanged |
| TransactionStore.MigrateToParentAsWrittenBreaksBalance | src/database/dbTransactions.ts:259-262 | a child holding one income leaves its parent showing 0 while the parent holds the income |
| TransactionStore.MigrateToParent | src/database/dbTransactions.ts:251-263 | corrected: the parent is also credited with what the child held |
| TransactionStore.Patch | src/database/dbTransactions.ts:303-307 | only the supplied fields change; unlinking also clears the partner |
| TransactionStore.Rewrite | src/database/dbTransactions.ts:309-315 | the record is patched, its old contribution reversed and its new one applied; when the record is missing nothing is stored, the old contribution is still taken off its wallet, and the call throws |
| TransactionStore.RewriteMovesMoney | src/database/dbTransactions.ts:309-315 | after a rewrite each wallet has moved by exactly the change in the record's weight for it |
| TransactionStore.Update | src/database/dbTransactions.ts:273-321 | with a live partner, the partner and then the record are rewritten with the patch stripped of category and wallet; because the patch object is shared, the record keeps its own wallet and category too. A dangling partner is unlinked. The record's new version and the stored transactions are stated, and the lists end with the stored record and its new version |
| Bookkeeping.AddKeepsInvariant | src/database/dbTransactions.ts:54-80 | the corrected `add` into an existing wallet keeps the live invariant |
| Bookkeeping.RemoveKeepsInvariant | src/database/dbTransactions.ts:92-97 | one removal keeps the live invariant and, on a well-formed store, fails only on a missing record, writing nothing |
| Bookkeeping.DeleteKeepsInvariant | src/database/dbTransactions.ts:89-112 | whatever `delete` reaches, including a throw after the first removal, satisfies the live invariant |
| Bookkeeping.DeleteAllKeepsOtherBalances | src/database/dbTransactions.ts:119-121 | every wallet other than the emptied one stays balanced |
| Bookkeeping.DeleteUserKeepsOtherBalances | src/database/dbTransactions.ts:128-130 | every wallet holding none of the user's transactions stays balanced |
| Bookkeeping.SumReassign | src/database/dbTransactions.ts:259 | after reassignment the parent weighs what both wallets weighed and the child nothing |
| Bookkeeping.MigrateToParentKeepsInvariant | src/database/dbTransactions.ts:251-263 | the corrected migration keeps the live invariant when the parent exists |
| Bookkeeping.RewriteKeepsInvariant | src/database/dbTransactions.ts:309-315 | rewriting a stored record with a patch whose wallet and category exist keeps the live invariant |
| Bookkeeping.UpdateWithPartnerKeepsInvariant | src/database/dbTransactions.ts:281-301 | the two rewrites of a transfer edit keep the live invariant |
| Bookkeeping.UpdateKeepsInvariant | src/database/dbTransactions.ts:273-321 | editing a stored transaction with a fitting patch succeeds and keeps the live invariant, partner included |
| Bookkeeping.WalletAddKeepsInvariant | src/database/dbWallets.ts:39-57 | adding a wallet keeps the live invariant |
| Bookkeeping.WalletUpdateKeepsInvariant | src/database/dbWallets.ts:152-165 | a field update keeps the live invariant |
| Bookkeeping.AddChildKeepsInvariant | src/database/dbWallets.ts:66-68 | appending a child id keeps the live invariant |
| Validator.Round | src/utils/validator.ts:32 | the rounded cents lie within half a cent of the scaled amount, rounding halves up |
| Validator.ValidateAmount | src/utils/validator.ts:23-39 | an amount is valid exactly when it parses, with the single amount error otherwise; a valid one is rounded to the nearest cent |
| Validator.ValidateCategory | src/utils/validator.ts:50-65 | valid exactly when the category exists and is global or the user's; a missing one and a foreign one get their own messages |
| Validator.ValidateConcept | src/utils/validator.ts:75-85 | an absent concept throws; otherwise valid exactly when it holds a visible character |
| Validator.ValidateCurrency | src/utils/validator.ts:96-122 | the currency must be three characters, and a subwallet's must equal its parent's; each failure has its own message |
| Validator.ValidateWalletName | src/utils/validator.ts:188-207 | valid exactly when the name has a visible character and none of the user's wallets carries exactly that name |
| Validator.PaddedDuplicateNamePasses | src/utils/validator.ts:193-201 | a name differing from one of the user's wallets only by a leading space passes, and trims to the existing name |
| Validator.SetIconId | src/utils/validator.ts:216-221 | the icon is `parseInt` of the field, with `NaN` and negatives giving 0 |
| Validator.SetIconIdIdempotent | src/utils/validator.ts:216-221 | applying `setIconId` to its own rendered output gives the same icon |
| Validator.WalletOwnership | src/utils/validator.ts:294-312 | valid exactly when a user is given, the wallet exists and it is theirs; the wallet looked up is returned either way |
| Validator.TransactionOwnership | src/utils/validator.ts:232-250 | valid exactly when a user is given, the transaction exists and it is theirs |
| Validator.WalletLineage | src/utils/validator.ts:263-283 | a parent must be the user's own top-level wallet; "-1" or none is always fine |
| MessageProcessor.AddTransaction | src/MessageProcessor.ts:63-105 | a foreign wallet gets 403; a missing category object, amount or date, or an undefined concept, answers 500 before any write; otherwise the category, amount, date and concept errors are merged into one 422 that writes nothing, and no error means no refusal; an accepted message stores exactly the trimmed concept, the parsed day, a usable category and the rounded cents (made non-negative) under the fresh id, and moves only its wallet, by the signed amount |
| MessageProcessor.AddTransactionAccepts | src/MessageProcessor.ts:63-105 | for the wallet's owner with all fields present, the message is accepted exactly when category, amount, date and concept are all valid |
| MessageProcessor.GetTransaction | src/MessageProcessor.ts:253-265 | the transaction goes to its owner only; nothing is written |
| MessageProcessor.DeleteTransaction | src/MessageProcessor.ts:113-128 | only the owner can delete; the reply lists the removed record first |
| MessageProcessor.DateChangeAsWritten | src/MessageProcessor.ts:188-194 | as written: a supplied date that differs from the stored day makes the handler throw |
| MessageProcessor.DateChangeAsWrittenRejectsNewDay | src/MessageProcessor.ts:188-194 | moving a record from 2021-03-14 to the valid day 2021-03-15 throws |
| MessageProcessor.DateChange | src/MessageProcessor.ts:188-194 | corrected: a supplied, different date is a change, valid exactly when it names a real day, and becomes that day |
| MessageProcessor.WalletChange | src/MessageProcessor.ts:150-157 | a different wallet id is a change and must be the user's |
| MessageProcessor.ConceptChange | src/MessageProcessor.ts:160-166 | a concept whose trimmed form differs is a change, stored trimmed, valid exactly when visible |
| MessageProcessor.CategoryChange | src/MessageProcessor.ts:169-175 | any supplied category id is a change and must be usable by the record's owner |
| MessageProcessor.AmountChange | src/MessageProcessor.ts:178-185 | a truthy amount whose rounding differs from the stored cents is a change; an unparsable one is an error |
| MessageProcessor.EditContent | src/MessageProcessor.ts:144-195 | the patch gathers exactly each field's change, and errors are empty only if every field's are; a missing category object throws |
| MessageProcessor.EditTransaction | src/MessageProcessor.ts:136-210 | a non-owner gets 403; for the owner, gathered errors answer one 422 with all of them, no error and no change answer an empty 200, and otherwise the edit is applied; an applied edit passed validation, reports the stored record last among the old versions and stores the patched record (after the partner, with the record keeping its wallet and category, when a live partner exists) |
| MessageProcessor.EditWithNothingIsNoChange | src/MessageProcessor.ts:198-201 | an edit that supplies nothing answers the empty 200 and writes nothing |
| MessageProcessor.DataMonth | src/MessageProcessor.ts:229-237 | a six-character month that the radix-less `parseInt` reads is kept; anything else becomes today's `${year}${month}` |
| MessageProcessor.DataMonthHexIsNaN | src/MessageProcessor.ts:230-236 | six characters starting with a `0x` that has no hexadecimal digit after it ("0xzzzz") fall back to today |
| MessageProcessor.GetTransactions | src/MessageProcessor.ts:218-245 | a named wallet must be the user's; every listed transaction is the user's; nothing is written |
| MessageProcessor.GetTransactionsDefaultsToToday | src/MessageProcessor.ts:229-239 | a missing or malformed month lists only transactions dated in the current month |
| MessageProcessor.GetTransactionsSelectsMonth | src/MessageProcessor.ts:218-245 | a six-character `datamonth` that the radix-less `parseInt` reads and that names a month 1..12 answers 200 listing exactly the user's transactions of that month in the named wallet and its subwallets, or in all wallets for "-1" |
| MessageProcessor.AddWallet | src/MessageProcessor.ts:277-316 | it answers 200 exactly when the name is visible and unused, the truthy money parses and the wallet id is new; the name and money errors are merged into one 422 that writes nothing, and no error means no refusal; the reply's money is the rounded amount when positive and 0 otherwise; a positive amount is filed as an "Initial transaction", and otherwise nothing but the wallet is written |
| MessageProcessor.GetWallet | src/MessageProcessor.ts:408-420 | the wallet goes to its owner only |
| MessageProcessor.GetWallets | src/MessageProcessor.ts:390-400 | exactly the top-level wallets of the user the message names |
| MessageProcessor.DeleteWallet | src/MessageProcessor.ts:324-339 | only the owner can delete; the wallet and all its transactions are gone |
| MessageProcessor.EditWallet | src/MessageProcessor.ts:347-382 | a non-owner gets 403; for the owner, a missing or empty name or one that trims to the stored name answers 200 with no body and writes nothing, and exactly then; a changed name that fails `validateWalletName` answers 422 with its errors; a rename requires a visible, unused name, stores its trimmed form and changes no other wallet |
| MessageProcessor.Classify | src/MessageProcessor.ts:28-51 | the ten handled message types, and "other" for exactly the rest |
| MessageProcessor.Process | src/MessageProcessor.ts:23-53 | reads write nothing, refusals write nothing, and exactly the unknown types get the unsupported reply |
| HandlerProofs.AddTransactionKeepsInvariant | src/MessageProcessor.ts:63-105 | `add-Transaction` keeps the live invariant |
| HandlerProofs.DeleteTransactionKeepsInvariant | src/MessageProcessor.ts:113-128 | `delete-Transaction` keeps the live invariant |
| HandlerProofs.EditTransactionKeepsInvariant | src/MessageProcessor.ts:136-210 | `edit-Transaction` keeps the live invariant |
| HandlerProofs.AddWalletKeepsInvariant | src/MessageProcessor.ts:277-316 | `add-Wallet` keeps the live invariant when the configured "Other" category exists |
| HandlerProofs.DeleteWalletKeepsInvariant | src/MessageProcessor.ts:324-339 | `delete-Wallet` keeps the live invariant |
| HandlerProofs.EditWalletKeepsInvariant | src/MessageProcessor.ts:347-382 | `edit-Wallet` keeps the live invariant |
| HandlerProofs.ProcessKeepsInvariant | src/MessageProcessor.ts:23-53 | no message breaks the live invariant |
| HandlerProofs.AddThenDeleteTransaction | src/MessageProcessor.ts:63-128 | deleting the transaction a message just added restores the store and answers with that transaction |
| HandlerProofs.EditWalletThenGet | src/MessageProcessor.ts:347-420 | after a rename, `get-Wallet` shows the trimmed new name |
| LegacyWallets.Add | src/database/schemas/dbWallets.ts:30-39 | a new wallet holds no money and has no parent; a reused id throws and writes nothing |
| LegacyWallets.GetWallets | src/database/schemas/dbWallets.ts:73-76 | exactly the user's wallets; this store has no hierarchy |
| LegacyWallets.UpdateAmount | src/database/schemas/dbWallets.ts:86-88 | only the named wallet moves, by exactly the signed amount |
| LegacyWallets.UpdateAmountAdditive | src/database/schemas/dbWallets.ts:86-88 | two increments are one of their sum, so an amount and its negation cancel |
| LegacyTransactions.Add | src/database/schemas/dbTransactions.ts:38-58 | the record keeps the amount as given, and the wallet moves by it even when a reused id makes the unawaited insert fail |
| LegacyTransactions.Delete | src/database/schemas/dbTransactions.ts:67-73 | the record goes and its wallet moves back by its amount; a missing record throws before any write |
| LegacyTransactions.AddThenDelete | src/database/schemas/dbTransactions.ts:38-73 | deleting a record right after adding it restores the store exactly |
| LegacyTransactions.StartMonth | src/database/schemas/dbTransactions.ts:112-113 | the month `new Date("YYYY-MM-1")` starts, when the text names one |
| LegacyTransactions.GetAllAsWritten | src/database/schemas/dbTransactions.ts:109-128 | as written: `setMonth` moves the start onto the end, so a listing succeeds exactly when the month text is a date and is then always empty |
| LegacyTransactions.GetAllAsWrittenMissesMonth | src/database/schemas/dbTransactions.ts:112-120 | a record of the user, in the wallet and dated in the named month, is listed by the corrected `getAll` and not by the one as written |
| LegacyTransactions.GetAll | src/database/schemas/dbTransactions.ts:109-128 | corrected: the listing succeeds exactly when the month text is a date; it holds exactly the user's transactions of that month, of the one named wallet unless "-1" |
| LegacyTransactions.Update | src/database/schemas/dbTransactions.ts:138-146 | the record is patched, the caller's old amount is taken off the old wallet and the new amount put on the new one; a missing record takes the old amount off and then throws |
| LegacyTransactions.AddKeepsBalance | src/database/schemas/dbTransactions.ts:38-58 | adding under a fresh id keeps every wallet equal to its raw sum |
| LegacyTransactions.AddWithReusedIdBreaksBalance | src/database/schemas/dbTransactions.ts:45-55 | a reused id moves the wallet without storing a record, and the balance breaks |
| LegacyTransactions.WalletAddKeepsBalance | src/database/schemas/dbWallets.ts:30-39 | a new wallet that no record names starts balanced |
| LegacyTransactions.DeleteKeepsBalance | src/database/schemas/dbTransactions.ts:67-73 | `delete` keeps every wallet balanced |
| LegacyTransactions.UpdateKeepsBalance | src/database/schemas/dbTransactions.ts:138-146 | `update` of the stored record keeps every wallet balanced, even when it changes wallet |
| LegacyTransactions.DeleteAllKeepsOtherBalances | src/database/schemas/dbTransactions.ts:82-86 | every wallet other than the emptied one stays balanced |
| LegacyRoutes.AddTransaction | src/routes/transaction/add-transaction.ts:16-47 | a foreign wallet gets 403; for the owner, a missing amount or date or an undefined concept throws before any write; otherwise the amount, date and concept errors are merged into one 422 that writes nothing, and no error means no refusal; an accepted message stores the trimmed concept, the parsed day and the rounded signed amount, and moves the wallet by it |
| LegacyRoutes.AddTransactionAccepts | src/routes/transaction/add-transaction.ts:21-36 | for the owner with all fields present, the message is accepted exactly when amount, date and concept are valid |
| LegacyRoutes.EditTransaction | src/routes/transaction/edit-Transaction.ts:17-78 | a non-owner gets 403; for the owner, gathered errors answer one 422 with all of them, no error and no change answer 304, and otherwise the earlier `update` runs; a 200 passed validation and applies exactly the gathered, non-empty patch |
| LegacyRoutes.AddWallet | src/routes/wallet/add-Wallet.ts:17-53 | a missing or null amount answers 500 before any write; otherwise the name and amount errors are merged into one 422 that writes nothing, and no error means no refusal; a created wallet has the trimmed, unused name and reports the positive opening amount as its money, which an "Initial transaction" records |
| LegacyRoutes.RenameTo | src/routes/wallet/edit-Wallet.ts:26-33 | a rename is due exactly for the owner sending a different, visible name that none of their wallets has |
| LegacyRoutes.EditWalletGuard | src/routes/wallet/edit-Wallet.ts:18-39 | 403 for a non-owner, 304 exactly when no new name is sent, 422 with the name errors otherwise; nothing is written |
| LegacyRoutes.EditWalletAsWritten | src/routes/wallet/edit-Wallet.ts:16-48 | as written: nothing is ever renamed, and exactly the due renames answer 500 |
| LegacyRoutes.EditWallet | src/routes/wallet/edit-Wallet.ts:16-48 | corrected: exactly the due renames succeed, storing the trimmed name and changing no other wallet |
| LegacyRoutes.EditWalletAsWrittenDiffers | src/routes/wallet/edit-Wallet.ts:42 | the two versions differ exactly on the due renames, where the one as written answers 500 |
| LegacyRoutes.EditWalletAsWrittenRefusesRename | src/routes/wallet/edit-Wallet.ts:42 | every plain rename to a fresh name answers 500 as written and is stored when corrected |
| LegacyRoutes.AddTransactionKeepsBalance | src/routes/transaction/add-transaction.ts:38-44 | `add-Transaction` under a fresh id keeps every wallet balanced by raw amounts |
| LegacyRoutes.EditTransactionKeepsBalance | src/routes/transaction/edit-Transaction.ts:72-75 | `edit-Transaction` keeps every wallet balanced when records sit under their ids |
| LegacyRoutes.AddWalletKeepsBalance | src/routes/wallet/add-Wallet.ts:32-47 | `add-Wallet` with fresh ids keeps every wallet balanced, the new one included |
| LegacyRoutes.EditWalletKeepsBalance | src/routes/wallet/edit-Wallet.ts:41-42 | the corrected rename keeps every wallet balanced |

## Left out

- Floating point: amounts are exact reals before rounding, and the result is whole cents. `Env.parseFloat` stands for `parseFloat`, and `Number.EPSILON` in the rounding is not modelled.
- `Date` objects, time zones and clocks: a day is `Dates.Date`, and "today" is `Env.now`. The earlier `getAll` builds its window in the server's local time; the model assumes UTC.
- LegacyTransactions.StartMonth: accepts only the `YYYY-M-1` and `YYYY-MM-1` shapes with month 1..12. Other text the JavaScript date parser might accept is treated as an invalid date.
- Mongoose, AMQP, PostgreSQL (`pg.js`), the Express-era routers (`index.js`, `root_*.js`) and logging are not modelled. The exception object carried in a 500 reply is not modelled either.
- Concurrency: unawaited promises are treated as running to completion in program order. A race between an unawaited write and a later read is not modelled.
- `findOne` with a non-id filter may return any match, so the model returns the set of matches (`WalletStore.GetByName`, `TransactionStore.GetBasicCategories`).
- `populate('category')` is modelled as a lookup in the category map. Mongoose-6's dropping of `undefined` keys in `$set` is modelled by leaving unsupplied fields out of the patch.
- The earlier dispatcher `src/routes/index.ts` imports a module that is not part of this model. Its routing is therefore not modelled; its `catch` is reflected by `LegacyRoutes.AddTransaction` and `LegacyRoutes.EditTransaction` returning `Crash`.
- The earlier `get-Transactions`, `get-Wallet`, `get-wallets` and `delete-*` routes are thin wrappers over the store reads and deletes modelled above. They have no members of their own.
- The earlier store's `getByName`, `getById` and `deleteAll` run the same queries as the live ones. They are modelled by `WalletStore.GetByName`, `WalletStore.GetById`, `TransactionStore.GetById` and `TransactionStore.DeleteAll`.
- No handler creates transfers. `transfer_id` links are only read and followed.
- The status of the unsupported-type reply is whatever the AMQP wrapper defaults to. It is modelled as its own `Unsupported` reply.
- HandlerProofs.ProcessKeepsInvariant and HandlerProofs.AddWalletKeepsInvariant: require the configured "Other" category to exist. Without it the opening transaction of `add-Wallet` is inserted and then throws on `.category.type` after the insert.
- LegacyRoutes.EditTransactionKeepsBalance: requires records to sit under their own ids, because the earlier `update` reads the record's `_id` rather than the key it was found under.
- MessageProcessor.CategoryChange: the live edit compares the message's category id (a string) with the populated category's `_id` (an `ObjectId`), so any supplied category counts as a change. The model follows the code. This is not listed as a finding because it only costs a redundant validation and write.
- MessageProcessor.AddWallet: `(message.money || '')` turns a missing amount, and a numeric 0, into `''`, which does not parse. Opening a wallet without money therefore answers 422; the model follows the code.
- MessageProcessor.EditContent, MessageProcessor.EditTransaction and LegacyRoutes.EditTransaction: gather the date through the corrected `MessageProcessor.DateChange`. As written, a supplied date that differs from the stored day throws (Findings, last row), and `src/routes/transaction/edit-Transaction.ts:59-65` has the same lines.
- MessageProcessor.AddTransaction: files the transaction through the corrected `TransactionStore.Add`. As written, `add` moves the wallet by the raw rounded amount (Findings, first row). The two agree for every non-negative amount (`TransactionStore.AddAsWrittenAgrees`).
- HandlerProofs.AddTransactionKeepsInvariant: is about the handler with the corrected `add`. With a negative amount under "Income", the handler as written unbalances the wallet (`TransactionStore.AddAsWrittenBreaksBalance`).
- HandlerProofs.ProcessKeepsInvariant: its `add-Transaction` case is the handler with the corrected `add`, for the same reason.
- HandlerProofs.AddThenDeleteTransaction: holds for the handler with the corrected `add`. As written, a negative amount moves the wallet by the raw amount and `delete` then reverses the stored absolute amount, so the wallet is not restored.
- Validator.WalletOwnership and Validator.TransactionOwnership: a missing `_id` or `wallet_id` is modelled as "", which names no record, so the guard refuses. Mongoose drops an `undefined` key from a filter, so `findOne({ _id: undefined })` matches an arbitrary document, and the guard passes when that document happens to be the user's. Which document the database picks is not modelled. `Validator.ValidateWalletName` does model the dropped key, because there the answer only depends on whether the user has any wallet.

## Findings

| source | as written | input that shows it | evidently intended | confidence | as-written member | corrected member |
|---|---|---|---|---|---|---|
| src/database/dbTransactions.ts:67-77 | stores `Math.abs(amount)` but moves the wallet by the raw `amount` | an "Income" transaction of -5.00 into a wallet at 0: the record says +5.00 and the wallet shows -5.00 (`TransactionStore.AddAsWrittenBreaksBalance`) | the wallet moves by the amount the record holds | not executed | TransactionStore.AddAsWritten | TransactionStore.Add |
| src/database/dbTransactions.ts:251-263 | moves a subwallet's transactions to its parent and zeroes the subwallet, leaving the parent's money alone (the comment assumes linked wallets, but `updateAmount` never propagates) | a parent at 0 and a child holding one 5.00 income: afterwards the parent holds the income and still shows 0 (`TransactionStore.MigrateToParentAsWrittenBreaksBalance`) | the parent is credited with what the child held | not executed | TransactionStore.MigrateToParentAsWritten | TransactionStore.MigrateToParent |
| src/routes/wallet/edit-Wallet.ts:42 | calls `DbWallets.update`, which the earlier wallet store does not define; the `TypeError` is caught as a 500 | renaming an owned wallet "Cash" to an unused "Bank" answers 500 and renames nothing (`LegacyRoutes.EditWalletAsWrittenRefusesRename`) | the new, trimmed name is stored | not executed | LegacyRoutes.EditWalletAsWritten | LegacyRoutes.EditWallet |
| src/MessageProcessor.ts:188-194 | calls `toISOString()` on the message's date, which is a string, whenever it differs from the stored day | moving a transaction from 2021-03-14 to the valid day "2021-03-15" throws and answers 500 (`MessageProcessor.DateChangeAsWrittenRejectsNewDay`) | validate the `YYYY-MM-DD` text and store the day it names | not executed | MessageProcessor.DateChangeAsWritten | MessageProcessor.DateChange |
| src/database/schemas/dbTransactions.ts:112-113 | `startDate.setMonth(startDate.getMonth() + 1)` moves `startDate` itself, so the filter is `$gte: X, $lt: X` for one instant X | any month that parses, such as "202103" with an owned wallet holding a transaction of 2021-03-14: nothing is listed (`LegacyTransactions.GetAllAsWrittenMissesMonth`) | the window runs from the first day of the month to the first day of the next | not executed | LegacyTransactions.GetAllAsWritten | LegacyTransactions.GetAll |

=== FILE: bookkeeping.dfy ===
/** The balance proofs: which store operations keep `Ledger.Invariant`, the rule that a
    wallet's money is the signed sum of the transactions filed against it. */
module Bookkeeping {
  import opened Common
  import opened Dates
  import opened Ledger
  import WalletStore
  import opened TransactionStore

  /** The corrected `add` keeps the live invariant whenever its wallet exists. */
  lemma AddKeepsInvariant(st: State, id: Id, userId: string, walletId: Id, concept: string,
                          amount: int, date: Date, categoryId: Id)
    requires Invariant(st)
    requires id !in st.txs && walletId in st.wallets && categoryId in st.categories
    ensures var r := Add(st, id, userId, walletId, concept, amount, date, categoryId);
      r.out.Done? && Invariant(r.st)
  {
    var r := Add(st, id, userId, walletId, concept, amount, date, categoryId);
    var t := r.out.value;
    forall w | w in r.st.wallets ensures BalancedAt(r.st, w) {
      SumReplace(st.txs, ByCategory(st.categories, w), id, t);
    }
  }

  /** Taking out one record while moving each wallet back by its weight keeps every
      wallet balanced. */
  lemma RemoveKeepsBalanced(st: State, st': State, k: Id)
    requires Balanced(st) && k in st.txs
    requires st'.txs == st.txs - {k} && st'.categories == st.categories
    requires st'.wallets.Keys == st.wallets.Keys
    requires forall w :: w in st.wallets ==>
      st'.wallets[w].money == st.wallets[w].money - Weigh(ByCategory(st.categories, w), st.txs[k])
    ensures Balanced(st')
  {
    forall w | w in st'.wallets ensures BalancedAt(st', w) {
      SumRemove(st.txs, ByCategory(st.categories, w), k);
    }
  }

  /** Taking out one record, with only money moving among the wallets, keeps the state
      well formed. */
  lemma RemoveKeepsWellFormed(st: State, st': State, k: Id)
    requires WellFormed(st)
    requires st'.txs == st.txs - {k} && st'.categories == st.categories
    requires st'.wallets.Keys == st.wallets.Keys
    requires forall w :: w in st.wallets ==> st'.wallets[w].id == st.wallets[w].id
    ensures WellFormed(st')
  {
  }

  /** A single removal keeps the live invariant, and on a well-formed state it fails
      only when the record is missing, in which case nothing was written. */
  lemma RemoveKeepsInvariant(st: State, k: Id)
    requires Invariant(st)
    ensures Invariant(Remove(st, k).st)
    ensures Remove(st, k).out.Done? <==> k in st.txs
  {
    var r := Remove(st, k);
    if k in st.txs {
      assert r.out.Done?;
      RemoveMovesMoney(st, k);
      RemoveKeepsBalanced(st, r.st, k);
      RemoveKeepsWellFormed(st, r.st, k);
    }
  }

  /** Whatever `delete` reaches, crash or not, still satisfies the live invariant: on a
      well-formed state the only throws left are a missing record (nothing written) and
      a missing partner (after the first removal). */
  lemma DeleteKeepsInvariant(st: State, transId: Id)
    requires Invariant(st)
    ensures Invariant(Delete(st, transId).st)
  {
    RemoveKeepsInvariant(st, transId);
    var s1 := Remove(st, transId);
    if s1.out.Done? && Partner(s1.out.value).Some? {
      var p := Partner(s1.out.value).value;
      RemoveKeepsInvariant(s1.st, p);
      assert Delete(st, transId).st == Remove(s1.st, p).st;
    } else {
      assert Delete(st, transId).st == s1.st;
    }
  }

  /** Because `deleteAll` moves no money, every wallet other than the emptied one stays
      balanced. */
  lemma DeleteAllKeepsOtherBalances(st: State, walletId: Id)
    requires Balanced(st)
    ensures forall w :: w in st.wallets && w != walletId ==> BalancedAt(DeleteAll(st, walletId), w)
  {
    var st' := DeleteAll(st, walletId);
    forall w | w in st.wallets && w != walletId ensures BalancedAt(st', w) {
      SumSubmap(st.txs, st'.txs, ByCategory(st.categories, w));
    }
  }

  /** `deleteUser` moves no money either, so a wallet holding none of the user's
      transactions stays balanced. */
  lemma DeleteUserKeepsOtherBalances(st: State, userId: string)
    requires Balanced(st)
    ensures forall w :: w in st.wallets && (forall k :: k in st.txs && st.txs[k].walletId == w ==> st.txs[k].userId != userId) ==>
      BalancedAt(DeleteUser(st, userId), w)
  {
    var st' := DeleteUser(st, userId);
    forall w | w in st.wallets && (forall k :: k in st.txs && st.txs[k].walletId == w ==> st.txs[k].userId != userId)
      ensures BalancedAt(st', w)
    {
      SumSubmap(st.txs, st'.txs, ByCategory(st.categories, w));
    }
  }

  /** After reassigning wallet `id`'s records to `p`, `p` weighs what both weighed,
      `id` weighs nothing, and every other wallet weighs what it did. */
  lemma SumReassign(txs: map<Id, Transaction>, cats: map<Id, Category>, id: Id, p: Id, v: Id)
    requires p != id
    ensures Sum(Reassign(txs, id, p), ByCategory(cats, v)) ==
      if v == p then Sum(txs, ByCategory(cats, p)) + Sum(txs, ByCategory(cats, id))
      else if v == id then 0
      else Sum(txs, ByCategory(cats, v))
  {
    var txs' := Reassign(txs, id, p);
    SumZero(txs);
    if v == p {
      SumLinear(txs, txs', ByCategory(cats, p), ByCategory(cats, p), ByCategory(cats, id));
    } else if v == id {
      SumLinear(txs, txs', ByCategory(cats, id), Zero, Zero);
    } else {
      SumLinear(txs, txs', ByCategory(cats, v), ByCategory(cats, v), Zero);
    }
  }

  /** Moving records to an existing wallet, with only money moving among the wallets,
      keeps the state well formed. */
  lemma ReassignKeepsWellFormed(st: State, st': State, id: Id, p: Id)
    requires WellFormed(st) && p in st.wallets
    requires st'.txs == Reassign(st.txs, id, p) && st'.categories == st.categories
    requires st'.wallets.Keys == st.wallets.Keys
    requires forall w :: w in st.wallets ==> st'.wallets[w].id == st.wallets[w].id
    ensures WellFormed(st')
  {
  }

  /** The corrected migration keeps every wallet balanced when the parent exists. */
  lemma MigrateToParentKeepsBalanced(st: State, id: Id)
    requires Balanced(st) && id in st.wallets
    requires var p := st.wallets[id].parent; p.Some? ==> p.value in st.wallets && p.value != id
    ensures Balanced(MigrateToParent(st, id).st)
  {
    var w := st.wallets[id];
    if w.parent.Some? {
      var p := w.parent.value;
      var st' := MigrateToParent(st, id).st;
      forall v | v in st'.wallets ensures BalancedAt(st', v) {
        SumReassign(st.txs, st.categories, id, p, v);
      }
    }
  }

  /** The corrected migration keeps the live invariant when the parent exists. */
  lemma MigrateToParentKeepsInvariant(st: State, id: Id)
    requires Invariant(st) && id in st.wallets
    requires var p := st.wallets[id].parent; p.Some? ==> p.value in st.wallets && p.value != id
    ensures Invariant(MigrateToParent(st, id).st)
  {
    MigrateToParentKeepsBalanced(st, id);
    var w := st.wallets[id];
    if w.parent.Some? {
      ReassignKeepsWellFormed(st, MigrateToParent(st, id).st, id, w.parent.value);
    }
  }

  /** Replacing one record while moving each wallet by the change in its weight keeps
      every wallet balanced. */
  lemma ReplaceKeepsBalanced(st: State, st': State, k: Id, after: Transaction)
    requires Balanced(st) && k in st.txs
    requires st'.txs == st.txs[k := after] && st'.categories == st.categories
    requires st'.wallets.Keys == st.wallets.Keys
    requires forall w :: w in st.wallets ==>
      st'.wallets[w].money == st.wallets[w].money
        - Weigh(ByCategory(st.categories, w), st.txs[k]) + Weigh(ByCategory(st.categories, w), after)
    ensures Balanced(st')
  {
    forall w | w in st'.wallets ensures BalancedAt(st', w) {
      SumReplace(st.txs, ByCategory(st.categories, w), k, after);
    }
  }

  /** Rewriting a stored transaction with a fitting patch keeps the live invariant. */
  lemma RewriteKeepsInvariant(st: State, k: Id, p: TxPatch, unlink: bool)
    requires Invariant(st) && k in st.txs && PatchFits(st, p)
    ensures var r := Rewrite(st, k, st.txs[k], p, unlink);
      r.out.Done? && Invariant(r.st)
  {
    var r := Rewrite(st, k, st.txs[k], p, unlink);
    assert KindOf(st.categories, st.txs[k]).Some?;
    assert r.out.Done?;
    RewriteMovesMoney(st, k, st.txs[k], p, unlink);
    ReplaceKeepsBalanced(st, r.st, k, r.out.value);
    ReplaceKeepsWellFormed(st, r.st, k, r.out.value);
  }

  /** Replacing one record by one with the same id, an existing wallet, a resolving
      category and no link to itself keeps the state well formed, provided only money
      moved among the wallets. */
  lemma ReplaceKeepsWellFormed(st: State, st': State, k: Id, after: Transaction)
    requires WellFormed(st) && k in st.txs
    requires st'.txs == st.txs[k := after] && st'.categories == st.categories
    requires st'.wallets.Keys == st.wallets.Keys
    requires forall w :: w in st.wallets ==> st'.wallets[w].id == st.wallets[w].id
    requires after.id == k && after.walletId in st.wallets
    requires KindOf(st.categories, after).Some? && Partner(after) != Some(k)
    ensures WellFormed(st')
  {
  }

  /** With a live partner, `update` rewrites the partner and then the record. */
  lemma UpdateWithPartnerKeepsInvariant(st: State, prior: Transaction, patch: TxPatch)
    requires Invariant(st) && prior.id in st.txs && st.txs[prior.id] == prior && PatchFits(st, patch)
    requires Partner(prior).Some? && Partner(prior).value in st.txs
    ensures var r := Update(st, prior, patch); r.out.Done? && Invariant(r.st)
  {
    var pid := Partner(prior).value;
    var u := st.txs[pid];
    var stripped := patch.(walletId := None, category := None);
    RewriteKeepsInvariant(st, pid, stripped, false);
    var r1 := Rewrite(st, pid, u, stripped, false);
    assert r1.st.txs[prior.id] == prior;
    RewriteKeepsInvariant(r1.st, prior.id, stripped, false);
    var r2 := Rewrite(r1.st, prior.id, prior, stripped, false);
    assert Update(st, prior, patch) == Step(r2.st, Done(([u, prior], [r1.out.value, r2.out.value])));
  }

  /** Editing a stored transaction with a fitting patch succeeds and keeps the live
      invariant, transfer partner included. */
  lemma UpdateKeepsInvariant(st: State, prior: Transaction, patch: TxPatch)
    requires Invariant(st) && prior.id in st.txs && st.txs[prior.id] == prior && PatchFits(st, patch)
    ensures var r := Update(st, prior, patch); r.out.Done? && Invariant(r.st)
  {
    var pid := Partner(prior);
    if pid.Some? && pid.value in st.txs {
      UpdateWithPartnerKeepsInvariant(st, prior, patch);
    } else {
      RewriteKeepsInvariant(st, prior.id, patch, pid.Some?);
      var r1 := Rewrite(st, prior.id, prior, patch, pid.Some?);
      assert Update(st, prior, patch) == Step(r1.st, Done(([prior], [r1.out.value])));
    }
  }

  /** A new wallet starts at zero, and on a well-formed state no transaction names it
      yet, so adding it keeps the live invariant. */
  lemma WalletAddKeepsInvariant(st: State, id: Id, userId: string, name: string, iconId: Option<int>,
                                currency: Option<string>, parentId: Option<string>, now: Date)
    requires Invariant(st)
    ensures Invariant(WalletStore.Add(st, id, userId, name, iconId, currency, parentId, now).st)
  {
    var r := WalletStore.Add(st, id, userId, name, iconId, currency, parentId, now);
    if id !in st.wallets {
      SumPointwise(st.txs, ByCategory(st.categories, id), Zero);
      SumZero(st.txs);
      assert BalancedAt(r.st, id);
      assert forall k :: k in r.st.txs ==> TxWellFormed(st, k) ==> TxWellFormed(r.st, k);
    }
  }

  /** A field update never touches `money`, ids or transactions, so it keeps the live
      invariant. */
  lemma WalletUpdateKeepsInvariant(st: State, walletId: Id, patch: WalletStore.WalletPatch)
    requires Invariant(st)
    ensures Invariant(WalletStore.Update(st, walletId, patch).0)
  {
    var st' := WalletStore.Update(st, walletId, patch).0;
    assert forall w :: w in st.wallets ==> BalancedAt(st, w) ==> BalancedAt(st', w);
    assert forall k :: k in st.txs ==> TxWellFormed(st, k) ==> TxWellFormed(st', k);
  }

  /** `addChild` only extends a list of ids, so it keeps the live invariant. */
  lemma AddChildKeepsInvariant(st: State, parentId: Id, childId: Id)
    requires Invariant(st)
    ensures Invariant(WalletStore.AddChild(st, parentId, childId))
  {
    var st' := WalletStore.AddChild(st, parentId, childId);
    assert forall w :: w in st.wallets ==> BalancedAt(st, w) ==> BalancedAt(st', w);
    assert forall k :: k in st.txs ==> TxWellFormed(st, k) ==> TxWellFormed(st', k);
  }
}

=== FILE: common.dfy ===
/** Small shared vocabulary: optional values, the outcome of an operation that may
    throw, and the field-error maps every validator returns. */
module Common {

  /** `None` stands for JavaScript's `null`/`undefined`. */
  datatype Option<+T> = None | Some(value: T) {
    function GetOr(default: T): T {
      match this
      case Some(v) => v
      case None => default
    }
  }

  /** A field of an incoming message: absent, JSON `null`, or present. The validators
      treat the first two differently (`x === null` versus a method call on `undefined`). */
  datatype Field<+T> = Undefined | Null | Given(value: T)

  /** The result of an operation that can raise an exception the TypeScript does not
      anticipate (a property read on a missing record, a duplicate id on insert). */
  datatype Outcome<+T> = Done(value: T) | Crash

  /** Record identifiers (Mongo ObjectIds, user ids). The empty id names no record. */
  type Id = string

  /** The conventional "-1": no parent, the global owner, no wallet filter. */
  const SENTINEL: string := "-1"

  /** Field name -> message, as the validators build them. */
  type Errors = map<string, string>

  /** `{ ...a, ...b }`: every field of both, and `b`'s message wins on a shared field. */
  function Merge(a: Errors, b: Errors): (r: Errors)
    ensures r.Keys == a.Keys + b.Keys
    ensures forall k :: k in b ==> r[k] == b[k]
    ensures forall k :: k in a && k !in b ==> r[k] == a[k]
  {
    a + b
  }

  /** A validator's answer: the errors it found and the value it computed on the way.
      As in `validator.ts`, it is valid exactly when no error was recorded. */
  datatype Verdict<+T> = Verdict(errors: Errors, value: T) {
    predicate Valid() {
      errors == map[]
    }
  }
}

=== FILE: dates.dfy ===
/** Calendar dates: the `YYYY-MM-DD` validator, the conversion between that text and the
    stored day, and the month windows the transaction queries select. */
module Dates {
  import opened Common
  import opened Text

  type Year = y: int | 0 <= y <= 9999
  type Month = m: int | 1 <= m <= 12 witness 1
  type Day = d: int | 1 <= d <= 31 witness 1

  /** A transaction day. The store holds it as midnight UTC of that day; the regex that
      admits dates fixes the year to four digits and the month and day to their ranges. */
  datatype Date = Date(year: Year, month: Month, day: Day)

  const DATE_FORMAT_ERROR: string := "The date must be in YYYY-MM-DD format"
  const DATE_INVALID_ERROR: string := "Invalid date"

  predicate MonthField(a: char, b: char) {
    (a == '0' && '1' <= b <= '9') || (a == '1' && '0' <= b <= '2')
  }

  predicate DayField(a: char, b: char) {
    (a == '0' && '1' <= b <= '9') || ((a == '1' || a == '2') && IsDigit(b)) ||
    (a == '3' && (b == '0' || b == '1'))
  }

  /** `/^([0-9]{4})-(0[1-9]|1[0-2])-(0[1-9]|[1-2]\d|3[0-1])$/`. */
  predicate MatchesFormat(s: string) {
    |s| == 10 && AllDigits(s[..4]) && s[4] == '-' && MonthField(s[5], s[6]) &&
    s[7] == '-' && DayField(s[8], s[9])
  }

  /** The day a well-formed date string names. */
  function ParseDate(s: string): (d: Date)
    requires MatchesFormat(s)
    ensures d.year == DigitsValue(s[..4])
    ensures d.month == 10 * DigitValue(s[5]) + DigitValue(s[6])
    ensures d.day == 10 * DigitValue(s[8]) + DigitValue(s[9])
  {
    var y := DigitsValue(s[..4]);
    assert y <= 9999 by { FourDigitsBound(s[..4]); }
    Date(y, 10 * DigitValue(s[5]) + DigitValue(s[6]), 10 * DigitValue(s[8]) + DigitValue(s[9]))
  }

  lemma FourDigitsBound(s: string)
    requires |s| == 4 && AllDigits(s)
    ensures DigitsValue(s) == 1000 * DigitValue(s[0]) + 100 * DigitValue(s[1]) + 10 * DigitValue(s[2]) + DigitValue(s[3])
    ensures DigitsValue(s) <= 9999
  {
    var a, b, c := s[..1], s[..2], s[..3];
    assert s[..|s| - 1] == c && c[..|c| - 1] == b && b[..|b| - 1] == a && a[..|a| - 1] == [];
    assert DigitsValue(a) == DigitValue(s[0]);
    assert DigitsValue(b) == DigitsValue(a) * 10 + DigitValue(s[1]);
    assert DigitsValue(c) == DigitsValue(b) * 10 + DigitValue(s[2]);
  }

  lemma TwoDigits(s: string)
    requires |s| == 2 && AllDigits(s)
    ensures DigitsValue(s) == 10 * DigitValue(s[0]) + DigitValue(s[1])
  {
    var a := s[..1];
    assert s[..|s| - 1] == a && a[..|a| - 1] == [];
    assert DigitsValue(a) == DigitsValue([]) * 10 + DigitValue(s[0]);
  }

  function Pad2(n: int): (r: string)
    requires 0 <= n <= 99
    ensures |r| == 2 && AllDigits(r)
    ensures 10 * DigitValue(r[0]) + DigitValue(r[1]) == n
  {
    [DigitChar(n / 10), DigitChar(n % 10)]
  }

  function Pad4(n: int): (r: string)
    requires 0 <= n <= 9999
    ensures |r| == 4 && AllDigits(r)
    ensures DigitsValue(r) == n
  {
    var a, rest := n / 1000, n % 1000;
    var b, rest' := rest / 100, rest % 100;
    var r := [DigitChar(a), DigitChar(b), DigitChar(rest' / 10), DigitChar(rest' % 10)];
    FourDigitsBound(r);
    r
  }

  /** `toISOString().slice(0, 10)` of a stored day. */
  function FormatDate(d: Date): (s: string)
    ensures MatchesFormat(s) && ParseDate(s) == d
  {
    var s := Pad4(d.year) + "-" + Pad2(d.month) + "-" + Pad2(d.day);
    assert s[..4] == Pad4(d.year);
    assert s[5..7] == Pad2(d.month) && s[8..10] == Pad2(d.day);
    s
  }

  /** Rendering the day a well-formed string names gives that string back. */
  lemma FormatParseRoundTrip(s: string)
    requires MatchesFormat(s)
    ensures FormatDate(ParseDate(s)) == s
  {
    var d := ParseDate(s);
    var t := FormatDate(d);
    assert ParseDate(t) == d;
    YearDigitsInjective(t[..4], s[..4]);
    PairInjective(t[5], t[6], s[5], s[6]);
    PairInjective(t[8], t[9], s[8], s[9]);
    forall i | 0 <= i < 10 ensures t[i] == s[i] {
      if i < 4 {
        assert t[i] == t[..4][i] && s[i] == s[..4][i];
      }
    }
  }

  /** Two digits are determined by the number they spell. */
  lemma PairInjective(a: char, b: char, c: char, e: char)
    requires IsDigit(a) && IsDigit(b) && IsDigit(c) && IsDigit(e)
    requires 10 * DigitValue(a) + DigitValue(b) == 10 * DigitValue(c) + DigitValue(e)
    ensures a == c && b == e
  {
  }

  /** Four digits are determined by the number they spell. */
  lemma YearDigitsInjective(a: string, b: string)
    requires |a| == 4 && |b| == 4 && AllDigits(a) && AllDigits(b)
    requires DigitsValue(a) == DigitsValue(b)
    ensures a == b
  {
    FourDigitsBound(a);
    FourDigitsBound(b);
    var x, y := 100 * DigitValue(a[1]) + 10 * DigitValue(a[2]) + DigitValue(a[3]),
                100 * DigitValue(b[1]) + 10 * DigitValue(b[2]) + DigitValue(b[3]);
    assert 1000 * DigitValue(a[0]) + x == 1000 * DigitValue(b[0]) + y;
    assert DigitValue(a[0]) == DigitValue(b[0]) by {
      assert 0 <= x <= 999 && 0 <= y <= 999;
    }
    var x', y' := 10 * DigitValue(a[2]) + DigitValue(a[3]), 10 * DigitValue(b[2]) + DigitValue(b[3]);
    assert 100 * DigitValue(a[1]) + x' == 100 * DigitValue(b[1]) + y';
    assert DigitValue(a[1]) == DigitValue(b[1]) by {
      assert 0 <= x' <= 99 && 0 <= y' <= 99;
    }
    PairInjective(a[2], a[3], b[2], b[3]);
    assert forall i :: 0 <= i < 4 ==> a[i] == b[i];
  }

  predicate IsLeapYear(y: int) {
    y % 4 == 0 && (y % 100 != 0 || y % 400 == 0)
  }

  /** Length of each month of the Gregorian calendar. */
  function DaysInMonth(y: int, m: int): int {
    if m == 2 then (if IsLeapYear(y) then 29 else 28)
    else if m == 4 || m == 6 || m == 9 || m == 11 then 30
    else 31
  }

  /** The day exists on the Gregorian calendar. */
  predicate IsCalendarDay(d: Date) {
    d.day <= DaysInMonth(d.year, d.month)
  }

  function DateError(message: string): (r: Verdict<()>)
    ensures !r.Valid()
  {
    var r := Verdict(map["date" := message], ());
    assert "date" in r.errors;
    r
  }

  /** `validateDate`: the regex first, then the month-by-month checks the regex cannot
      express (February's length and leap years, the four 30-day months). */
  function ValidateDate(s: string): (r: Verdict<()>)
    ensures r.errors.Keys <= {"date"}
    ensures !MatchesFormat(s) ==> r == DateError(DATE_FORMAT_ERROR)
    ensures MatchesFormat(s) && !r.Valid() ==> r == DateError(DATE_INVALID_ERROR)
  {
    if !MatchesFormat(s) then DateError(DATE_FORMAT_ERROR)
    else
      var month := s[5..7];
      if month == "02" then
        // parseInt of a run of digits is its value (Text.ParseIntOfDigits)
        var day := DigitsValue(s[8..10]);
        if day > 29 then DateError(DATE_INVALID_ERROR)
        else if day == 29 then
          var year := DigitsValue(s[..4]);
          if !(year % 400 == 0 || (year % 4 == 0 && !(year % 100 == 0))) then DateError(DATE_INVALID_ERROR)
          else Verdict(map[], ())
        else Verdict(map[], ())
      else if month == "04" || month == "06" || month == "09" || month == "11" then
        if s[8..10] == "31" then DateError(DATE_INVALID_ERROR) else Verdict(map[], ())
      else Verdict(map[], ())
  }

  /** A string passes `validateDate` exactly when it has the `YYYY-MM-DD` shape and
      names a real Gregorian day. */
  lemma ValidateDateIsCalendar(s: string)
    ensures ValidateDate(s).Valid() <==> MatchesFormat(s) && IsCalendarDay(ParseDate(s))
  {
    if MatchesFormat(s) {
      var d := ParseDate(s);
      assert s[8..10] == [s[8], s[9]];
      TwoDigits(s[8..10]);
      assert s[5..7] == [s[5], s[6]];
      assert (s[5..7] == "02") <==> d.month == 2;
      assert (s[5..7] == "04") <==> d.month == 4;
      assert (s[5..7] == "06") <==> d.month == 6;
      assert (s[5..7] == "09") <==> d.month == 9;
      assert (s[5..7] == "11") <==> d.month == 11;
      assert (s[8..10] == "31") <==> d.day == 31;
      var y := DigitsValue(s[..4]);
      assert IsLeapYear(y) <==> (y % 400 == 0 || (y % 4 == 0 && !(y % 100 == 0)));
      if d.month == 2 {
        assert DigitsValue(s[8..10]) == d.day;
        assert y == d.year;
        assert s[5..7] == "02";
        assert ValidateDate(s).Valid() <==> IsCalendarDay(d);
      } else if d.month == 4 || d.month == 6 || d.month == 9 || d.month == 11 {
        assert s[5..7] != "02";
        assert s[5..7] == "04" || s[5..7] == "06" || s[5..7] == "09" || s[5..7] == "11";
        assert ValidateDate(s).Valid() <==> IsCalendarDay(d);
      } else {
        assert ValidateDate(s).Valid();
      }
    }
  }

  /** The two February examples: 2021-02-29 fails, 2020-02-29 passes. */
  lemma ValidateDateLeapExamples()
    ensures !ValidateDate("2021-02-29").Valid()
    ensures ValidateDate("2020-02-29").Valid()
  {
    ValidateDateIsCalendar("2021-02-29");
    ValidateDateIsCalendar("2020-02-29");
    FourDigitsBound("2021");
    FourDigitsBound("2020");
  }

  /** The two April examples: 2021-04-31 fails, 2021-04-30 passes. */
  lemma ValidateDateShortMonthExamples()
    ensures !ValidateDate("2021-04-31").Valid()
    ensures ValidateDate("2021-04-30").Valid()
  {
    ValidateDateIsCalendar("2021-04-31");
    ValidateDateIsCalendar("2021-04-30");
  }

  /** `Date.UTC` reads years 0..99 as 1900..1999. */
  function FullYear(y: int): int {
    if 0 <= y <= 99 then 1900 + y else y
  }

  /** Months counted from January of year 0. */
  function MonthNumber(d: Date): int {
    d.year * 12 + d.month - 1
  }

  /** The month `Date.UTC(y, monthIndex, 1)` falls in; month indexes outside 0..11 roll
      over into neighbouring years. */
  function UtcMonth(y: int, monthIndex: int): int {
    FullYear(y) * 12 + monthIndex
  }

  /** The day lies in `[first day of month a, first day of month b)`. The stored days
      are whole days at midnight, so the live query's upper bound one second before the
      first day of month `b` selects the same days. */
  predicate InWindow(d: Date, a: int, b: int) {
    a <= MonthNumber(d) < b
  }

  /** The window `[Date.UTC(y, m - 1, 1), Date.UTC(y, m, 1))` holds exactly the days of
      one calendar month: month `m` of year `y` after the roll-over of `Date.UTC`. */
  lemma MonthWindowIsOneMonth(d: Date, y: int, m: int)
    ensures InWindow(d, UtcMonth(y, m - 1), UtcMonth(y, m)) <==>
      d.year == FullYear(y) + (m - 1) / 12 && d.month == (m - 1) % 12 + 1
  {
  }
}

=== FILE: handler_proofs.dfy ===
/** What the live handlers promise together: no message breaks `Ledger.Invariant`, and a
    transaction added through a message can be taken back by another. */
module HandlerProofs {
  import opened Common
  import opened Ledger
  import WalletStore
  import TransactionStore
  import Bookkeeping
  import opened Validator
  import opened MessageProcessor

  lemma AddTransactionKeepsInvariant(st: State, env: Env, p: Payload)
    requires Invariant(st)
    ensures Invariant(AddTransaction(st, env, p).st)
  {
    var r := AddTransaction(st, env, p);
    if r.st != st {
      AddTransactionAccepts(st, env, p);
      var amount := ValidateAmount(ParseAmount(env, p.amount.value));
      Dates.ValidateDateIsCalendar(p.date.value);
      Bookkeeping.AddKeepsInvariant(st, env.newId, p.userId, p.walletId, Text.Trim(p.concept.value),
                                    amount.value.value, Dates.ParseDate(p.date.value), p.category.value);
    }
  }

  lemma EditTransactionKeepsInvariant(st: State, env: Env, p: Payload)
    requires Invariant(st)
    ensures Invariant(EditTransaction(st, env, p).st)
  {
    var r := EditTransaction(st, env, p);
    if r.st != st {
      var prior := st.txs[p.id];
      var c := EditContent(st, env, p, prior);
      assert TransactionStore.PatchFits(st, c.value.1);
      Bookkeeping.UpdateKeepsInvariant(st, prior, c.value.1);
    }
  }

  lemma AddWalletKeepsInvariant(st: State, env: Env, p: Payload)
    requires Invariant(st) && env.otherCategory in st.categories
    ensures Invariant(AddWallet(st, env, p).st)
  {
    var r := AddWallet(st, env, p);
    if r.st != st {
      var name := Text.Trim(p.name.value);
      var s1 := WalletStore.Add(st, env.newId, p.userId, name, None, None, None, env.now);
      Bookkeeping.WalletAddKeepsInvariant(st, env.newId, p.userId, name, None, None, None, env.now);
      var amount := ValidateAmount(if p.money.Given? && Truthy(p.money.value) then ParseAmount(env, p.money.value) else None);
      if s1.out.Done? && amount.value.Some? && amount.value.value > 0 && env.initialId !in s1.st.txs {
        Bookkeeping.AddKeepsInvariant(s1.st, env.initialId, p.userId, env.newId, "Initial transaction",
                                      amount.value.value, env.now, env.otherCategory);
      }
    }
  }

  lemma DeleteTransactionKeepsInvariant(st: State, p: Payload)
    requires Invariant(st)
    ensures Invariant(DeleteTransaction(st, p).st)
  {
    Bookkeeping.DeleteKeepsInvariant(st, p.id);
  }

  lemma DeleteWalletKeepsInvariant(st: State, p: Payload)
    requires Invariant(st)
    ensures Invariant(DeleteWallet(st, p).st)
  {
    WalletStore.DeleteKeepsInvariant(st, p.id);
  }

  lemma EditWalletKeepsInvariant(st: State, p: Payload)
    requires Invariant(st)
    ensures Invariant(EditWallet(st, p).st)
  {
    if p.name.Given? {
      Bookkeeping.WalletUpdateKeepsInvariant(st, p.id, WalletStore.WalletPatch(Some(Text.Trim(p.name.value)), None, None, None));
    }
  }

  /** Every message leaves a store that satisfies the live invariant, provided the
      configured "Other" category exists. */
  lemma ProcessKeepsInvariant(st: State, env: Env, req: Request)
    requires Invariant(st) && env.otherCategory in st.categories
    ensures Invariant(Process(st, env, req).st)
  {
    var p := req.payload;
    var r := Process(st, env, req);
    var kind := Classify(req.kind);
    if kind == AddTransactionKind {
      AddTransactionKeepsInvariant(st, env, p);
      assert r == AddTransaction(st, env, p);
    } else if kind == DeleteTransactionKind {
      DeleteTransactionKeepsInvariant(st, p);
      assert r == DeleteTransaction(st, p);
    } else if kind == EditTransactionKind {
      EditTransactionKeepsInvariant(st, env, p);
      assert r == EditTransaction(st, env, p);
    } else if kind == AddWalletKind {
      AddWalletKeepsInvariant(st, env, p);
      assert r == AddWallet(st, env, p);
    } else if kind == DeleteWalletKind {
      DeleteWalletKeepsInvariant(st, p);
      assert r == DeleteWallet(st, p);
    } else if kind == EditWalletKind {
      EditWalletKeepsInvariant(st, p);
      assert r == EditWallet(st, p);
    }
  }

  /** A `delete-Transaction` from the same user for the transaction `add-Transaction` just
      created restores the store exactly and answers with that transaction. */
  lemma AddThenDeleteTransaction(st: State, env: Env, p: Payload)
    requires AddTransaction(st, env, p).response.Ok?
    ensures var r := AddTransaction(st, env, p);
      var t := r.response.body.tx;
      DeleteTransaction(r.st, p.(id := t.id)) == Reply(st, Ok(TxList([t])))
  {
    var r := AddTransaction(st, env, p);
    var t := r.response.body.tx;
    AddTransactionAccepts(st, env, p);
    var amount := ValidateAmount(ParseAmount(env, p.amount.value));
    Dates.ValidateDateIsCalendar(p.date.value);
    TransactionStore.AddThenDelete(st, env.newId, p.userId, p.walletId, Text.Trim(p.concept.value),
                                   amount.value.value, Dates.ParseDate(p.date.value), p.category.value);
  }

  /** After a successful rename, `get-Wallet` shows the trimmed new name. */
  lemma EditWalletThenGet(st: State, p: Payload)
    requires var r := EditWallet(st, p); r.response.Ok? && r.response != Ok(NoBody)
    ensures GetWallet(EditWallet(st, p).st, p).response == Ok(OneWallet(st.wallets[p.id].(name := Text.Trim(p.name.value))))
  {
  }
}

=== FILE: ledger.dfy ===
/** The records the service keeps and the bookkeeping they must agree with.

    Wallets, transactions and categories are documents keyed by id; a wallet's `money` is
    a running total that every store operation adjusts, and the invariant the stores are
    written to keep is that it equals the signed sum of the transactions that reference
    the wallet. Amounts are whole cents. */
module Ledger {
  import opened Common
  import opened Dates

  const INCOME: string := "Income"
  const EXPENSE: string := "Expense"

  /** A wallet. `parent` is `None` for a top-level wallet (the store writes `null` for
      the "-1" sentinel); `children` is the list `addChild` appends to. */
  datatype Wallet = Wallet(
    id: Id,
    userId: string,
    iconId: Option<int>,
    parent: Option<Id>,
    children: seq<Id>,
    name: string,
    currency: Option<string>,
    money: int,
    createdAt: Date)

  /** A category; `userId` "-1" marks a global one, and `kind` decides the sign of the
      transactions filed under it. */
  datatype Category = Category(id: Id, parentId: string, name: string, userId: string, kind: string)

  /** A transaction. The live store keeps a non-negative `amount` and takes the sign from
      the category; the earlier store keeps a signed `amount` and has no category. */
  datatype Transaction = Transaction(
    id: Id,
    userId: string,
    walletId: Id,
    transferId: Option<Id>,
    category: Option<Id>,
    concept: string,
    amount: int,
    excludeFromReport: Option<bool>,
    date: Date)

  /** The three collections, as finite maps from id to document. */
  datatype State = State(
    wallets: map<Id, Wallet>,
    txs: map<Id, Transaction>,
    categories: map<Id, Category>)

  /** The state a store operation leaves behind and what it returned, or `Crash` when it
      threw; the state is then the one reached before the throw, since earlier writes
      are not rolled back. */
  datatype Step<+T> = Step(st: State, out: Outcome<T>)

  /** The transactions that survive a bulk `deleteMany({ wallet_id: ... })` over a set of
      wallets. */
  function TxsOutside(txs: map<Id, Transaction>, walletIds: set<Id>): (r: map<Id, Transaction>)
    ensures forall k :: k in r <==> k in txs && txs[k].walletId !in walletIds
    ensures forall k :: k in r ==> r[k] == txs[k]
  {
    map k | k in txs && txs[k].walletId !in walletIds :: txs[k]
  }

  /** `type == 'Income' ? amount : amount * -1`: every kind other than "Income" debits. */
  function Signed(kind: string, amount: int): (v: int)
    ensures kind == INCOME ==> v == amount
    ensures kind != INCOME ==> v == -amount
  {
    if kind == INCOME then amount else -amount
  }

  /** The kind `populate('category')` yields for a transaction, or `None` when the
      category does not resolve (a later `.category.type` then throws). */
  function KindOf(cats: map<Id, Category>, t: Transaction): Option<string> {
    if t.category.Some? && t.category.value in cats then Some(cats[t.category.value].kind) else None
  }

  /** The transfer partner, if `transfer_id` is set (an empty id is falsy). */
  function Partner(t: Transaction): Option<Id> {
    if t.transferId.Some? && t.transferId.value != "" then t.transferId else None
  }

  /** What a transaction adds to its wallet in the live store. One whose category does
      not resolve adds nothing: every live path that would apply it throws first. */
  function Contribution(cats: map<Id, Category>, t: Transaction): int {
    match KindOf(cats, t)
    case Some(k) => Signed(k, t.amount)
    case None => 0
  }

  /** How much a transaction counts towards one wallet's total: by its category (live),
      by its raw amount (earlier store), or not at all. */
  datatype Weight = ByCategory(cats: map<Id, Category>, wallet: Id) | Raw(wallet: Id) | Zero

  function Weigh(wt: Weight, t: Transaction): int {
    match wt
    case ByCategory(cats, w) => if t.walletId == w then Contribution(cats, t) else 0
    case Raw(w) => if t.walletId == w then t.amount else 0
    case Zero => 0
  }

  /** The weighted sum over every transaction in the collection. */
  ghost function Sum(txs: map<Id, Transaction>, wt: Weight): int
    decreases txs.Keys
  {
    if txs.Keys == {} then 0
    else
      var k :| k in txs;
      Weigh(wt, txs[k]) + Sum(txs - {k}, wt)
  }

  /** Any transaction can be taken out of the sum first. */
  lemma {:induction false} SumRemove(txs: map<Id, Transaction>, wt: Weight, k: Id)
    requires k in txs
    ensures Sum(txs, wt) == Weigh(wt, txs[k]) + Sum(txs - {k}, wt)
    decreases txs.Keys
  {
    var j :| j in txs && Sum(txs, wt) == Weigh(wt, txs[j]) + Sum(txs - {j}, wt);
    if j != k {
      var rest := txs - {j} - {k};
      assert txs - {k} - {j} == rest;
      SumRemove(txs - {j}, wt, k);
      SumRemove(txs - {k}, wt, j);
    }
  }

  /** Storing `t` under `k` replaces `k`'s old weight (if any) by `t`'s. */
  lemma SumReplace(txs: map<Id, Transaction>, wt: Weight, k: Id, t: Transaction)
    ensures Sum(txs[k := t], wt) == Sum(txs, wt) - (if k in txs then Weigh(wt, txs[k]) else 0) + Weigh(wt, t)
  {
    SumRemove(txs[k := t], wt, k);
    assert txs[k := t] - {k} == txs - {k};
    if k in txs {
      SumRemove(txs, wt, k);
    } else {
      assert txs - {k} == txs;
    }
  }

  /** Two collections over the same ids whose weights add up one by one have sums that
      add up. */
  lemma {:induction false} SumLinear(txs: map<Id, Transaction>, txs': map<Id, Transaction>, a: Weight, b: Weight, c: Weight)
    requires txs'.Keys == txs.Keys
    requires forall k :: k in txs ==> Weigh(a, txs'[k]) == Weigh(b, txs[k]) + Weigh(c, txs[k])
    ensures Sum(txs', a) == Sum(txs, b) + Sum(txs, c)
    decreases txs.Keys
  {
    if txs.Keys != {} {
      var k :| k in txs;
      SumRemove(txs', a, k);
      SumRemove(txs, b, k);
      SumRemove(txs, c, k);
      SumLinear(txs - {k}, txs' - {k}, a, b, c);
    }
  }

  lemma {:induction false} SumZero(txs: map<Id, Transaction>)
    ensures Sum(txs, Zero) == 0
    decreases txs.Keys
  {
    if txs.Keys != {} {
      var k :| k in txs;
      SumRemove(txs, Zero, k);
      SumZero(txs - {k});
    }
  }

  /** Weights that agree on every transaction give the same sum. */
  lemma SumPointwise(txs: map<Id, Transaction>, a: Weight, b: Weight)
    requires forall k :: k in txs ==> Weigh(a, txs[k]) == Weigh(b, txs[k])
    ensures Sum(txs, a) == Sum(txs, b)
  {
    SumZero(txs);
    SumLinear(txs, txs, a, b, Zero);
  }

  /** Dropping transactions that weigh nothing leaves the sum alone. */
  lemma {:induction false} SumSubmap(txs: map<Id, Transaction>, kept: map<Id, Transaction>, wt: Weight)
    requires kept.Keys <= txs.Keys
    requires forall k :: k in kept ==> kept[k] == txs[k]
    requires forall k :: k in txs && k !in kept ==> Weigh(wt, txs[k]) == 0
    ensures Sum(kept, wt) == Sum(txs, wt)
    decreases txs.Keys
  {
    if txs.Keys != {} {
      var k :| k in txs;
      SumRemove(txs, wt, k);
      if k in kept {
        SumRemove(kept, wt, k);
        SumSubmap(txs - {k}, kept - {k}, wt);
      } else {
        SumSubmap(txs - {k}, kept, wt);
      }
    }
  }

  /** The sum over a single transaction is its weight. */
  lemma SumSingle(k: Id, t: Transaction, wt: Weight)
    ensures Sum(map[k := t], wt) == Weigh(wt, t)
  {
    SumRemove(map[k := t], wt, k);
    assert map[k := t] - {k} == map[];
  }

  /** The live bookkeeping invariant at one wallet: its money is the signed sum of the
      transactions filed against it. */
  ghost predicate BalancedAt(st: State, w: Id)
    requires w in st.wallets
  {
    st.wallets[w].money == Sum(st.txs, ByCategory(st.categories, w))
  }

  /** The live bookkeeping invariant: every wallet is balanced. */
  ghost predicate Balanced(st: State) {
    forall w :: w in st.wallets ==> BalancedAt(st, w)
  }

  /** The earlier store's invariant: money is the sum of the raw, signed amounts. */
  ghost predicate LegacyBalanced(st: State) {
    forall w :: w in st.wallets ==> st.wallets[w].money == Sum(st.txs, Raw(w))
  }

  /** A stored transaction sits under its own id, its wallet and category exist, and it
      is not its own transfer partner. */
  ghost predicate TxWellFormed(st: State, k: Id)
    requires k in st.txs
  {
    var t := st.txs[k];
    t.id == k && t.walletId in st.wallets && KindOf(st.categories, t).Some? && Partner(t) != Some(k)
  }

  /** The shape every reachable live state has: wallets sit under their own id and every
      transaction is well formed. */
  ghost predicate WellFormed(st: State) {
    && (forall k :: k in st.wallets ==> st.wallets[k].id == k)
    && (forall k :: k in st.txs ==> TxWellFormed(st, k))
  }

  /** The invariant the live message handlers keep. */
  ghost predicate Invariant(st: State) {
    WellFormed(st) && Balanced(st)
  }
}

=== FILE: legacy_routes.dfy ===
/** The earlier message handlers (`src/routes/transaction` and `src/routes/wallet`),
    which write through the earlier stores. `add-Transaction` and `edit-Transaction` have
    no `try`: an exception leaves them as a `Crash` with the store reached so far.
    `add-Wallet` and `edit-Wallet` catch everything and answer 500. An edit that changes
    nothing answers an empty 304. */
module LegacyRoutes {
  import opened Common
  import opened Text
  import opened Dates
  import opened Ledger
  import WalletStore
  import TransactionStore
  import LegacyWallets
  import LegacyTransactions
  import opened Validator
  import opened MessageProcessor

  /** `message.x.toString()`: throws on a missing or `null` field. */
  function Stringify(v: Field<Scalar>, env: Env): Outcome<Option<real>> {
    match v
    case Given(x) => Done(ParseAmount(env, x))
    case _ => Crash
  }

  /** `add-Transaction`: the wallet must be the user's (403); amount, date and concept are
      validated together (422); then the trimmed concept and the amount rounded to cents
      are stored as a signed amount. A missing amount, date or concept throws. */
  function AddTransaction(st: State, env: Env, p: Payload): (r: Step<Response>)
    ensures !(p.userId != "" && p.walletId in st.wallets && st.wallets[p.walletId].userId == p.userId) ==>
      r == Step(st, Done(Failure(403, AUTH_ERROR, map["wallet" := WALLET_OWNER_ERROR])))
    ensures r.out.Done? && r.out.value.Failure? ==> r.st == st
    ensures r.out.Crash? && env.newId !in st.txs ==> r.st == st
    ensures r.out.Done? && r.out.value.Ok? ==>
      && r.out.value.body.OneTx?
      && var t := r.out.value.body.tx;
      && p.walletId in st.wallets && st.wallets[p.walletId].userId == p.userId
      && p.concept.Given? && Visible(p.concept.value) && t.concept == Trim(p.concept.value)
      && p.date.Given? && IsDayText(p.date.value) && t.date == ParseDate(p.date.value)
      && p.amount.Given? && ParseAmount(env, p.amount.value).Some?
      && t.amount == ValidateAmount(ParseAmount(env, p.amount.value)).value.value
      && t.id == env.newId && t.userId == p.userId && t.walletId == p.walletId && t.category.None?
      && r.st.txs == st.txs[t.id := t]
      && r.st.wallets == LegacyWallets.UpdateAmount(st, p.walletId, t.amount).wallets
    ensures p.userId != "" && p.walletId in st.wallets && st.wallets[p.walletId].userId == p.userId ==>
      (!p.amount.Given? || !p.date.Given? || p.concept.Undefined? ==> r == Step(st, Crash))
    ensures p.userId != "" && p.walletId in st.wallets && st.wallets[p.walletId].userId == p.userId &&
            p.amount.Given? && p.date.Given? && !p.concept.Undefined? ==>
      var errors := Merge(Merge(ValidateAmount(ParseAmount(env, p.amount.value)).errors,
                                ValidateDate(p.date.value).errors),
                          ValidateConcept(p.concept).value.errors);
      && (errors != map[] ==> r == Step(st, Done(Failure(422, INVALID_ERROR, errors))))
      && (errors == map[] ==> !(r.out.Done? && r.out.value.Failure?))
  {
    var own := WalletOwnership(st, p.userId, p.walletId);
    if !own.Valid() then Step(st, Done(Failure(403, AUTH_ERROR, own.errors)))
    else
      match (Stringify(p.amount, env), p.date, ValidateConcept(p.concept))
      case (Done(parsed), Given(date), Done(concept)) =>
        var amount := ValidateAmount(parsed);
        var day := ValidateDate(date);
        ValidateDateIsCalendar(date);
        var errors := Merge(Merge(amount.errors, day.errors), concept.errors);
        if errors != map[] then Step(st, Done(Failure(422, INVALID_ERROR, errors)))
        else
          var s := LegacyTransactions.Add(st, env.newId, p.userId, p.walletId, Trim(p.concept.value),
                                          amount.value.value, ParseDate(date));
          (match s.out
           case Crash => Step(s.st, Crash)
           case Done(t) => Step(s.st, Done(Ok(OneTx(t)))))
      case _ => Step(st, Crash)
  }

  /** A well-formed `add-Transaction` from the wallet's owner is accepted exactly when the
      amount parses, the date is a real day and the concept is visible. */
  lemma AddTransactionAccepts(st: State, env: Env, p: Payload)
    requires p.userId != "" && p.walletId in st.wallets && st.wallets[p.walletId].userId == p.userId
    requires p.amount.Given? && p.date.Given? && p.concept.Given? && env.newId !in st.txs
    ensures AddTransaction(st, env, p).out.Done?
    ensures AddTransaction(st, env, p).out.value.Ok? <==>
      ParseAmount(env, p.amount.value).Some? && IsDayText(p.date.value) && Visible(p.concept.value)
  {
    ValidateDateIsCalendar(p.date.value);
  }

  /** `edit-Transaction`: after the ownership check, the wallet, concept, amount and date
      that differ from the stored record are validated (422 on any error) and gathered;
      nothing to change answers 304, and otherwise the earlier store's `update` runs. */
  function EditTransaction(st: State, env: Env, p: Payload): (r: Step<Response>)
    ensures !(p.userId != "" && p.id in st.txs && st.txs[p.id].userId == p.userId) ==>
      r == Step(st, Done(Failure(403, AUTH_ERROR, map["transaction" := TRANSACTION_OWNER_ERROR])))
    ensures r.out.Done? && !r.out.value.Ok? ==> r.st == st
    ensures r.out.Crash? && p.id in st.txs && st.txs[p.id].id == p.id ==> false
    ensures r.out.Done? && r.out.value.Ok? ==>
      && p.id in st.txs && st.txs[p.id].userId == p.userId
      && var prior := st.txs[p.id];
      && var patch := TransactionStore.TxPatch(WalletChange(st, p, prior).value, ConceptChange(p, prior).value,
                                               None, AmountChange(env, p, prior).value, DateChange(prior.date, p.date).1);
      && patch != NO_CHANGE
      && Merge(Merge(Merge(WalletChange(st, p, prior).errors, ConceptChange(p, prior).errors),
                     AmountChange(env, p, prior).errors), DateChange(prior.date, p.date).0) == map[]
      && var s := LegacyTransactions.Update(st, prior, patch);
      && s.out.Done? && r == Step(s.st, Done(Ok(OneTx(s.out.value))))
    ensures p.userId != "" && p.id in st.txs && st.txs[p.id].userId == p.userId ==>
      var prior := st.txs[p.id];
      var errors := Merge(Merge(Merge(WalletChange(st, p, prior).errors, ConceptChange(p, prior).errors),
                                AmountChange(env, p, prior).errors), DateChange(prior.date, p.date).0);
      var patch := TransactionStore.TxPatch(WalletChange(st, p, prior).value, ConceptChange(p, prior).value,
                                            None, AmountChange(env, p, prior).value, DateChange(prior.date, p.date).1);
      && (errors != map[] ==> r == Step(st, Done(Failure(422, INVALID_ERROR, errors))))
      && (errors == map[] && patch == NO_CHANGE ==> r == Step(st, Done(NotModified)))
      && (errors == map[] && patch != NO_CHANGE ==> r.out.Done? ==> r.out.value.Ok?)
  {
    var own := TransactionOwnership(st, p.userId, p.id);
    if !own.Valid() then Step(st, Done(Failure(403, AUTH_ERROR, own.errors)))
    else
      var prior := own.value.value;
      var wallet := WalletChange(st, p, prior);
      var concept := ConceptChange(p, prior);
      var amount := AmountChange(env, p, prior);
      var date := DateChange(prior.date, p.date);
      var errors := Merge(Merge(Merge(wallet.errors, concept.errors), amount.errors), date.0);
      var patch := TransactionStore.TxPatch(wallet.value, concept.value, None, amount.value, date.1);
      if errors != map[] then Step(st, Done(Failure(422, INVALID_ERROR, errors)))
      else if patch == NO_CHANGE then Step(st, Done(NotModified))
      else
        var s := LegacyTransactions.Update(st, prior, patch);
        match s.out
        case Crash => Step(s.st, Crash)
        case Done(t) => Step(s.st, Done(Ok(OneTx(t))))
  }

  /** `add-Wallet`: the name and the opening amount are validated together (422); a
      missing or `null` amount throws and answers 500. The wallet is created with the
      trimmed name and, when the rounded amount is positive, an "Initial transaction" of
      that amount opens it; the reply reports the amount as the wallet's money. */
  function AddWallet(st: State, env: Env, p: Payload): (r: Reply)
    ensures r.response.Failure? && r.response.status != 500 ==> r.st == st
    ensures r.response.Ok? ==>
      && r.response.body.OneWallet?
      && var w := r.response.body.wallet;
      && p.name.Given? && Visible(p.name.value) && WalletStore.GetByName(st, p.userId, p.name.value) == {}
      && p.money.Given? && ParseAmount(env, p.money.value).Some?
      && env.newId !in st.wallets && env.newId in r.st.wallets
      && w.id == env.newId && w.userId == p.userId && w.name == Trim(p.name.value) && w.parent.None?
      && r.st.wallets[env.newId] == w
      && w.money == (if ValidateAmount(ParseAmount(env, p.money.value)).value.value > 0
                     then ValidateAmount(ParseAmount(env, p.money.value)).value.value else 0)
      && (forall k :: k in st.wallets ==> k in r.st.wallets && r.st.wallets[k] == st.wallets[k])
    ensures r.response.Ok? && r.response.body.wallet.money > 0 && env.initialId !in st.txs ==>
      r.st.txs == st.txs[env.initialId := Transaction(env.initialId, p.userId, env.newId, None, None,
                                                       "Initial transaction", r.response.body.wallet.money, None, env.now)]
    ensures !p.money.Given? ==> r == Unexpected(st)
    ensures p.money.Given? ==>
      var errors := Merge(ValidateWalletName(st, p.name, p.userId).errors,
                          ValidateAmount(ParseAmount(env, p.money.value)).errors);
      && (errors != map[] ==> r == Invalid(st, errors))
      && (errors == map[] ==> !Refused(r))
  {
    var name := ValidateWalletName(st, p.name, p.userId);
    match Stringify(p.money, env)
    case Crash => Unexpected(st)
    case Done(parsed) =>
      var amount := ValidateAmount(parsed);
      var errors := Merge(name.errors, amount.errors);
      if errors != map[] then Invalid(st, errors)
      else
        var s1 := LegacyWallets.Add(st, env.newId, p.userId, Trim(p.name.value), env.now);
        match s1.out
        case Crash => Unexpected(s1.st)
        case Done(w) =>
          var rounded := amount.value.value;
          if rounded > 0 then
            var s2 := LegacyTransactions.Add(s1.st, env.initialId, w.userId, w.id, "Initial transaction", rounded, w.createdAt);
            Reply(s2.st, Ok(OneWallet(w.(money := rounded))))
          else Reply(s1.st, Ok(OneWallet(w)))
  }

  /** The part of `edit-Wallet` both versions share: `None` when the reply is already
      decided (403, 304 or 422), otherwise the new, trimmed name. */
  function RenameTo(st: State, p: Payload): (r: Option<string>)
    ensures r.Some? <==>
      && p.userId != "" && p.id in st.wallets && st.wallets[p.id].userId == p.userId
      && p.name.Given? && Trim(p.name.value) != st.wallets[p.id].name
      && Visible(p.name.value) && WalletStore.GetByName(st, p.userId, p.name.value) == {}
    ensures r.Some? ==> r.value == Trim(p.name.value)
  {
    if WalletOwnership(st, p.userId, p.id).Valid() && p.name.Given? && p.name.value != ""
       && Trim(p.name.value) != st.wallets[p.id].name && ValidateWalletName(st, p.name, p.userId).Valid()
    then Some(Trim(p.name.value))
    else None
  }

  /** The reply `edit-Wallet` gives before it writes, if any. */
  function EditWalletGuard(st: State, p: Payload): (r: Reply)
    ensures r.st == st
    ensures !(p.userId != "" && p.id in st.wallets && st.wallets[p.id].userId == p.userId) ==>
      r.response == Failure(403, AUTH_ERROR, map["wallet" := WALLET_OWNER_ERROR])
    ensures p.userId != "" && p.id in st.wallets && st.wallets[p.id].userId == p.userId ==>
      (r.response == NotModified <==>
         !(p.name.Given? && p.name.value != "" && Trim(p.name.value) != st.wallets[p.id].name))
    ensures r.response.Failure? && r.response.status == 422 ==> r.response.errors == ValidateWalletName(st, p.name, p.userId).errors
  {
    var own := WalletOwnership(st, p.userId, p.id);
    if !own.Valid() then Forbidden(st, own.errors)
    else if !(p.name.Given? && p.name.value != "" && Trim(p.name.value) != st.wallets[p.id].name) then Reply(st, NotModified)
    else Invalid(st, ValidateWalletName(st, p.name, p.userId).errors)
  }

  /** `edit-Wallet` as written: once a valid new name is gathered it calls `DbWallets.update`,
      which the earlier wallet store does not define; the `TypeError` is caught and
      answered 500, so no wallet is ever renamed. */
  function EditWalletAsWritten(st: State, p: Payload): (r: Reply)
    ensures r.st == st
    ensures !r.response.Ok?
    ensures RenameTo(st, p).Some? <==> r == Unexpected(st)
  {
    match RenameTo(st, p)
    case None => EditWalletGuard(st, p)
    case Some(_) => Unexpected(st)
  }

  /** `edit-Wallet` corrected: the valid new name is written and the renamed wallet sent
      back. */
  function EditWallet(st: State, p: Payload): (r: Reply)
    ensures r.response.Ok? <==> RenameTo(st, p).Some?
    ensures !r.response.Ok? ==> r.st == st
    ensures r.response.Ok? ==>
      && r.st.txs == st.txs && r.st.wallets.Keys == st.wallets.Keys
      && r.st.wallets[p.id] == st.wallets[p.id].(name := Trim(p.name.value))
      && r.response == Ok(MaybeWallet(Some(r.st.wallets[p.id])))
      && (forall k :: k in st.wallets && k != p.id ==> r.st.wallets[k] == st.wallets[k])
  {
    match RenameTo(st, p)
    case None => EditWalletGuard(st, p)
    case Some(name) =>
      var (st', updated) := WalletStore.Update(st, p.id, WalletStore.WalletPatch(Some(name), None, None, None));
      Reply(st', Ok(MaybeWallet(updated)))
  }

  /** The two versions differ on exactly the valid renames: there the one as written
      answers 500 and the corrected one writes the name. */
  lemma EditWalletAsWrittenDiffers(st: State, p: Payload)
    ensures EditWallet(st, p).response.Ok? <==> EditWalletAsWritten(st, p) != EditWallet(st, p)
    ensures EditWallet(st, p).response.Ok? ==> EditWalletAsWritten(st, p) == Unexpected(st)
  {
  }

  /** Every plain rename shows the difference: when the owner sends a visible, already
      trimmed name that none of their wallets has, the handler as written answers 500 and
      leaves the store alone, while the corrected one stores the name. */
  lemma EditWalletAsWrittenRefusesRename(st: State, p: Payload)
    requires p.userId != "" && p.id in st.wallets && st.wallets[p.id].userId == p.userId
    requires p.name.Given? && Visible(p.name.value) && Trim(p.name.value) == p.name.value
    requires WalletStore.GetByName(st, p.userId, p.name.value) == {}
    ensures EditWalletAsWritten(st, p) == Unexpected(st)
    ensures p.id in EditWallet(st, p).st.wallets && EditWallet(st, p).st.wallets[p.id].name == p.name.value
  {
    assert st.wallets[p.id].name != p.name.value;
    assert RenameTo(st, p).Some?;
  }

  // ------------------------------------------------------------------ the invariant

  /** A fresh `add-Transaction` keeps every wallet equal to its raw sum. */
  lemma AddTransactionKeepsBalance(st: State, env: Env, p: Payload)
    requires LegacyBalanced(st) && env.newId !in st.txs
    ensures LegacyBalanced(AddTransaction(st, env, p).st)
  {
    var r := AddTransaction(st, env, p);
    if r.st != st {
      var t := r.out.value.body.tx;
      LegacyTransactions.AddKeepsBalance(st, env.newId, p.userId, p.walletId, t.concept, t.amount, t.date);
    }
  }

  /** `edit-Transaction` keeps every wallet balanced when records sit under their ids. */
  lemma EditTransactionKeepsBalance(st: State, env: Env, p: Payload)
    requires LegacyBalanced(st) && forall k :: k in st.txs ==> st.txs[k].id == k
    ensures LegacyBalanced(EditTransaction(st, env, p).st)
  {
    var r := EditTransaction(st, env, p);
    if r.st != st {
      var prior := st.txs[p.id];
      var patch := TransactionStore.TxPatch(WalletChange(st, p, prior).value, ConceptChange(p, prior).value,
                                            None, AmountChange(env, p, prior).value, DateChange(prior.date, p.date).1);
      LegacyTransactions.UpdateKeepsBalance(st, prior, patch);
    }
  }

  /** `add-Wallet` with fresh ids keeps every wallet balanced, the new one included. */
  lemma AddWalletKeepsBalance(st: State, env: Env, p: Payload)
    requires LegacyBalanced(st) && env.initialId !in st.txs
    requires forall k :: k in st.txs ==> st.txs[k].walletId != env.newId
    ensures LegacyBalanced(AddWallet(st, env, p).st)
  {
    var r := AddWallet(st, env, p);
    if r.st != st {
      var s1 := LegacyWallets.Add(st, env.newId, p.userId, Trim(p.name.value), env.now);
      var w := s1.out.value;
      LegacyTransactions.WalletAddKeepsBalance(st, env.newId, p.userId, Trim(p.name.value), env.now);
      if r.st != s1.st {
        var rounded := r.response.body.wallet.money;
        LegacyTransactions.AddKeepsBalance(s1.st, env.initialId, w.userId, w.id, "Initial transaction", rounded, w.createdAt);
      }
    }
  }

  /** The corrected `edit-Wallet` renames only, so the balance is kept. */
  lemma EditWalletKeepsBalance(st: State, p: Payload)
    requires LegacyBalanced(st)
    ensures LegacyBalanced(EditWallet(st, p).st)
  {
  }
}

=== FILE: legacy_transactions.dfy ===
/** The earlier transaction store (`src/database/schemas/dbTransactions.ts`): records
    carry a signed amount and no category, and every write moves the wallet by the raw
    amount, so the invariant it keeps is `Ledger.LegacyBalanced`. Its `getById` and
    `deleteAll` run the same queries as the live store and are modelled by
    `TransactionStore.GetById` and `TransactionStore.DeleteAll`. */
module LegacyTransactions {
  import opened Common
  import opened Text
  import opened Dates
  import opened Ledger
  import LegacyWallets
  import TransactionStore

  /** `add`: the record holds the amount as given and the wallet moves by it. The save is
      not awaited, so a reused id still moves the wallet before the insert fails. */
  function Add(st: State, id: Id, userId: string, walletId: Id, concept: string, amount: int, date: Date): (r: Step<Transaction>)
    ensures r.st.wallets == LegacyWallets.UpdateAmount(st, walletId, amount).wallets
    ensures r.st.categories == st.categories
    ensures r.out.Done? <==> id !in st.txs
    ensures r.out.Done? ==>
      && r.out.value == Transaction(id, userId, walletId, None, None, concept, amount, None, date)
      && r.st.txs == st.txs[id := r.out.value]
    ensures r.out.Crash? ==> r.st.txs == st.txs
  {
    var st1 := LegacyWallets.UpdateAmount(st, walletId, amount);
    if id in st.txs then Step(st1, Crash)
    else
      var t := Transaction(id, userId, walletId, None, None, concept, amount, None, date);
      Step(st1.(txs := st1.txs[id := t]), Done(t))
  }

  /** `delete`: remove the record and move its wallet back by its amount; a missing
      record is `null`, and reading its `wallet_id` throws before anything is written. */
  function Delete(st: State, k: Id): (r: Step<Transaction>)
    ensures k !in st.txs ==> r == Step(st, Crash)
    ensures k in st.txs ==>
      && r.out == Done(st.txs[k])
      && r.st.txs == st.txs - {k} && r.st.categories == st.categories
      && r.st.wallets == LegacyWallets.UpdateAmount(st, st.txs[k].walletId, -st.txs[k].amount).wallets
  {
    if k !in st.txs then Step(st, Crash)
    else
      var t := st.txs[k];
      Step(LegacyWallets.UpdateAmount(st.(txs := st.txs - {k}), t.walletId, -t.amount), Done(t))
  }

  /** An add followed by the delete of the new record gives the store back. */
  lemma AddThenDelete(st: State, id: Id, userId: string, walletId: Id, concept: string, amount: int, date: Date)
    requires id !in st.txs
    ensures var a := Add(st, id, userId, walletId, concept, amount, date);
      Delete(a.st, id) == Step(st, Done(a.out.value))
  {
    var a := Add(st, id, userId, walletId, concept, amount, date);
    assert a.st.txs - {id} == st.txs;
    LegacyWallets.UpdateAmountAdditive(st, walletId, amount, 0);
  }

  /** The month `new Date("YYYY-MM-1")` starts, counted as in `Dates.MonthNumber`: the
      first four characters must be a year and the next two (or one) a month 1..12;
      anything else is an invalid date, on which `toISOString` throws. */
  function StartMonth(dataMonth: string): (r: Option<int>)
    ensures r.Some? ==>
      var y, m := TransactionStore.Sub(dataMonth, 0, 4), TransactionStore.Sub(dataMonth, 4, 6);
      |y| == 4 && AllDigits(y) && 1 <= |m| && AllDigits(m) &&
      1 <= DigitsValue(m) <= 12 && r.value == DigitsValue(y) * 12 + DigitsValue(m) - 1
  {
    var y, m := TransactionStore.Sub(dataMonth, 0, 4), TransactionStore.Sub(dataMonth, 4, 6);
    if |y| == 4 && AllDigits(y) && 1 <= |m| && AllDigits(m) && 1 <= DigitsValue(m) <= 12 then
      Some(DigitsValue(y) * 12 + DigitsValue(m) - 1)
    else None
  }

  /** `getAll` as written: `startDate.setMonth(...)` moves `startDate` itself on by a
      month before either bound is rendered, so both bounds are the first day of the
      next month and the window `[X, X)` holds no day. A month that does not parse is an
      invalid date, and `toISOString` throws. */
  function GetAllAsWritten(st: State, walletId: Id, userId: string, dataMonth: string): (r: Outcome<map<Id, Transaction>>)
    ensures r.Done? <==> StartMonth(dataMonth).Some?
    ensures r.Done? ==> r.value == map[]
  {
    match StartMonth(dataMonth)
    case None => Crash
    case Some(a) =>
      var start := a + 1;
      var end := start;
      Done(Find(st, walletId, userId, start, end))
  }

  /** The `find` of `getAll`: the user's records dated in the months `[a, b)`, of one
      wallet unless the wallet is "-1". */
  function Find(st: State, walletId: Id, userId: string, a: int, b: int): map<Id, Transaction> {
    map k | k in st.txs && st.txs[k].userId == userId && InWindow(st.txs[k].date, a, b)
            && (walletId != SENTINEL ==> st.txs[k].walletId == walletId) :: st.txs[k]
  }

  /** A record of the user, in the wallet and dated in the named month, is listed by
      the corrected `getAll` and missed by the one as written. */
  lemma GetAllAsWrittenMissesMonth(st: State, walletId: Id, userId: string, dataMonth: string, k: Id)
    requires StartMonth(dataMonth).Some?
    requires k in st.txs && st.txs[k].userId == userId
    requires walletId != SENTINEL ==> st.txs[k].walletId == walletId
    requires st.txs[k].date.year == DigitsValue(TransactionStore.Sub(dataMonth, 0, 4))
    requires st.txs[k].date.month == DigitsValue(TransactionStore.Sub(dataMonth, 4, 6))
    ensures GetAll(st, walletId, userId, dataMonth).Done? && k in GetAll(st, walletId, userId, dataMonth).value
    ensures GetAllAsWritten(st, walletId, userId, dataMonth).Done? && k !in GetAllAsWritten(st, walletId, userId, dataMonth).value
  {
  }

  /** `getAll`, corrected: the window ends a month after `startDate` without moving it,
      so the listing holds the user's records dated in the month `dataMonth` names, of
      one wallet unless the wallet is "-1" (no subwallets here); a month that does not
      parse throws. */
  function GetAll(st: State, walletId: Id, userId: string, dataMonth: string): (r: Outcome<map<Id, Transaction>>)
    ensures r.Done? <==> StartMonth(dataMonth).Some?
    ensures r.Done? ==> forall k :: k in r.value ==> k in st.txs && r.value[k] == st.txs[k]
    ensures r.Done? ==>
      var y, m := DigitsValue(TransactionStore.Sub(dataMonth, 0, 4)), DigitsValue(TransactionStore.Sub(dataMonth, 4, 6));
      forall k :: k in r.value <==>
        && k in st.txs && st.txs[k].userId == userId
        && (walletId != SENTINEL ==> st.txs[k].walletId == walletId)
        && st.txs[k].date.year == y && st.txs[k].date.month == m
  {
    match StartMonth(dataMonth)
    case None => Crash
    case Some(a) => Done(Find(st, walletId, userId, a, a + 1))
  }

  /** `update`: `$set` the content on the stored record, take the caller's copy of the old
      amount off the old wallet and put the new amount on the new wallet. When the record
      is gone the update yields `null`: the first increment still runs and reading
      `wallet_id` of `null` throws. */
  function Update(st: State, prior: Transaction, content: TransactionStore.TxPatch): (r: Step<Transaction>)
    ensures r.st.categories == st.categories
    ensures prior.id !in st.txs ==> r == Step(LegacyWallets.UpdateAmount(st, prior.walletId, -prior.amount), Crash)
    ensures prior.id in st.txs ==>
      var t := TransactionStore.Patch(st.txs[prior.id], content, false);
      && r.out == Done(t)
      && r.st.txs == st.txs[prior.id := t]
      && r.st.wallets == LegacyWallets.UpdateAmount(LegacyWallets.UpdateAmount(st, prior.walletId, -prior.amount), t.walletId, t.amount).wallets
  {
    if prior.id !in st.txs then Step(LegacyWallets.UpdateAmount(st, prior.walletId, -prior.amount), Crash)
    else
      var t := TransactionStore.Patch(st.txs[prior.id], content, false);
      var st1 := st.(txs := st.txs[prior.id := t]);
      var st2 := LegacyWallets.UpdateAmount(st1, prior.walletId, -prior.amount);
      Step(LegacyWallets.UpdateAmount(st2, t.walletId, t.amount), Done(t))
  }

  // ------------------------------------------------------------------ the invariant

  /** A fresh `add` keeps every wallet equal to the sum of its raw amounts. */
  lemma AddKeepsBalance(st: State, id: Id, userId: string, walletId: Id, concept: string, amount: int, date: Date)
    requires LegacyBalanced(st) && id !in st.txs
    ensures LegacyBalanced(Add(st, id, userId, walletId, concept, amount, date).st)
  {
    var r := Add(st, id, userId, walletId, concept, amount, date);
    forall w | w in r.st.wallets ensures r.st.wallets[w].money == Sum(r.st.txs, Raw(w)) {
      SumReplace(st.txs, Raw(w), id, r.out.value);
    }
  }

  /** A new wallet that no record names starts balanced at zero. */
  lemma WalletAddKeepsBalance(st: State, id: Id, userId: string, name: string, now: Date)
    requires LegacyBalanced(st)
    requires forall k :: k in st.txs ==> st.txs[k].walletId != id
    ensures LegacyBalanced(LegacyWallets.Add(st, id, userId, name, now).st)
  {
    if id !in st.wallets {
      SumPointwise(st.txs, Raw(id), Zero);
      SumZero(st.txs);
    }
  }

  /** With a reused id the wallet moves but no record is stored: the balance breaks. */
  lemma AddWithReusedIdBreaksBalance()
    ensures var t := Transaction("t", "u", "w", None, None, "pay", 500, None, Date(2021, 1, 1));
      var st := State(map["w" := Wallet("w", "u", None, None, [], "Cash", None, 500, Date(2021, 1, 1))], map["t" := t], map[]);
      LegacyBalanced(st) && !LegacyBalanced(Add(st, "t", "u", "w", "again", 100, Date(2021, 1, 2)).st)
  {
    var t := Transaction("t", "u", "w", None, None, "pay", 500, None, Date(2021, 1, 1));
    var st := State(map["w" := Wallet("w", "u", None, None, [], "Cash", None, 500, Date(2021, 1, 1))], map["t" := t], map[]);
    SumSingle("t", t, Raw("w"));
    var r := Add(st, "t", "u", "w", "again", 100, Date(2021, 1, 2));
    assert r.st.wallets["w"].money == 600;
  }

  /** `delete` keeps every wallet balanced, whether or not the record exists. */
  lemma DeleteKeepsBalance(st: State, k: Id)
    requires LegacyBalanced(st)
    ensures LegacyBalanced(Delete(st, k).st)
  {
    if k in st.txs {
      var r := Delete(st, k);
      forall w | w in r.st.wallets ensures r.st.wallets[w].money == Sum(r.st.txs, Raw(w)) {
        SumRemove(st.txs, Raw(w), k);
      }
    }
  }

  /** `update` of the stored record keeps every wallet balanced, whichever wallet the
      record moves to. */
  lemma UpdateKeepsBalance(st: State, prior: Transaction, content: TransactionStore.TxPatch)
    requires LegacyBalanced(st) && prior.id in st.txs && st.txs[prior.id] == prior
    ensures LegacyBalanced(Update(st, prior, content).st)
  {
    var r := Update(st, prior, content);
    forall w | w in r.st.wallets ensures r.st.wallets[w].money == Sum(r.st.txs, Raw(w)) {
      SumReplace(st.txs, Raw(w), prior.id, r.out.value);
    }
  }

  /** `deleteAll` leaves money alone, so every other wallet stays balanced (the emptied
      wallet keeps its old total). */
  lemma DeleteAllKeepsOtherBalances(st: State, walletId: Id)
    requires LegacyBalanced(st)
    ensures var st' := TransactionStore.DeleteAll(st, walletId);
      forall w :: w in st'.wallets && w != walletId ==> st'.wallets[w].money == Sum(st'.txs, Raw(w))
  {
    var st' := TransactionStore.DeleteAll(st, walletId);
    forall w | w in st'.wallets && w != walletId ensures st'.wallets[w].money == Sum(st'.txs, Raw(w)) {
      SumSubmap(st.txs, st'.txs, Raw(w));
    }
  }
}

=== FILE: legacy_wallets.dfy ===
/** The earlier wallet store (`src/database/schemas/dbWallets.ts`): wallets with a user,
    a name and a running `money`, and an increment that adds the signed amount it is
    given. Its `getByName` and `getById` run the same queries as the live store and are
    modelled by `WalletStore.GetByName` and `WalletStore.GetById`. */
module LegacyWallets {
  import opened Common
  import opened Dates
  import opened Ledger

  /** `add`: a wallet holding nothing; a reused id makes the insert throw. */
  function Add(st: State, id: Id, userId: string, name: string, now: Date): (r: Step<Wallet>)
    ensures id in st.wallets ==> r == Step(st, Crash)
    ensures id !in st.wallets ==>
      && r.out.Done?
      && r.out.value.id == id && r.out.value.userId == userId && r.out.value.name == name
      && r.out.value.money == 0 && r.out.value.parent.None? && r.out.value.children == []
      && r.st == st.(wallets := st.wallets[id := r.out.value])
  {
    if id in st.wallets then Step(st, Crash)
    else
      var w := Wallet(id, userId, None, None, [], name, None, 0, now);
      Step(st.(wallets := st.wallets[id := w]), Done(w))
  }

  /** `getWallets`: every wallet of the user; this store knows no hierarchy. */
  function GetWallets(st: State, userId: string): (r: map<Id, Wallet>)
    ensures forall k :: k in r <==> k in st.wallets && st.wallets[k].userId == userId
    ensures forall k :: k in r ==> r[k] == st.wallets[k]
  {
    map k | k in st.wallets && st.wallets[k].userId == userId :: st.wallets[k]
  }

  /** `updateAmount`: `$inc` the wallet's money by exactly `amount`; nothing else changes,
      and a missing wallet is left alone. */
  function UpdateAmount(st: State, walletId: Id, amount: int): (r: State)
    ensures r.txs == st.txs && r.categories == st.categories
    ensures r.wallets.Keys == st.wallets.Keys
    ensures walletId in st.wallets ==>
      r.wallets[walletId] == st.wallets[walletId].(money := st.wallets[walletId].money + amount)
    ensures forall k :: k in st.wallets && k != walletId ==> r.wallets[k] == st.wallets[k]
  {
    if walletId in st.wallets then
      var w := st.wallets[walletId];
      st.(wallets := st.wallets[walletId := w.(money := w.money + amount)])
    else st
  }

  /** Increments compose: two in a row are one of the sum, so an amount and its negation
      cancel. */
  lemma UpdateAmountAdditive(st: State, walletId: Id, a: int, b: int)
    ensures UpdateAmount(UpdateAmount(st, walletId, a), walletId, b) == UpdateAmount(st, walletId, a + b)
    ensures UpdateAmount(UpdateAmount(st, walletId, a), walletId, -a) == st
  {
    if walletId in st.wallets {
      assert st.wallets[walletId := st.wallets[walletId]] == st.wallets;
    }
  }
}

=== FILE: message_processor.dfy ===
/** The live message handlers (`src/MessageProcessor.ts`): one function per message
    type, each taking the store and the message and giving back the store it leaves and
    the reply it sends. Guards answer 403 and validators 422 before anything is written;
    an exception inside a handler's `try` becomes a 500 with whatever was written until
    then. */
module MessageProcessor {
  import opened Common
  import opened Text
  import opened Dates
  import opened Ledger
  import WalletStore
  import TransactionStore
  import opened Validator

  /** An amount as it arrives: a JSON number or a string. */
  datatype Scalar = Num(n: real) | Str(s: string)

  /** The fields the handlers read from a message. Ids and user ids are plain strings,
      the empty one standing for a missing or falsy id; `category` is `None` when the
      message has no `category` object at all, and `Some("")` when the object has no id. */
  datatype Payload = Payload(
    id: Id,
    userId: string,
    walletId: Id,
    concept: Field<string>,
    category: Option<Id>,
    amount: Field<Scalar>,
    date: Field<string>,
    name: Field<string>,
    money: Field<Scalar>,
    dataMonth: Field<string>)

  datatype Request = Request(kind: string, payload: Payload)

  /** What a handler takes from outside the store: today's date, the ids the database
      assigns to the records a handler creates, the configured "Other" category, and
      `parseFloat` of a string. */
  datatype Env = Env(now: Date, newId: Id, initialId: Id, otherCategory: Id, parseFloat: string -> Option<real>)

  datatype Body =
    | NoBody
    | OneTx(tx: Transaction)
    | TxList(txs: seq<Transaction>)
    | TxEdit(priors: seq<Transaction>, posts: seq<Transaction>)
    | TxMap(found: map<Id, Transaction>)
    | OneWallet(wallet: Wallet)
    | MaybeWallet(maybe: Option<Wallet>)
    | WalletMap(wallets: map<Id, Wallet>)

  /** A 200 with its payload, an error reply with its status, message and field errors,
      the reply to a message type nobody handles, or the earlier handlers' empty 304. */
  datatype Response =
    | Ok(body: Body)
    | Failure(status: int, message: string, errors: Errors)
    | Unsupported(kind: string)
    | NotModified

  /** The store a handler leaves behind and what it answered. */
  datatype Reply = Reply(st: State, response: Response)

  const AUTH_ERROR: string := "Authentication Error"
  const INVALID_ERROR: string := "Invalid Fields"
  const UNEXPECTED_ERROR: string := "Unexpected error"

  function Forbidden(st: State, errors: Errors): Reply {
    Reply(st, Failure(403, AUTH_ERROR, errors))
  }

  function Invalid(st: State, errors: Errors): Reply {
    Reply(st, Failure(422, INVALID_ERROR, errors))
  }

  /** The `catch` of every handler; the exception object itself is not modelled. */
  function Unexpected(st: State): Reply {
    Reply(st, Failure(500, UNEXPECTED_ERROR, map[]))
  }

  /** A reply that wrote nothing: a 403, a 422 or a plain read. */
  predicate Refused(r: Reply) {
    r.response.Failure? && (r.response.status == 403 || r.response.status == 422)
  }

  /** `parseFloat(x.toString())`: a number reads back as itself. */
  function ParseAmount(env: Env, v: Scalar): Option<real> {
    match v
    case Num(n) => Some(n)
    case Str(s) => env.parseFloat(s)
  }

  /** JavaScript truthiness of an amount field. */
  predicate Truthy(v: Scalar) {
    match v
    case Num(n) => n != 0.0
    case Str(s) => s != ""
  }

  /** The user may file transactions under the category: it exists and is global or the
      user's own. */
  predicate CategoryUsable(st: State, categoryId: Id, userId: string) {
    categoryId in st.categories &&
    (st.categories[categoryId].userId == SENTINEL || st.categories[categoryId].userId == userId)
  }

  /** The text names a real day in `YYYY-MM-DD` form. */
  predicate IsDayText(s: string) {
    MatchesFormat(s) && IsCalendarDay(ParseDate(s))
  }

  predicate Visible(s: string) {
    exists i :: 0 <= i < |s| && !IsSpace(s[i])
  }

  // ------------------------------------------------------------------ transactions

  /** `add-Transaction`: the wallet must be the user's (403); then category, amount, date
      and concept are validated together (422); then the trimmed concept and the amount
      rounded to cents are stored. A message without a `category` object, amount or date,
      or with an `undefined` concept, throws before anything is written. */
  function AddTransaction(st: State, env: Env, p: Payload): (r: Reply)
    ensures !r.response.Unsupported?
    ensures !WalletOwnership(st, p.userId, p.walletId).Valid() ==>
      r == Forbidden(st, map["wallet" := WALLET_OWNER_ERROR])
    ensures r.response.Failure? && r.response.status != 500 ==> r.st == st
    ensures r.response.Ok? ==>
      && r.response.body.OneTx?
      && var t := r.response.body.tx;
      && p.walletId in st.wallets && st.wallets[p.walletId].userId == p.userId
      && p.category.Some? && CategoryUsable(st, p.category.value, p.userId)
      && p.concept.Given? && t.concept == Trim(p.concept.value) && Visible(p.concept.value)
      && p.date.Given? && IsDayText(p.date.value) && t.date == ParseDate(p.date.value)
      && p.amount.Given? && ParseAmount(env, p.amount.value).Some?
      && t.id == env.newId && env.newId !in st.txs
      && t.userId == p.userId && t.walletId == p.walletId && t.category == p.category
      && r.st.txs == st.txs[t.id := t]
    ensures r.response.Ok? ==>
      && r.response.body.OneTx? && p.walletId in st.wallets
      && p.amount.Given? && ParseAmount(env, p.amount.value).Some?
      && p.category.Some? && p.category.value in st.categories
      && var t := r.response.body.tx;
      && var cents := Round(ParseAmount(env, p.amount.value).value * 100.0);
      && t.amount == (if cents < 0 then -cents else cents)
      && r.st.wallets.Keys == st.wallets.Keys
      && r.st.wallets[p.walletId].money == st.wallets[p.walletId].money + Signed(st.categories[p.category.value].kind, t.amount)
      && (forall k :: k in st.wallets && k != p.walletId ==> r.st.wallets[k] == st.wallets[k])
    ensures p.userId != "" && p.walletId in st.wallets && st.wallets[p.walletId].userId == p.userId ==>
      (p.category.None? || !p.amount.Given? || !p.date.Given? || p.concept.Undefined? ==> r == Unexpected(st))
    ensures p.userId != "" && p.walletId in st.wallets && st.wallets[p.walletId].userId == p.userId &&
            p.category.Some? && p.amount.Given? && p.date.Given? && !p.concept.Undefined? ==>
      var errors := Merge(Merge(Merge(ValidateCategory(st, p.category.value, p.userId).errors,
                                      ValidateAmount(ParseAmount(env, p.amount.value)).errors),
                                ValidateDate(p.date.value).errors),
                          ValidateConcept(p.concept).value.errors);
      && (errors != map[] ==> r == Invalid(st, errors))
      && (errors == map[] ==> !Refused(r))
  {
    var own := WalletOwnership(st, p.userId, p.walletId);
    if !own.Valid() then Forbidden(st, own.errors)
    else if p.category.None? || !p.amount.Given? || !p.date.Given? || p.concept.Undefined? then Unexpected(st)
    else
      var category := ValidateCategory(st, p.category.value, p.userId);
      var amount := ValidateAmount(ParseAmount(env, p.amount.value));
      var date := ValidateDate(p.date.value);
      var concept := ValidateConcept(p.concept).value;
      var errors := Merge(Merge(Merge(category.errors, amount.errors), date.errors), concept.errors);
      if errors != map[] then Invalid(st, errors)
      else
        ValidateDateIsCalendar(p.date.value);
        var s := TransactionStore.Add(st, env.newId, p.userId, p.walletId, Trim(p.concept.value),
                                      amount.value.value, ParseDate(p.date.value), p.category.value);
        match s.out
        case Crash => Unexpected(s.st)
        case Done(t) => Reply(s.st, Ok(OneTx(t)))
  }

  /** Everything `add-Transaction` checks, stated without the validators: it answers 200
      exactly when the user owns the wallet, may use the category, the amount parses,
      the date is a real day, the concept is visible and the new id is unused. */
  lemma AddTransactionAccepts(st: State, env: Env, p: Payload)
    ensures AddTransaction(st, env, p).response.Ok? <==>
      && p.walletId in st.wallets && st.wallets[p.walletId].userId == p.userId && p.userId != ""
      && p.category.Some? && CategoryUsable(st, p.category.value, p.userId)
      && p.amount.Given? && ParseAmount(env, p.amount.value).Some?
      && p.date.Given? && IsDayText(p.date.value)
      && p.concept.Given? && Visible(p.concept.value)
      && env.newId !in st.txs
  {
    if p.date.Given? {
      ValidateDateIsCalendar(p.date.value);
    }
  }

  /** `get-Transaction`: the transaction, to its owner only. */
  function GetTransaction(st: State, p: Payload): (r: Reply)
    ensures !r.response.Unsupported?
    ensures r.st == st
    ensures r.response.Ok? <==> p.userId != "" && p.id in st.txs && st.txs[p.id].userId == p.userId
    ensures r.response.Ok? ==> r.response == Ok(OneTx(st.txs[p.id]))
    ensures !r.response.Ok? ==> r == Forbidden(st, map["transaction" := TRANSACTION_OWNER_ERROR])
  {
    var own := TransactionOwnership(st, p.userId, p.id);
    if !own.Valid() then Forbidden(st, own.errors)
    else Reply(st, Ok(OneTx(own.value.value)))
  }

  /** `delete-Transaction`: the owner's transaction and its transfer partner go, and their
      wallets move back. */
  function DeleteTransaction(st: State, p: Payload): (r: Reply)
    ensures !r.response.Unsupported?
    ensures !(p.userId != "" && p.id in st.txs && st.txs[p.id].userId == p.userId) ==>
      r == Forbidden(st, map["transaction" := TRANSACTION_OWNER_ERROR])
    ensures r.response.Ok? ==>
      && p.id in st.txs && st.txs[p.id].userId == p.userId
      && r.response.body.TxList? && |r.response.body.txs| >= 1 && r.response.body.txs[0] == st.txs[p.id]
      && p.id !in r.st.txs && r.st.txs.Keys <= st.txs.Keys
  {
    var own := TransactionOwnership(st, p.userId, p.id);
    if !own.Valid() then Forbidden(st, own.errors)
    else
      var s := TransactionStore.Delete(st, p.id);
      match s.out
      case Crash => Unexpected(s.st)
      case Done(txs) => Reply(s.st, Ok(TxList(txs)))
  }

  /** What an edit does to the date, as written: a supplied date that differs from the
      stored day is sent to `toISOString()`, which a string does not have, so the call
      throws. */
  function DateChangeAsWritten(stored: Date, given: Field<string>): (r: Outcome<(Errors, Option<Date>)>)
    ensures r.Done? ==> r.value == (map[], None)
    ensures given.Given? && given.value != "" && given.value != FormatDate(stored) ==> r.Crash?
  {
    match given
    case Given(s) =>
      if s != "" && FormatDate(stored) != s then Crash else Done((map[], None))
    case _ => Done((map[], None))
  }

  /** Any edit that moves a transaction to another real day fails with a 500. */
  lemma DateChangeAsWrittenRejectsNewDay()
    ensures DateChangeAsWritten(Date(2021, 3, 14), Given("2021-03-15")).Crash?
    ensures ValidateDate("2021-03-15").Valid()
  {
    var d := Date(2021, 3, 14);
    var s := FormatDate(d);
    assert ParseDate(s) == d;
    assert ParseDate("2021-03-15").day == 15;
    ValidateDateIsCalendar("2021-03-15");
  }

  /** What an edit does to the date, corrected: a supplied date that differs from the
      stored day is validated as `YYYY-MM-DD` text and, when valid, becomes the new day.
      The result holds the errors and the new day, if the date changes. */
  function DateChange(stored: Date, given: Field<string>): (r: (Errors, Option<Date>, bool))
    ensures r.0.Keys <= {"date"}
    ensures r.1.Some? ==> r.2 && r.0 == map[]
    ensures r.2 <==> given.Given? && given.value != "" && given.value != FormatDate(stored)
    ensures r.2 ==> (r.0 == map[] <==> IsDayText(given.value))
    ensures r.1.Some? ==> FormatDate(r.1.value) == given.value && r.1.value != stored
  {
    match given
    case Given(s) =>
      if s == "" || FormatDate(stored) == s then (map[], None, false)
      else
        var v := ValidateDate(s);
        ValidateDateIsCalendar(s);
        if v.Valid() then
          FormatParseRoundTrip(s);
          (map[], Some(ParseDate(s)), true)
        else (v.errors, None, true)
    case _ => (map[], None, false)
  }

  /** The part of an edit no one asked for. */
  const NO_CHANGE := TransactionStore.TxPatch(None, None, None, None, None)

  /** One field of an edit: the errors its check found and the value it puts in the
      patch. */
  datatype Change<+T> = Change(errors: Errors, value: Option<T>)

  /** A new wallet must be the user's too. */
  function WalletChange(st: State, p: Payload, prior: Transaction): (r: Change<Id>)
    ensures r.value.Some? <==> p.walletId != "" && p.walletId != prior.walletId
    ensures r.value.Some? ==> r.value.value == p.walletId
    ensures r.value.Some? && r.errors == map[] ==> p.walletId in st.wallets && st.wallets[p.walletId].userId == p.userId
    ensures r.value.None? ==> r.errors == map[]
  {
    if p.walletId != "" && p.walletId != prior.walletId then
      Change(WalletOwnership(st, p.userId, p.walletId).errors, Some(p.walletId))
    else Change(map[], None)
  }

  /** A new concept is stored trimmed and must be visible. */
  function ConceptChange(p: Payload, prior: Transaction): (r: Change<string>)
    ensures r.value.Some? <==> p.concept.Given? && p.concept.value != "" && Trim(p.concept.value) != prior.concept
    ensures r.value.Some? ==> r.value.value == Trim(p.concept.value)
    ensures r.value.Some? ==> (r.errors == map[] <==> Visible(p.concept.value))
    ensures r.value.None? ==> r.errors == map[]
  {
    if p.concept.Given? && p.concept.value != "" && Trim(p.concept.value) != prior.concept then
      Change(ValidateConcept(p.concept).value.errors, Some(Trim(p.concept.value)))
    else Change(map[], None)
  }

  /** A supplied category id is always a change, and must be usable by the record's
      owner. */
  function CategoryChange(st: State, categoryId: Id, prior: Transaction): (r: Change<Id>)
    ensures r.value.Some? <==> categoryId != ""
    ensures r.value.Some? ==> r.value.value == categoryId
    ensures r.value.Some? ==> (r.errors == map[] <==> CategoryUsable(st, categoryId, prior.userId))
    ensures r.value.None? ==> r.errors == map[]
  {
    if categoryId != "" then Change(ValidateCategory(st, categoryId, prior.userId).errors, Some(categoryId))
    else Change(map[], None)
  }

  /** A truthy amount whose rounding differs from the stored cents is a change, and must
      parse. */
  function AmountChange(env: Env, p: Payload, prior: Transaction): (r: Change<int>)
    ensures r.value.Some? ==> p.amount.Given? && Truthy(p.amount.value) && ParseAmount(env, p.amount.value).Some?
    ensures r.value.Some? ==> r.value.value != prior.amount && r.errors == map[]
    ensures r.errors != map[] ==> p.amount.Given? && ParseAmount(env, p.amount.value).None?
    ensures p.amount.Given? && Truthy(p.amount.value) && ParseAmount(env, p.amount.value).Some? ==>
      var cents := ValidateAmount(ParseAmount(env, p.amount.value)).value.value;
      r.value == if cents == prior.amount then None else Some(cents)
  {
    if p.amount.Given? && Truthy(p.amount.value) then
      var amount := ValidateAmount(ParseAmount(env, p.amount.value));
      if amount.value == Some(prior.amount) then Change(map[], None)
      else Change(amount.errors, amount.value)
    else Change(map[], None)
  }

  /** The checks and the `content` of `edit-Transaction` for the stored record `prior`:
      each supplied field that differs from the record is validated and, if the errors
      allow, put in the patch. A supplied category id always counts as a change, because
      the string is compared with the populated category's `ObjectId`; when the record's
      category does not resolve, reading its `_id` throws, as does a message without a
      `category` object. */
  function EditContent(st: State, env: Env, p: Payload, prior: Transaction): (r: Outcome<(Errors, TransactionStore.TxPatch)>)
    ensures r.Crash? <==> p.category.None? || (p.category.value != "" && KindOf(st.categories, prior).None?)
    ensures r.Done? ==>
      && r.value.1.walletId == WalletChange(st, p, prior).value
      && r.value.1.concept == ConceptChange(p, prior).value
      && r.value.1.category == CategoryChange(st, p.category.value, prior).value
      && r.value.1.amount == AmountChange(env, p, prior).value
      && r.value.1.date == DateChange(prior.date, p.date).1
    ensures r.Done? && r.value.0 == map[] ==>
      && WalletChange(st, p, prior).errors == map[]
      && ConceptChange(p, prior).errors == map[]
      && CategoryChange(st, p.category.value, prior).errors == map[]
      && AmountChange(env, p, prior).errors == map[]
      && DateChange(prior.date, p.date).0 == map[]
    ensures r.Done? && r.value.0 == map[] && r.value.1 == NO_CHANGE ==> !DateChange(prior.date, p.date).2
  {
    if p.category.None? then Crash
    else if p.category.value != "" && KindOf(st.categories, prior).None? then Crash
    else
      var wallet := WalletChange(st, p, prior);
      var concept := ConceptChange(p, prior);
      var category := CategoryChange(st, p.category.value, prior);
      var amount := AmountChange(env, p, prior);
      var date := DateChange(prior.date, p.date);
      var errors := Merge(Merge(Merge(Merge(wallet.errors, concept.errors), category.errors), amount.errors), date.0);
      Done((errors, TransactionStore.TxPatch(wallet.value, concept.value, category.value, amount.value, date.1)))
  }

  /** `edit-Transaction`: after the ownership check, errors answer 422, no change answers
      an empty 200, and otherwise the store's `update` applies the patch. */
  function EditTransaction(st: State, env: Env, p: Payload): (r: Reply)
    ensures !r.response.Unsupported?
    ensures !(p.userId != "" && p.id in st.txs && st.txs[p.id].userId == p.userId) ==>
      r == Forbidden(st, map["transaction" := TRANSACTION_OWNER_ERROR])
    ensures r.response.Failure? && r.response.status != 500 ==> r.st == st
    ensures r.response == Ok(NoBody) ==> r.st == st
    ensures r.response.Ok? && r.response != Ok(NoBody) ==>
      && p.id in st.txs && st.txs[p.id].userId == p.userId
      && EditContent(st, env, p, st.txs[p.id]).Done? && EditContent(st, env, p, st.txs[p.id]).value.0 == map[]
      && r.response.body.TxEdit?
      && var posts := r.response.body.posts;
      && |posts| >= 1 && |r.response.body.priors| == |posts| && r.response.body.priors[|posts| - 1] == st.txs[p.id]
    ensures r.response.Ok? && r.response != Ok(NoBody) && st.txs[p.id].id == p.id ==>
      && r.response.body.TxEdit?
      && var prior := st.txs[p.id];
      && EditContent(st, env, p, prior).Done?
      && var patch := EditContent(st, env, p, prior).value.1;
      && var posts := r.response.body.posts;
      && patch != NO_CHANGE && |posts| >= 1
      && (Partner(prior).None? || Partner(prior).value !in st.txs ==>
            posts[|posts| - 1] == TransactionStore.Patch(prior, patch, Partner(prior).Some?)
            && r.st.txs == st.txs[p.id := posts[|posts| - 1]])
      && (Partner(prior).Some? && Partner(prior).value in st.txs ==>
            var pid := Partner(prior).value;
            var stripped := patch.(walletId := None, category := None);
            var mid := st.txs[pid := TransactionStore.Patch(st.txs[pid], stripped, false)];
            && posts[|posts| - 1].walletId == prior.walletId && posts[|posts| - 1].category == prior.category
            && p.id in mid && posts[|posts| - 1] == TransactionStore.Patch(mid[p.id], stripped, false)
            && r.st.txs == mid[p.id := posts[|posts| - 1]])
    ensures p.userId != "" && p.id in st.txs && st.txs[p.id].userId == p.userId ==>
      var c := EditContent(st, env, p, st.txs[p.id]);
      && (c.Crash? ==> r == Unexpected(st))
      && (c.Done? && c.value.0 != map[] ==> r == Invalid(st, c.value.0))
      && (c.Done? && c.value.0 == map[] && c.value.1 == NO_CHANGE ==> r == Reply(st, Ok(NoBody)))
      && (c.Done? && c.value.0 == map[] && c.value.1 != NO_CHANGE ==> r.response != Ok(NoBody) && !Refused(r))
  {
    var own := TransactionOwnership(st, p.userId, p.id);
    if !own.Valid() then Forbidden(st, own.errors)
    else
      var prior := own.value.value;
      match EditContent(st, env, p, prior)
      case Crash => Unexpected(st)
      case Done((errors, patch)) =>
        if errors != map[] then Invalid(st, errors)
        else if patch == NO_CHANGE then Reply(st, Ok(NoBody))
        else
          var s := TransactionStore.Update(st, prior, patch);
          match s.out
          case Crash => Unexpected(s.st)
          case Done(lists) => Reply(s.st, Ok(TxEdit(lists.0, lists.1)))
  }

  /** An edit that supplies nothing but who asks changes nothing and answers an empty
      200. */
  lemma EditWithNothingIsNoChange(st: State, env: Env, p: Payload)
    requires p.userId != "" && p.id in st.txs && st.txs[p.id].userId == p.userId
    requires p.walletId == "" && p.concept.Undefined? && p.category == Some("")
    requires p.amount.Undefined? && p.date.Undefined?
    ensures EditTransaction(st, env, p) == Reply(st, Ok(NoBody))
  {
  }

  /** The `datamonth` a listing uses: the given one when it is six characters that
      `parseInt` reads and not "-1", otherwise `${year}${month}` of today. */
  function DataMonth(today: Date, given: Field<string>): (r: string)
    ensures given.Given? && |given.value| == 6 && ParseInt(given.value).Some? ==> r == given.value
    ensures !(given.Given? && |given.value| == 6 && ParseInt(given.value).Some?) ==>
      r == NatToString(today.year) + NatToString(today.month)
  {
    match given
    case Given(s) =>
      if s == "" || s == SENTINEL || |s| != 6 || ParseInt(s).None? then NatToString(today.year) + NatToString(today.month)
      else s
    case _ => NatToString(today.year) + NatToString(today.month)
  }

  /** Six characters that start `0x` with no hexadecimal digit after it ("0xzzzz") are
      `NaN` to the radix-less `parseInt`, so the listing falls back to today. */
  lemma DataMonthHexIsNaN(today: Date, s: string)
    requires |s| == 6 && s[0] == '0' && (s[1] == 'x' || s[1] == 'X') && !IsHexDigit(s[2])
    ensures DataMonth(today, Given(s)) == NatToString(today.year) + NatToString(today.month)
  {
    ParseIntHexWithoutDigits(s);
  }

  /** `get-Transactions`: a named wallet must be the user's; "-1" lists across all of
      the user's wallets. */
  function GetTransactions(st: State, env: Env, p: Payload): (r: Reply)
    ensures !r.response.Unsupported?
    ensures r.st == st
    ensures p.id != SENTINEL && !(p.userId != "" && p.id in st.wallets && st.wallets[p.id].userId == p.userId) ==>
      r == Forbidden(st, map["wallet" := WALLET_OWNER_ERROR])
    ensures r.response.Ok? ==>
      && r.response.body.TxMap?
      && forall k :: k in r.response.body.found ==> k in st.txs && st.txs[k].userId == p.userId
  {
    var own := WalletOwnership(st, p.userId, p.id);
    if p.id != SENTINEL && !own.Valid() then Forbidden(st, own.errors)
    else
      match TransactionStore.GetAll(st, p.id, p.userId, DataMonth(env.now, p.dataMonth))
      case Crash => Unexpected(st)
      case Done(found) => Reply(st, Ok(TxMap(found)))
  }

  /** A listing whose `datamonth` is missing or malformed answers with today's month,
      as long as the year has four digits. */
  lemma GetTransactionsDefaultsToToday(st: State, env: Env, p: Payload)
    requires 1000 <= env.now.year
    requires p.id == SENTINEL || (p.userId != "" && p.id in st.wallets && st.wallets[p.id].userId == p.userId)
    requires !(p.dataMonth.Given? && |p.dataMonth.value| == 6 && ParseInt(p.dataMonth.value).Some?)
    ensures var r := GetTransactions(st, env, p);
      && r.response.Ok?
      && forall k :: k in r.response.body.found ==>
           r.response.body.found[k].date.year == env.now.year && r.response.body.found[k].date.month == env.now.month
  {
    TransactionStore.DefaultMonthSelectsCurrent(st, p.id, p.userId, env.now.year, env.now.month);
  }

  /** A `datamonth` the handler keeps and `getAll` reads as a real month lists exactly
      the user's transactions of that month, in the named wallet and its subwallets or,
      for "-1", in all of them. */
  lemma GetTransactionsSelectsMonth(st: State, env: Env, p: Payload, year: int, month: int)
    requires p.id == SENTINEL || (p.userId != "" && p.id in st.wallets && st.wallets[p.id].userId == p.userId)
    requires p.dataMonth.Given? && |p.dataMonth.value| == 6 && ParseInt(p.dataMonth.value).Some?
    requires TransactionStore.YearMonth(p.dataMonth.value) == Some((year, month)) && 1 <= month <= 12
    ensures var r := GetTransactions(st, env, p);
      && r.response.Ok? && r.response.body.TxMap?
      && forall k :: k in r.response.body.found <==>
           && k in st.txs && st.txs[k].userId == p.userId
           && st.txs[k].date.year == FullYear(year) && st.txs[k].date.month == month
           && (p.id != SENTINEL ==> st.txs[k].walletId in [p.id] + st.wallets[p.id].children)
  {
    assert DataMonth(env.now, p.dataMonth) == p.dataMonth.value;
    TransactionStore.GetAllListsParsedMonth(st, p.id, p.userId, p.dataMonth.value, year, month);
  }

  // ------------------------------------------------------------------ wallets

  /** `add-Wallet`: the name and the opening amount (`money || ''`) are validated
      together; then a top-level wallet with the trimmed name is created and, when the
      rounded amount is positive, an "Initial transaction" under the configured "Other"
      category opens it. That insert is not awaited: its failure does not change the
      reply, which reports the opening amount as the wallet's money. */
  function AddWallet(st: State, env: Env, p: Payload): (r: Reply)
    ensures !r.response.Unsupported?
    ensures r.response.Failure? && r.response.status == 422 ==> r.st == st
    ensures r.response.Ok? ==>
      && r.response.body.OneWallet?
      && var w := r.response.body.wallet;
      && p.name.Given? && Visible(p.name.value) && WalletStore.GetByName(st, p.userId, p.name.value) == {}
      && env.newId !in st.wallets && env.newId in r.st.wallets
      && w.id == env.newId && w.userId == p.userId && w.name == Trim(p.name.value)
      && w.parent.None? && w.money >= 0
      && r.st.wallets[env.newId] == w.(money := r.st.wallets[env.newId].money)
      && (forall k :: k in st.wallets ==> k in r.st.wallets && r.st.wallets[k] == st.wallets[k])
    ensures r.response.Ok? && r.response.body.wallet.money > 0 && env.otherCategory in st.categories && env.initialId !in st.txs ==>
      && env.initialId in r.st.txs
      && r.st.txs[env.initialId].walletId == env.newId
      && r.st.txs[env.initialId].amount == r.response.body.wallet.money
      && r.st.wallets[env.newId].money == Signed(st.categories[env.otherCategory].kind, r.response.body.wallet.money)
    ensures r.response.Ok? <==>
      && p.name.Given? && !AllSpace(p.name.value) && WalletStore.GetByName(st, p.userId, p.name.value) == {}
      && p.money.Given? && Truthy(p.money.value) && ParseAmount(env, p.money.value).Some?
      && env.newId !in st.wallets
    ensures r.response.Ok? ==>
      && r.response.body.OneWallet? && p.money.Given? && ParseAmount(env, p.money.value).Some?
      && var cents := Round(ParseAmount(env, p.money.value).value * 100.0);
      && r.response.body.wallet.money == (if cents > 0 then cents else 0)
      && (cents <= 0 ==> r.st.txs == st.txs && r.st.wallets == st.wallets[env.newId := r.response.body.wallet])
    ensures
      var errors := Merge(ValidateWalletName(st, p.name, p.userId).errors,
                          ValidateAmount(if p.money.Given? && Truthy(p.money.value) then ParseAmount(env, p.money.value) else None).errors);
      && (errors != map[] ==> r == Invalid(st, errors))
      && (errors == map[] ==> !Refused(r))
  {
    var name := ValidateWalletName(st, p.name, p.userId);
    var amount := ValidateAmount(if p.money.Given? && Truthy(p.money.value) then ParseAmount(env, p.money.value) else None);
    var errors := Merge(name.errors, amount.errors);
    if errors != map[] then Invalid(st, errors)
    else
      var s1 := WalletStore.Add(st, env.newId, p.userId, Trim(p.name.value), None, None, None, env.now);
      match s1.out
      case Crash => Unexpected(s1.st)
      case Done(w) =>
        var rounded := amount.value.value;
        if rounded > 0 then
          var s2 := TransactionStore.Add(s1.st, env.initialId, p.userId, w.id, "Initial transaction",
                                         rounded, env.now, env.otherCategory);
          Reply(s2.st, Ok(OneWallet(w.(money := rounded))))
        else Reply(s1.st, Ok(OneWallet(w)))
  }

  /** `get-Wallet`: the wallet, to its owner only. */
  function GetWallet(st: State, p: Payload): (r: Reply)
    ensures !r.response.Unsupported?
    ensures r.st == st
    ensures r.response.Ok? <==> p.userId != "" && p.id in st.wallets && st.wallets[p.id].userId == p.userId
    ensures r.response.Ok? ==> r.response == Ok(OneWallet(st.wallets[p.id]))
    ensures !r.response.Ok? ==> r == Forbidden(st, map["wallet" := WALLET_OWNER_ERROR])
  {
    var own := WalletOwnership(st, p.userId, p.id);
    if !own.Valid() then Forbidden(st, own.errors)
    else Reply(st, Ok(OneWallet(own.value.value)))
  }

  /** `get-Wallets`: the top-level wallets of the user the message names by `_id`. No
      ownership check is made. */
  function GetWallets(st: State, p: Payload): (r: Reply)
    ensures !r.response.Unsupported?
    ensures r.st == st && r.response.Ok? && r.response.body.WalletMap?
    ensures forall k :: k in r.response.body.wallets <==>
      k in st.wallets && st.wallets[k].userId == p.id && st.wallets[k].parent.None?
  {
    Reply(st, Ok(WalletMap(WalletStore.GetWallets(st, p.id))))
  }

  /** `delete-Wallet`: the owner's wallet, its subwallets and all their transactions go. */
  function DeleteWallet(st: State, p: Payload): (r: Reply)
    ensures !r.response.Unsupported?
    ensures !(p.userId != "" && p.id in st.wallets && st.wallets[p.id].userId == p.userId) ==>
      r == Forbidden(st, map["wallet" := WALLET_OWNER_ERROR])
    ensures r.response.Ok? ==>
      && r.response == Ok(MaybeWallet(Some(st.wallets[p.id])))
      && p.id !in r.st.wallets
      && (forall k :: k in r.st.txs ==> k in st.txs && r.st.txs[k].walletId != p.id)
  {
    var own := WalletOwnership(st, p.userId, p.id);
    if !own.Valid() then Forbidden(st, own.errors)
    else
      var (st', deleted) := WalletStore.Delete(st, p.id);
      Reply(st', Ok(MaybeWallet(deleted)))
  }

  /** `edit-Wallet`: only the name can change. A name that trims to the stored one (or
      none at all) is no change; a new one must pass `validateWalletName`. */
  function EditWallet(st: State, p: Payload): (r: Reply)
    ensures !r.response.Unsupported?
    ensures !(p.userId != "" && p.id in st.wallets && st.wallets[p.id].userId == p.userId) ==>
      r == Forbidden(st, map["wallet" := WALLET_OWNER_ERROR])
    ensures !r.response.Ok? || r.response == Ok(NoBody) ==> r.st == st
    ensures r.response.Ok? && r.response != Ok(NoBody) ==>
      && p.name.Given? && Visible(p.name.value) && WalletStore.GetByName(st, p.userId, p.name.value) == {}
      && p.id in st.wallets && r.st.wallets.Keys == st.wallets.Keys
      && r.st.wallets[p.id] == st.wallets[p.id].(name := Trim(p.name.value))
      && r.response == Ok(MaybeWallet(Some(r.st.wallets[p.id])))
      && r.st.txs == st.txs && r.st.wallets.Keys == st.wallets.Keys
      && (forall k :: k in st.wallets && k != p.id ==> r.st.wallets[k] == st.wallets[k])
    ensures p.userId != "" && p.id in st.wallets && st.wallets[p.id].userId == p.userId ==>
      var changed := p.name.Given? && p.name.value != "" && Trim(p.name.value) != st.wallets[p.id].name;
      var name := ValidateWalletName(st, p.name, p.userId);
      && (r.response == Ok(NoBody) <==> !changed)
      && (changed && !name.Valid() ==> r == Invalid(st, name.errors))
      && (changed && name.Valid() ==> r.response.Ok?)
  {
    var own := WalletOwnership(st, p.userId, p.id);
    if !own.Valid() then Forbidden(st, own.errors)
    else
      var w := own.value.value;
      if !(p.name.Given? && p.name.value != "" && Trim(p.name.value) != w.name) then Reply(st, Ok(NoBody))
      else
        var name := ValidateWalletName(st, p.name, p.userId);
        if !name.Valid() then Invalid(st, name.errors)
        else
          var (st', updated) := WalletStore.Update(st, p.id, WalletStore.WalletPatch(Some(Trim(p.name.value)), None, None, None));
          Reply(st', Ok(MaybeWallet(updated)))
  }

  // ------------------------------------------------------------------ dispatch

  /** The message types `process` handles, and any other. */
  datatype Kind =
    | AddTransactionKind | DeleteTransactionKind | EditTransactionKind | GetTransactionKind | GetTransactionsKind
    | AddWalletKind | DeleteWalletKind | EditWalletKind | GetWalletKind | GetWalletsKind
    | OtherKind

  const KINDS: seq<string> := ["add-Transaction", "delete-Transaction", "edit-Transaction", "get-Transaction",
                               "get-Transactions", "add-Wallet", "delete-Wallet", "edit-Wallet", "get-Wallet", "get-Wallets"]

  /** The `switch` on the message type, as an enumeration. */
  function Classify(kind: string): (k: Kind)
    ensures k.OtherKind? <==> kind !in KINDS
    ensures k == GetTransactionKind <==> kind == "get-Transaction"
    ensures k == GetTransactionsKind <==> kind == "get-Transactions"
    ensures k == GetWalletKind <==> kind == "get-Wallet"
    ensures k == GetWalletsKind <==> kind == "get-Wallets"
  {
    match kind
    case "add-Transaction" => AddTransactionKind
    case "delete-Transaction" => DeleteTransactionKind
    case "edit-Transaction" => EditTransactionKind
    case "get-Transaction" => GetTransactionKind
    case "get-Transactions" => GetTransactionsKind
    case "add-Wallet" => AddWalletKind
    case "delete-Wallet" => DeleteWalletKind
    case "edit-Wallet" => EditWalletKind
    case "get-Wallet" => GetWalletKind
    case "get-Wallets" => GetWalletsKind
    case _ => OtherKind
  }

  /** `process`: route a message by its type. The four reads leave the store alone, a
      refusal writes nothing, and exactly the unknown types answer "unsupported". */
  function Process(st: State, env: Env, req: Request): (r: Reply)
    ensures req.kind in {"get-Transaction", "get-Transactions", "get-Wallet", "get-Wallets"} ==> r.st == st
    ensures Refused(r) ==> r.st == st
    ensures r.response.Unsupported? <==> req.kind !in KINDS
    ensures r.response.Unsupported? ==> r == Reply(st, Unsupported(req.kind))
  {
    var p := req.payload;
    match Classify(req.kind)
    case AddTransactionKind => AddTransaction(st, env, p)
    case DeleteTransactionKind => DeleteTransaction(st, p)
    case EditTransactionKind => EditTransaction(st, env, p)
    case GetTransactionKind => GetTransaction(st, p)
    case GetTransactionsKind => GetTransactions(st, env, p)
    case AddWalletKind => AddWallet(st, env, p)
    case DeleteWalletKind => DeleteWallet(st, p)
    case EditWalletKind => EditWallet(st, p)
    case GetWalletKind => GetWallet(st, p)
    case GetWalletsKind => GetWallets(st, p)
    case OtherKind => Reply(st, Unsupported(req.kind))
  }
}

=== FILE: text.dfy ===
/** The string primitives the handlers lean on: JavaScript's `trim`, radix-less and
    radix-10 `parseInt`, and the decimal rendering of a natural number. */
module Text {
  import opened Common

  /** ECMAScript white space and line terminators, the characters `trim` removes. */
  const SPACES: set<char> := {
    '\U{9}', '\U{A}', '\U{B}', '\U{C}', '\U{D}', ' ', '\U{A0}', '\U{1680}',
    '\U{2000}', '\U{2001}', '\U{2002}', '\U{2003}', '\U{2004}', '\U{2005}',
    '\U{2006}', '\U{2007}', '\U{2008}', '\U{2009}', '\U{200A}', '\U{2028}',
    '\U{2029}', '\U{202F}', '\U{205F}', '\U{3000}', '\U{FEFF}'
  }

  predicate IsSpace(c: char) {
    c in SPACES
  }

  predicate AllSpace(s: string) {
    forall i :: 0 <= i < |s| ==> IsSpace(s[i])
  }

  /** `s` with its leading white space removed. */
  function TrimStart(s: string): (r: string)
    ensures |r| <= |s| && r == s[|s| - |r|..]
    ensures AllSpace(s[..|s| - |r|])
    ensures r == [] || !IsSpace(r[0])
  {
    if |s| > 0 && IsSpace(s[0]) then TrimStart(s[1..]) else s
  }

  /** `s` with its trailing white space removed. */
  function TrimEnd(s: string): (r: string)
    ensures |r| <= |s| && r == s[..|r|]
    ensures AllSpace(s[|r|..])
    ensures r == [] || !IsSpace(r[|r| - 1])
  {
    if |s| > 0 && IsSpace(s[|s| - 1]) then
      var r := TrimEnd(s[..|s| - 1]);
      assert s[..|s| - 1][..|r|] == s[..|r|];
      assert s[|r|..] == s[..|s| - 1][|r|..] + [s[|s| - 1]];
      r
    else s
  }

  /** `String.prototype.trim`: the part of `s` between its leading and trailing white
      space. It is empty exactly when `s` is all white space, and otherwise it starts
      and ends with a visible character. */
  function Trim(s: string): (r: string)
    ensures |r| <= |s|
    ensures r == [] <==> AllSpace(s)
    ensures r != [] ==> !IsSpace(r[0]) && !IsSpace(r[|r| - 1])
    ensures |r| <= |TrimStart(s)| && r == s[|s| - |TrimStart(s)|..][..|r|]
  {
    var t := TrimStart(s);
    var r := TrimEnd(t);
    TrimEmptyOnlyForSpace(s, t, r);
    r
  }

  lemma TrimEmptyOnlyForSpace(s: string, t: string, r: string)
    requires t == TrimStart(s) && r == TrimEnd(t)
    ensures r == [] <==> AllSpace(s)
  {
    var k := |s| - |t|;
    assert t == s[k..];
    if r == [] {
      assert AllSpace(t) by { assert t[|r|..] == t; }
      forall i | 0 <= i < |s| ensures IsSpace(s[i]) {
        if i < k {
          assert s[i] == s[..k][i];
        } else {
          assert s[i] == t[i - k];
        }
      }
    } else {
      assert t != [] && s[k] == t[0];
    }
  }

  /** Trimming is idempotent. */
  lemma {:induction false} TrimIdempotent(s: string)
    ensures Trim(Trim(s)) == Trim(s)
  {
    var r := Trim(s);
    if r != [] {
      assert TrimStart(r) == r;
      assert TrimEnd(r) == r;
    }
  }

  predicate IsDigit(c: char) {
    '0' <= c <= '9'
  }

  predicate AllDigits(s: string) {
    forall i :: 0 <= i < |s| ==> IsDigit(s[i])
  }

  function DigitValue(c: char): (d: nat)
    requires IsDigit(c)
    ensures d <= 9
  {
    c as int - '0' as int
  }

  function DigitChar(d: nat): (c: char)
    requires d <= 9
    ensures IsDigit(c) && DigitValue(c) == d
  {
    ('0' as int + d) as char
  }

  /** The number a string of decimal digits denotes. */
  function DigitsValue(s: string): (n: nat)
    requires AllDigits(s)
    decreases |s|
  {
    if |s| == 0 then 0 else DigitsValue(s[..|s| - 1]) * 10 + DigitValue(s[|s| - 1])
  }

  /** How many decimal digits `s` starts with. */
  function DigitRun(s: string): (n: nat)
    ensures n <= |s|
    ensures AllDigits(s[..n])
    ensures n == |s| || !IsDigit(s[n])
  {
    if |s| > 0 && IsDigit(s[0]) then 1 + DigitRun(s[1..]) else 0
  }

  /** The text `parseInt` reads digits from: `s` without its leading white space and
      without one leading sign. */
  function Unsigned(s: string): (u: string)
    ensures var t := TrimStart(s);
      u == if |t| > 0 && (t[0] == '-' || t[0] == '+') then t[1..] else t
  {
    var t := TrimStart(s);
    if |t| > 0 && (t[0] == '-' || t[0] == '+') then t[1..] else t
  }

  /** The sign `parseInt` applies: a leading '-' after the white space negates. */
  predicate Negative(s: string) {
    var t := TrimStart(s);
    |t| > 0 && t[0] == '-'
  }

  function ApplySign(negative: bool, n: nat): int {
    if negative then 0 - n else n
  }

  /** Text that starts with a digit has no leading white space. */
  lemma VisibleStart(s: string)
    requires |s| > 0 && IsDigit(s[0])
    ensures TrimStart(s) == s
  {
    assert !IsSpace(s[0]);
  }

  /** `parseInt(s, 10)`: skip leading white space, read an optional sign and then the
      longest run of decimal digits; no digit at all is `NaN` (`None`). */
  function ParseInt10(s: string): (r: Option<int>)
    ensures r.None? <==> var u := Unsigned(s); |u| == 0 || !IsDigit(u[0])
    ensures r.Some? && !Negative(s) ==> r.value >= 0
  {
    var u := Unsigned(s);
    var n := DigitRun(u);
    if n == 0 then None else Some(ApplySign(Negative(s), DigitsValue(u[..n])))
  }

  predicate IsHexDigit(c: char) {
    IsDigit(c) || 'a' <= c <= 'f' || 'A' <= c <= 'F'
  }

  predicate AllHexDigits(s: string) {
    forall i :: 0 <= i < |s| ==> IsHexDigit(s[i])
  }

  function HexDigitValue(c: char): (d: nat)
    requires IsHexDigit(c)
    ensures d <= 15
    ensures IsDigit(c) ==> d == DigitValue(c)
  {
    if IsDigit(c) then DigitValue(c)
    else if 'a' <= c <= 'f' then c as int - 'a' as int + 10
    else c as int - 'A' as int + 10
  }

  /** The number a string of hexadecimal digits denotes. */
  function HexValue(s: string): (n: nat)
    requires AllHexDigits(s)
    decreases |s|
  {
    if |s| == 0 then 0 else HexValue(s[..|s| - 1]) * 16 + HexDigitValue(s[|s| - 1])
  }

  /** How many hexadecimal digits `s` starts with. */
  function HexRun(s: string): (n: nat)
    ensures n <= |s|
    ensures AllHexDigits(s[..n])
    ensures n == |s| || !IsHexDigit(s[n])
  {
    if |s| > 0 && IsHexDigit(s[0]) then 1 + HexRun(s[1..]) else 0
  }

  /** The `0x` or `0X` that makes a radix-less `parseInt` read hexadecimal. */
  predicate HexPrefixed(u: string) {
    |u| >= 2 && u[0] == '0' && (u[1] == 'x' || u[1] == 'X')
  }

  /** `parseInt(s)` without a radix: as `parseInt(s, 10)`, except that a `0x` or `0X`
      after the sign switches to hexadecimal, and then no hexadecimal digit after the
      prefix is `NaN`. */
  function ParseInt(s: string): (r: Option<int>)
    ensures r.None? <==>
      var u := Unsigned(s);
      if HexPrefixed(u) then |u| == 2 || !IsHexDigit(u[2]) else |u| == 0 || !IsDigit(u[0])
    ensures !HexPrefixed(Unsigned(s)) ==> r == ParseInt10(s)
    ensures r.Some? && !Negative(s) ==> r.value >= 0
  {
    var u := Unsigned(s);
    if HexPrefixed(u) then
      var n := HexRun(u[2..]);
      if n == 0 then None else Some(ApplySign(Negative(s), HexValue(u[2..][..n])))
    else ParseInt10(s)
  }

  /** A `0x` prefix followed by no hexadecimal digit is `NaN`. */
  lemma ParseIntHexWithoutDigits(s: string)
    requires |s| >= 2 && s[0] == '0' && (s[1] == 'x' || s[1] == 'X')
    requires |s| == 2 || !IsHexDigit(s[2])
    ensures ParseInt(s) == None
  {
    assert !IsSpace(s[0]);
    assert TrimStart(s) == s;
  }

  /** With radix 10 the same prefix reads as the number 0: the `x` ends the digits. */
  lemma ParseInt10HexPrefix(s: string)
    requires HexPrefixed(s)
    ensures ParseInt10(s) == Some(0)
  {
    assert !IsSpace(s[0]);
    assert TrimStart(s) == s;
    assert Unsigned(s) == s;
    assert s[1..][0] == s[1];
    assert DigitRun(s) == 1;
    assert s[..1][..0] == [];
    assert DigitsValue(s[..1]) == 0;
    assert !Negative(s);
  }

  lemma {:induction false} HexRunOfHexDigits(s: string)
    requires AllHexDigits(s)
    ensures HexRun(s) == |s|
    decreases |s|
  {
    if |s| > 0 {
      HexRunOfHexDigits(s[1..]);
    }
  }

  /** After the prefix, a run of hexadecimal digits is read in base 16. */
  lemma ParseIntOfHexDigits(h: string)
    requires |h| > 0 && AllHexDigits(h)
    ensures ParseInt("0x" + h) == Some(HexValue(h))
  {
    var s := "0x" + h;
    assert s[0] == '0' && s[1] == 'x' && s[2..] == h;
    VisibleStart(s);
    var u := Unsigned(s);
    assert u == s && !Negative(s) && HexPrefixed(u);
    HexRunOfHexDigits(h);
    assert u[2..][..HexRun(u[2..])] == h;
  }

  /** A non-empty run of digits parses to the number it denotes, with or without an
      explicit radix: it cannot carry the `0x` prefix. */
  lemma ParseIntOfDigits(s: string)
    requires |s| > 0 && AllDigits(s)
    ensures ParseInt10(s) == Some(DigitsValue(s))
    ensures ParseInt(s) == Some(DigitsValue(s))
  {
    assert !IsSpace(s[0]);
    assert TrimStart(s) == s;
    assert Unsigned(s) == s;
    assert !HexPrefixed(s) by {
      if |s| >= 2 {
        assert IsDigit(s[1]);
      }
    }
    DigitRunOfDigits(s);
    assert s[..|s|] == s;
  }

  lemma {:induction false} DigitRunOfDigits(s: string)
    requires AllDigits(s)
    ensures DigitRun(s) == |s|
    decreases |s|
  {
    if |s| > 0 {
      DigitRunOfDigits(s[1..]);
    }
  }

  /** Leading white space is skipped up to the first visible character. */
  lemma {:induction false} TrimStartSkipsSpace(w: string, x: string)
    requires AllSpace(w) && |x| > 0 && !IsSpace(x[0])
    ensures TrimStart(w + x) == x
    decreases |w|
  {
    if |w| > 0 {
      assert (w + x)[0] == w[0];
      assert (w + x)[1..] == w[1..] + x;
      TrimStartSkipsSpace(w[1..], x);
    } else {
      assert w + x == x;
    }
  }

  /** Digits and signs are not white space. */
  lemma NotSpace(c: char)
    requires IsDigit(c) || c == '+' || c == '-'
    ensures !IsSpace(c)
  {
  }

  /** Nothing, or a single '+' or '-'. */
  predicate SignText(sign: string) {
    |sign| <= 1 && (|sign| == 1 ==> sign[0] == '+' || sign[0] == '-')
  }

  /** White space, then an optional sign, then text starting with a digit: the digits
      are read from that text, and only a '-' negates. */
  lemma UnsignedOf(w: string, sign: string, x: string)
    requires AllSpace(w) && SignText(sign) && |x| > 0 && IsDigit(x[0])
    ensures Unsigned(w + sign + x) == x
    ensures Negative(w + sign + x) <==> sign == "-"
  {
    var y := sign + x;
    assert TrimStart(w + sign + x) == y by {
      assert y[0] == if |sign| == 0 then x[0] else sign[0];
      NotSpace(y[0]);
      assert w + sign + x == w + y;
      TrimStartSkipsSpace(w, y);
    }
    if |sign| == 0 {
      assert y == x;
    } else {
      assert y[1..] == x;
      assert sign == "-" <==> sign[0] == '-';
    }
  }

  lemma {:induction false} DigitRunOfPrefix(d: string, t: string)
    requires AllDigits(d) && (t == [] || !IsDigit(t[0]))
    ensures DigitRun(d + t) == |d| && (d + t)[..|d|] == d
    decreases |d|
  {
    if |d| > 0 {
      assert (d + t)[0] == d[0];
      assert (d + t)[1..] == d[1..] + t;
      DigitRunOfPrefix(d[1..], t);
    } else {
      assert d + t == t;
    }
  }

  lemma {:induction false} HexRunOfPrefix(h: string, t: string)
    requires AllHexDigits(h) && (t == [] || !IsHexDigit(t[0]))
    ensures HexRun(h + t) == |h| && (h + t)[..|h|] == h
    decreases |h|
  {
    if |h| > 0 {
      assert (h + t)[0] == h[0];
      assert (h + t)[1..] == h[1..] + t;
      HexRunOfPrefix(h[1..], t);
    } else {
      assert h + t == t;
    }
  }

  /** `parseInt(s, 10)` reads the leading digits and ignores what follows them:
      "12ab" is 12 and " -7" is -7. */
  lemma ParseInt10Reads(w: string, sign: string, d: string, t: string)
    requires AllSpace(w) && SignText(sign)
    requires |d| > 0 && AllDigits(d) && (t == [] || !IsDigit(t[0]))
    ensures ParseInt10(w + sign + d + t) == Some(if sign == "-" then -(DigitsValue(d) as int) else DigitsValue(d))
  {
    SignedDigits(w, sign, d, t);
    ParseInt10OfUnsigned(w + sign + d + t, d, t);
  }

  lemma SignedDigits(w: string, sign: string, d: string, t: string)
    requires AllSpace(w) && SignText(sign) && |d| > 0 && IsDigit(d[0])
    ensures Unsigned(w + sign + d + t) == d + t
    ensures Negative(w + sign + d + t) <==> sign == "-"
  {
    var x := d + t;
    assert w + sign + d + t == w + sign + x;
    assert x[0] == d[0];
    UnsignedOf(w, sign, x);
  }

  lemma ParseInt10OfUnsigned(s: string, d: string, t: string)
    requires Unsigned(s) == d + t
    requires |d| > 0 && AllDigits(d) && (t == [] || !IsDigit(t[0]))
    ensures ParseInt10(s) == Some(ApplySign(Negative(s), DigitsValue(d)))
  {
    DigitRunOfPrefix(d, t);
  }

  /** Without a radix the same holds whenever the digits do not open a `0x` prefix. */
  lemma ParseIntReads(w: string, sign: string, d: string, t: string)
    requires AllSpace(w) && SignText(sign)
    requires |d| > 0 && AllDigits(d) && (t == [] || !IsDigit(t[0]))
    requires !HexPrefixed(d + t)
    ensures ParseInt(w + sign + d + t) == Some(if sign == "-" then -(DigitsValue(d) as int) else DigitsValue(d))
  {
    SignedDigits(w, sign, d, t);
    ParseInt10Reads(w, sign, d, t);
  }

  /** After `0x` or `0X`, the leading hexadecimal digits are read in base 16 and what
      follows them is ignored: " 0x1fz" is 31. */
  lemma ParseIntReadsHex(w: string, sign: string, prefix: string, h: string, t: string)
    requires AllSpace(w) && SignText(sign) && HexPrefixed(prefix) && |prefix| == 2
    requires |h| > 0 && AllHexDigits(h) && (t == [] || !IsHexDigit(t[0]))
    ensures ParseInt(w + sign + prefix + h + t) == Some(if sign == "-" then -(HexValue(h) as int) else HexValue(h))
  {
    SignedHex(w, sign, prefix, h, t);
    ParseIntOfHexUnsigned(w + sign + prefix + h + t, prefix, h, t);
  }

  lemma SignedHex(w: string, sign: string, prefix: string, h: string, t: string)
    requires AllSpace(w) && SignText(sign) && HexPrefixed(prefix)
    ensures Unsigned(w + sign + prefix + h + t) == prefix + (h + t)
    ensures Negative(w + sign + prefix + h + t) <==> sign == "-"
  {
    assert w + sign + prefix + h + t == w + sign + prefix + (h + t);
    SignedDigits(w, sign, prefix, h + t);
  }

  lemma ParseIntOfHexUnsigned(s: string, prefix: string, h: string, t: string)
    requires Unsigned(s) == prefix + (h + t) && HexPrefixed(prefix) && |prefix| == 2
    requires |h| > 0 && AllHexDigits(h) && (t == [] || !IsHexDigit(t[0]))
    ensures ParseInt(s) == Some(ApplySign(Negative(s), HexValue(h)))
  {
    var u := prefix + (h + t);
    assert u[0] == prefix[0] && u[1] == prefix[1] && u[2..] == h + t;
    HexRunOfPrefix(h, t);
  }

  /** The decimal rendering of `n` without leading zeros (template-literal `${n}`). */
  function NatToString(n: nat): (r: string)
    ensures |r| >= 1 && AllDigits(r)
    ensures DigitsValue(r) == n
    ensures |r| > 1 ==> r[0] != '0'
  {
    if n < 10 then [DigitChar(n)]
    else
      var p := NatToString(n / 10);
      var r := p + [DigitChar(n % 10)];
      assert r[..|r| - 1] == p;
      r
  }

  /** Four-digit years render in four characters and months in at most two. */
  lemma {:induction false} NatToStringLength(n: nat)
    ensures n < 10 ==> |NatToString(n)| == 1
    ensures 10 <= n < 100 ==> |NatToString(n)| == 2
    ensures 100 <= n < 1000 ==> |NatToString(n)| == 3
    ensures 1000 <= n < 10000 ==> |NatToString(n)| == 4
  {
    if n >= 10 {
      NatToStringLength(n / 10);
    }
  }
}

=== FILE: transaction_store.dfy ===
/** The live transaction store (`src/database/dbTransactions.ts`). Every write that
    touches an amount goes through `WalletStore.UpdateAmount`, and the lemmas here show
    which writes keep `Ledger.Invariant`. */
module TransactionStore {
  import opened Common
  import opened Dates
  import opened Ledger
  import WalletStore

  /** `getById`. */
  function GetById(st: State, transId: Id): (r: Option<Transaction>)
    ensures r.Some? <==> transId in st.txs
    ensures r.Some? ==> r.value == st.txs[transId]
  {
    if transId in st.txs then Some(st.txs[transId]) else None
  }

  /** `getCategory`. */
  function GetCategory(st: State, categoryId: Id): (r: Option<Category>)
    ensures r.Some? <==> categoryId in st.categories
    ensures r.Some? ==> r.value == st.categories[categoryId]
  {
    if categoryId in st.categories then Some(st.categories[categoryId]) else None
  }

  /** The shared body of `add`: insert a transaction holding `|amount|`, resolve its
      category, and move its wallet by `applied` under the category's kind. A
      category that does not resolve makes `.category.type` throw after the insert. */
  function Insert(st: State, id: Id, userId: string, walletId: Id, concept: string,
                  amount: int, applied: int, date: Date, categoryId: Id): (r: Step<Transaction>)
  {
    var t := Transaction(id, userId, walletId, None, Some(categoryId), concept,
                         if amount < 0 then -amount else amount, None, date);
    if id in st.txs then Step(st, Crash)
    else
      var st1 := st.(txs := st.txs[id := t]);
      if categoryId !in st.categories then Step(st1, Crash)
      else Step(WalletStore.UpdateAmount(st1, walletId, applied, st.categories[categoryId].kind), Done(t))
  }

  /** `add` as written: the record keeps `Math.abs(amount)` while the wallet is moved by
      the raw `amount`. */
  function AddAsWritten(st: State, id: Id, userId: string, walletId: Id, concept: string,
                        amount: int, date: Date, categoryId: Id): (r: Step<Transaction>)
    ensures id in st.txs ==> r == Step(st, Crash)
    ensures r.out.Done? ==> categoryId in st.categories && r.st.wallets.Keys == st.wallets.Keys
    ensures r.out.Done? ==> r.out.value.amount >= 0 && (amount >= 0 ==> r.out.value.amount == amount)
    ensures r.out.Done? && walletId in st.wallets ==>
      r.st.wallets[walletId].money == st.wallets[walletId].money + Signed(st.categories[categoryId].kind, amount)
  {
    Insert(st, id, userId, walletId, concept, amount, amount, date, categoryId)
  }

  /** A negative amount under an "Income" category: the record says +5.00, the wallet
      moved by -5.00, and the balance no longer matches the transactions. */
  lemma AddAsWrittenBreaksBalance()
    ensures var st := State(map["w" := Wallet("w", "u", None, None, [], "Cash", None, 0, Date(2021, 1, 1))],
                            map[], map["c" := Category("c", SENTINEL, "Salary", SENTINEL, INCOME)]);
            var r := AddAsWritten(st, "t", "u", "w", "pay", -500, Date(2021, 1, 1), "c");
            Invariant(st) && r.out.Done? && !Balanced(r.st)
  {
    var st := State(map["w" := Wallet("w", "u", None, None, [], "Cash", None, 0, Date(2021, 1, 1))],
                    map[], map["c" := Category("c", SENTINEL, "Salary", SENTINEL, INCOME)]);
    var r := AddAsWritten(st, "t", "u", "w", "pay", -500, Date(2021, 1, 1), "c");
    var t := r.out.value;
    assert r.st.txs == map["t" := t];
    SumSingle("t", t, ByCategory(r.st.categories, "w"));
    assert !BalancedAt(r.st, "w");
  }

  /** `add`, corrected: the wallet moves by the same `|amount|` the record holds. The
      insert fails only on a reused id or a category that does not exist; otherwise the
      wallet moves by the record's signed contribution and nothing else changes. */
  function Add(st: State, id: Id, userId: string, walletId: Id, concept: string,
               amount: int, date: Date, categoryId: Id): (r: Step<Transaction>)
    ensures id in st.txs ==> r == Step(st, Crash)
    ensures r.out.Done? <==> id !in st.txs && categoryId in st.categories
    ensures r.out.Done? ==>
      var t := r.out.value;
      && t.id == id && t.userId == userId && t.walletId == walletId && t.concept == concept
      && t.date == date && t.category == Some(categoryId) && Partner(t).None?
      && t.amount >= 0 && (t.amount == amount || t.amount == -amount)
      && r.st.txs == st.txs[id := t] && r.st.categories == st.categories
      && r.st.wallets.Keys == st.wallets.Keys
      && (walletId in st.wallets ==>
            r.st.wallets[walletId].money == st.wallets[walletId].money + Contribution(st.categories, t))
      && (forall k :: k in st.wallets && k != walletId ==> r.st.wallets[k] == st.wallets[k])
  {
    Insert(st, id, userId, walletId, concept, amount, if amount < 0 then -amount else amount, date, categoryId)
  }

  /** For a non-negative amount the two agree: the bug needs a negative amount. */
  lemma AddAsWrittenAgrees(st: State, id: Id, userId: string, walletId: Id, concept: string,
                           amount: int, date: Date, categoryId: Id)
    requires amount >= 0
    ensures AddAsWritten(st, id, userId, walletId, concept, amount, date, categoryId)
         == Add(st, id, userId, walletId, concept, amount, date, categoryId)
  {
  }

  /** Text whose month digits are `0x` names no month: a radix-less `parseInt` reads the
      prefix as hexadecimal with no digits, so the date window is invalid and `getAll`
      throws. */
  lemma HexMonthThrows(st: State, walletId: Id, userId: string)
    ensures YearMonth("20210x") == None
    ensures GetAll(st, walletId, userId, "20210x").Crash?
  {
    assert Sub("20210x", 4, 6) == "0x";
    Text.ParseIntHexWithoutDigits("0x");
  }

  /** One `findByIdAndDelete` with its `updateAmount`: remove the record and move its
      wallet back by the record's contribution. A missing record yields `{}`, and a
      record whose category does not resolve, a `null` category: reading `.type` of
      either throws. */
  function Remove(st: State, k: Id): (r: Step<Transaction>)
    ensures k !in st.txs ==> r == Step(st, Crash)
    ensures r.st.categories == st.categories && r.st.wallets.Keys == st.wallets.Keys
    ensures r.out.Done? <==> k in st.txs && KindOf(st.categories, st.txs[k]).Some?
    ensures r.out.Done? ==> r.out.value == st.txs[k]
    ensures k in st.txs ==> r.st.txs == st.txs - {k}
    ensures r.out.Crash? ==> r.st.wallets == st.wallets
  {
    if k !in st.txs then Step(st, Crash)
    else
      var t := st.txs[k];
      var st1 := st.(txs := st.txs - {k});
      var kind := KindOf(st.categories, t);
      if kind.None? then Step(st1, Crash)
      else Step(WalletStore.UpdateAmount(st1, t.walletId, -t.amount, kind.value), Done(t))
  }

  /** A completed removal moves each wallet back by the record's weight and by nothing
      else. */
  lemma RemoveMovesMoney(st: State, k: Id)
    ensures var r := Remove(st, k);
      r.out.Done? ==> forall w :: w in st.wallets ==>
        r.st.wallets[w] == st.wallets[w].(money := st.wallets[w].money - Weigh(ByCategory(st.categories, w), st.txs[k]))
  {
  }

  /** `delete`: remove the transaction and reverse its contribution, then do the same for
      its transfer partner, returning one or two records in that order. */
  function Delete(st: State, transId: Id): (r: Step<seq<Transaction>>)
    ensures transId !in st.txs ==> r == Step(st, Crash)
    ensures r.st.categories == st.categories && r.st.wallets.Keys == st.wallets.Keys
    ensures r.out.Done? && Partner(st.txs[transId]).None? ==>
      r.out.value == [st.txs[transId]] && r.st.txs == st.txs - {transId}
    ensures r.out.Done? && Partner(st.txs[transId]).Some? ==>
      var p := Partner(st.txs[transId]).value;
      && p in st.txs && p != transId
      && r.out.value == [st.txs[transId], st.txs[p]]
      && r.st.txs == st.txs - {transId} - {p}
    ensures (&& transId in st.txs && KindOf(st.categories, st.txs[transId]).Some?
             && (Partner(st.txs[transId]).None? ||
                 (Partner(st.txs[transId]).value in st.txs - {transId} &&
                  KindOf(st.categories, st.txs[Partner(st.txs[transId]).value]).Some?))) ==> r.out.Done?
  {
    var s1 := Remove(st, transId);
    if s1.out.Crash? then Step(s1.st, Crash)
    else
      var t := s1.out.value;
      match Partner(t)
      case None => Step(s1.st, Done([t]))
      case Some(p) =>
        var s2 := Remove(s1.st, p);
        if s2.out.Crash? then Step(s2.st, Crash)
        else Step(s2.st, Done([t, s2.out.value]))
  }

  /** Deleting a transaction right after adding it restores the state exactly. */
  lemma AddThenDelete(st: State, id: Id, userId: string, walletId: Id, concept: string,
                      amount: int, date: Date, categoryId: Id)
    requires id !in st.txs && categoryId in st.categories
    ensures var r := Add(st, id, userId, walletId, concept, amount, date, categoryId);
      Delete(r.st, id) == Step(st, Done([r.out.value]))
  {
    var r := Add(st, id, userId, walletId, concept, amount, date, categoryId);
    assert st.txs[id := r.out.value] - {id} == st.txs;
    if walletId in st.wallets {
      assert st.wallets[walletId := st.wallets[walletId]] == st.wallets;
    }
  }

  /** `deleteAll`: drop the wallet's transactions; no balance moves. */
  function DeleteAll(st: State, walletId: Id): (r: State)
    ensures forall k :: k in r.txs <==> k in st.txs && st.txs[k].walletId != walletId
    ensures forall k :: k in r.txs ==> r.txs[k] == st.txs[k]
    ensures r.wallets == st.wallets && r.categories == st.categories
  {
    st.(txs := TxsOutside(st.txs, {walletId}))
  }

  /** `deleteUser`: drop the user's transactions; no balance moves. */
  function DeleteUser(st: State, userId: string): (r: State)
    ensures forall k :: k in r.txs <==> k in st.txs && st.txs[k].userId != userId
    ensures forall k :: k in r.txs ==> r.txs[k] == st.txs[k]
    ensures r.wallets == st.wallets && r.categories == st.categories
  {
    st.(txs := map k | k in st.txs && st.txs[k].userId != userId :: st.txs[k])
  }

  /** The leading `substring(start, end)` of `parseInt(dataMonth.substring(...))`. */
  function Sub(s: string, start: nat, end: nat): (r: string)
    requires start <= end
    ensures |r| <= end - start
  {
    if |s| <= start then "" else if |s| <= end then s[start..] else s[start..end]
  }

  /** The transactions `getAll` selects: the user's, dated in the month window, and (when
      a wallet is named) filed against the wallet or one of the ids in its `child_id`. */
  predicate Selected(t: Transaction, userId: string, a: int, b: int, lookup: Option<seq<Id>>) {
    && t.userId == userId
    && InWindow(t.date, a, b)
    && (lookup.Some? ==> t.walletId in lookup.value)
  }

  /** The year and month `parseInt` reads from the characters `YYYY` and `MM`, or `None`
      when either is `NaN`. */
  function YearMonth(dataMonth: string): (r: Option<(int, int)>)
    ensures r.Some? <==> Text.ParseInt(Sub(dataMonth, 0, 4)).Some? && Text.ParseInt(Sub(dataMonth, 4, 6)).Some?
    ensures r.Some? ==> r.value.0 == Text.ParseInt(Sub(dataMonth, 0, 4)).value
    ensures r.Some? ==> r.value.1 == Text.ParseInt(Sub(dataMonth, 4, 6)).value
  {
    var year, month := Text.ParseInt(Sub(dataMonth, 0, 4)), Text.ParseInt(Sub(dataMonth, 4, 6));
    if year.None? || month.None? then None else Some((year.value, month.value))
  }

  /** The wallet ids a listing admits: none named ("-1"), or the wallet and its
      `child_id` list. */
  function Lookup(st: State, walletId: Id): Option<seq<Id>>
    requires walletId == SENTINEL || walletId in st.wallets
  {
    if walletId == SENTINEL then None else Some([walletId] + st.wallets[walletId].children)
  }

  /** `getAll`: the month comes from the six characters `YYYYMM`; a year or month that
      does not parse makes the date window invalid and `toISOString` throw, and a named
      wallet that does not exist throws on `wallet._id`. */
  function GetAll(st: State, walletId: Id, userId: string, dataMonth: string): (r: Outcome<map<Id, Transaction>>)
    ensures r.Done? <==> YearMonth(dataMonth).Some? && (walletId != SENTINEL ==> walletId in st.wallets)
    ensures r.Done? ==>
      var y, m := YearMonth(dataMonth).value.0, YearMonth(dataMonth).value.1;
      forall k :: k in r.value <==> k in st.txs && Selected(st.txs[k], userId, UtcMonth(y, m - 1), UtcMonth(y, m), Lookup(st, walletId))
    ensures r.Done? ==> forall k :: k in r.value ==> r.value[k] == st.txs[k]
  {
    match YearMonth(dataMonth)
    case None => Crash
    case Some((year, month)) =>
      if walletId != SENTINEL && walletId !in st.wallets then Crash
      else
        var a, b := UtcMonth(year, month - 1), UtcMonth(year, month);
        var lookup := Lookup(st, walletId);
        Done(map k | k in st.txs && Selected(st.txs[k], userId, a, b, lookup) :: st.txs[k])
  }

  /** Whatever text names a year and a real month, `getAll` lists only transactions
      dated in that month (of the year `Date.UTC` makes of it). */
  lemma {:induction false} GetAllSelectsParsedMonth(st: State, walletId: Id, userId: string, dataMonth: string, year: int, month: int)
    requires YearMonth(dataMonth) == Some((year, month))
    requires 1 <= month <= 12
    requires walletId == SENTINEL || walletId in st.wallets
    ensures var r := GetAll(st, walletId, userId, dataMonth);
      r.Done? && forall k :: k in r.value ==> r.value[k].date.year == FullYear(year) && r.value[k].date.month == month
  {
    GetAllListsParsedMonth(st, walletId, userId, dataMonth, year, month);
  }

  /** Whatever text names a year and a real month, `getAll` lists exactly the user's
      transactions dated in that month and filed under the wallet or its `child_id`
      list (under any wallet for "-1"). */
  lemma GetAllListsParsedMonth(st: State, walletId: Id, userId: string, dataMonth: string, year: int, month: int)
    requires YearMonth(dataMonth) == Some((year, month))
    requires 1 <= month <= 12
    requires walletId == SENTINEL || walletId in st.wallets
    ensures var r := GetAll(st, walletId, userId, dataMonth);
      && r.Done?
      && forall k :: k in r.value <==>
           && k in st.txs && st.txs[k].userId == userId
           && st.txs[k].date.year == FullYear(year) && st.txs[k].date.month == month
           && (walletId != SENTINEL ==> st.txs[k].walletId in [walletId] + st.wallets[walletId].children)
  {
    var r := GetAll(st, walletId, userId, dataMonth);
    var lookup := Lookup(st, walletId);
    forall k | k in st.txs
      ensures Selected(st.txs[k], userId, UtcMonth(year, month - 1), UtcMonth(year, month), lookup) <==>
        && st.txs[k].userId == userId
        && st.txs[k].date.year == FullYear(year) && st.txs[k].date.month == month
        && (lookup.Some? ==> st.txs[k].walletId in lookup.value)
    {
      SelectedInMonth(st.txs[k], userId, year, month, lookup);
    }
  }

  lemma SelectedInMonth(t: Transaction, userId: string, year: int, month: int, lookup: Option<seq<Id>>)
    requires 1 <= month <= 12
    ensures Selected(t, userId, UtcMonth(year, month - 1), UtcMonth(year, month), lookup) <==>
      t.userId == userId && t.date.year == FullYear(year) && t.date.month == month &&
      (lookup.Some? ==> t.walletId in lookup.value)
  {
    assert (month - 1) / 12 == 0 && (month - 1) % 12 + 1 == month;
    MonthWindowIsOneMonth(t.date, year, month);
  }

  /** The month string the handler substitutes, `${year}${month}`, makes `getAll` select
      exactly that calendar month for any four-digit year, whether the month renders in
      one digit or two. */
  lemma DefaultMonthSelectsCurrent(st: State, walletId: Id, userId: string, year: nat, month: nat)
    requires 1000 <= year <= 9999 && 1 <= month <= 12
    requires walletId == SENTINEL || walletId in st.wallets
    ensures var r := GetAll(st, walletId, userId, Text.NatToString(year) + Text.NatToString(month));
      r.Done? && forall k :: k in r.value ==> r.value[k].date.year == year && r.value[k].date.month == month
  {
    DefaultMonthParses(year, month);
    GetAllSelectsParsedMonth(st, walletId, userId, Text.NatToString(year) + Text.NatToString(month), year, month);
  }

  /** `${year}${month}` reads back as the year and month it was made from. */
  lemma DefaultMonthParses(year: nat, month: nat)
    requires 1000 <= year <= 9999 && 1 <= month <= 12
    ensures YearMonth(Text.NatToString(year) + Text.NatToString(month)) == Some((year as int, month as int))
  {
    var ys, ms := Text.NatToString(year), Text.NatToString(month);
    Text.NatToStringLength(year);
    Text.NatToStringLength(month);
    var s := ys + ms;
    assert Sub(s, 0, 4) == ys;
    assert Sub(s, 4, 6) == ms;
    Text.ParseIntOfDigits(ys);
    Text.ParseIntOfDigits(ms);
  }

  /** The global "Other" category of a kind, as `getBasicCategories` looks it up. */
  predicate IsBasic(c: Category, kind: string) {
    c.parentId == SENTINEL && c.userId == SENTINEL && c.name == "Other" && c.kind == kind
  }

  function BasicOf(cats: map<Id, Category>, kind: string): (r: set<Id>)
    ensures forall k :: k in r <==> k in cats && IsBasic(cats[k], kind)
  {
    set k | k in cats && IsBasic(cats[k], kind)
  }

  /** Insert the "Other" category of a kind under a newId id; the id must be unused. */
  function InsertBasic(st: State, newId: Id, kind: string): Step<set<Id>> {
    if newId in st.categories then Step(st, Crash)
    else Step(st.(categories := st.categories[newId := Category(newId, SENTINEL, "Other", SENTINEL, kind)]), Done({newId}))
  }

  /** `getBasicCategories`: look both global "Other" categories up, then create whichever
      was missing. The output holds, per kind, the ids `findOne` could return. */
  function GetBasicCategories(st: State, freshIn: Id, freshOut: Id): (r: Step<(set<Id>, set<Id>)>)
    ensures r.st.wallets == st.wallets && r.st.txs == st.txs
    ensures st.categories.Keys <= r.st.categories.Keys
    ensures forall k :: k in st.categories ==> r.st.categories[k] == st.categories[k]
    ensures BasicOf(st.categories, INCOME) != {} && BasicOf(st.categories, EXPENSE) != {} ==>
      r == Step(st, Done((BasicOf(st.categories, INCOME), BasicOf(st.categories, EXPENSE))))
    ensures r.out.Done? ==>
      && r.out.value.0 != {} && r.out.value.1 != {}
      && r.out.value.0 <= BasicOf(r.st.categories, INCOME)
      && r.out.value.1 <= BasicOf(r.st.categories, EXPENSE)
    ensures freshIn !in st.categories && freshOut !in st.categories && freshIn != freshOut ==> r.out.Done?
  {
    var otherIn, otherOut := BasicOf(st.categories, INCOME), BasicOf(st.categories, EXPENSE);
    var s1 := if otherIn == {} then InsertBasic(st, freshIn, INCOME) else Step(st, Done(otherIn));
    if s1.out.Crash? then Step(s1.st, Crash)
    else
      var s2 := if otherOut == {} then InsertBasic(s1.st, freshOut, EXPENSE) else Step(s1.st, Done(otherOut));
      if s2.out.Crash? then Step(s2.st, Crash)
      else Step(s2.st, Done((s1.out.value, s2.out.value)))
  }

  /** Once both exist, a second call creates nothing, so the call is idempotent. */
  lemma GetBasicCategoriesIdempotent(st: State, freshIn: Id, freshOut: Id, freshIn': Id, freshOut': Id)
    requires freshIn !in st.categories && freshOut !in st.categories && freshIn != freshOut
    ensures var r := GetBasicCategories(st, freshIn, freshOut);
      GetBasicCategories(r.st, freshIn', freshOut').st == r.st
  {
    var r := GetBasicCategories(st, freshIn, freshOut);
    assert BasicOf(r.st.categories, INCOME) != {};
    assert BasicOf(r.st.categories, EXPENSE) != {};
  }

  /** Reassign every transaction of wallet `id` to `parent`. */
  function Reassign(txs: map<Id, Transaction>, id: Id, parent: Id): (r: map<Id, Transaction>)
    ensures r.Keys == txs.Keys
    ensures forall k :: k in txs ==> r[k] == if txs[k].walletId == id then txs[k].(walletId := parent) else txs[k]
  {
    map k | k in txs :: if txs[k].walletId == id then txs[k].(walletId := parent) else txs[k]
  }

  /** `migrateToParent` as written: move the wallet's transactions to its parent and
      zero the wallet; the parent's money stays where it was. */
  function MigrateToParentAsWritten(st: State, id: Id): (r: Step<()>)
    ensures id !in st.wallets ==> r == Step(st, Crash)
    ensures id in st.wallets && st.wallets[id].parent.None? ==> r == Step(st, Done(()))
    ensures id in st.wallets && st.wallets[id].parent.Some? ==>
      && r.out.Done?
      && r.st.txs == Reassign(st.txs, id, st.wallets[id].parent.value)
      && r.st.wallets == st.wallets[id := st.wallets[id].(money := 0)]
    ensures r.st.wallets.Keys == st.wallets.Keys && r.st.categories == st.categories
  {
    if id !in st.wallets then Step(st, Crash)
    else
      var w := st.wallets[id];
      match w.parent
      case None => Step(st, Done(()))
      case Some(p) =>
        var st1 := st.(txs := Reassign(st.txs, id, p));
        Step(WalletStore.UpdateAmount(st1, id, w.money, EXPENSE), Done(()))
  }

  /** A parent with nothing of its own and a child holding one 5.00 income: after the
      migration the parent holds the transaction but still shows 0. */
  lemma MigrateToParentAsWrittenBreaksBalance()
    ensures var st := State(
              map["p" := Wallet("p", "u", None, None, ["c"], "Main", None, 0, Date(2021, 1, 1)),
                  "c" := Wallet("c", "u", None, Some("p"), [], "Sub", None, 500, Date(2021, 1, 1))],
              map["t" := Transaction("t", "u", "c", None, Some("i"), "pay", 500, None, Date(2021, 1, 1))],
              map["i" := Category("i", SENTINEL, "Salary", SENTINEL, INCOME)]);
            var r := MigrateToParentAsWritten(st, "c");
            Invariant(st) && r.out.Done? && !Balanced(r.st)
  {
    var t := Transaction("t", "u", "c", None, Some("i"), "pay", 500, None, Date(2021, 1, 1));
    var st := State(
      map["p" := Wallet("p", "u", None, None, ["c"], "Main", None, 0, Date(2021, 1, 1)),
          "c" := Wallet("c", "u", None, Some("p"), [], "Sub", None, 500, Date(2021, 1, 1))],
      map["t" := t],
      map["i" := Category("i", SENTINEL, "Salary", SENTINEL, INCOME)]);
    SumSingle("t", t, ByCategory(st.categories, "p"));
    SumSingle("t", t, ByCategory(st.categories, "c"));
    assert Invariant(st);
    var r := MigrateToParentAsWritten(st, "c");
    assert r.st.txs == map["t" := t.(walletId := "p")];
    SumSingle("t", t.(walletId := "p"), ByCategory(st.categories, "p"));
    assert !BalancedAt(r.st, "p");
  }

  /** `migrateToParent`, corrected: since `updateAmount` never carries a child's money to
      its parent, the parent is credited with what the child held. */
  function MigrateToParent(st: State, id: Id): (r: Step<()>)
    ensures id !in st.wallets ==> r == Step(st, Crash)
    ensures id in st.wallets && st.wallets[id].parent.None? ==> r == Step(st, Done(()))
    ensures r.st.wallets.Keys == st.wallets.Keys && r.st.categories == st.categories
    ensures id in st.wallets && st.wallets[id].parent.Some? && st.wallets[id].parent.value != id ==>
      var p := st.wallets[id].parent.value;
      && r.out.Done?
      && r.st.txs == Reassign(st.txs, id, p)
      && r.st.wallets[id].money == 0
      && (p in st.wallets ==> r.st.wallets[p].money == st.wallets[p].money + st.wallets[id].money)
      && (forall k :: k in st.wallets && k != id && k != p ==> r.st.wallets[k] == st.wallets[k])
  {
    var s := MigrateToParentAsWritten(st, id);
    if s.out.Crash? || st.wallets[id].parent.None? then s
    else
      var w := st.wallets[id];
      Step(WalletStore.UpdateAmount(s.st, w.parent.value, w.money, INCOME), Done(()))
  }

  /** The fields an edit can change. */
  datatype TxPatch = TxPatch(walletId: Option<Id>, concept: Option<string>, category: Option<Id>,
                             amount: Option<int>, date: Option<Date>)

  /** `$set` of the supplied fields, plus `$unset: { transfer_id }` when unlinking. */
  function Patch(t: Transaction, p: TxPatch, unlink: bool): (r: Transaction)
    ensures r.id == t.id && r.userId == t.userId && r.excludeFromReport == t.excludeFromReport
    ensures r.transferId == if unlink then None else t.transferId
    ensures r.walletId == p.walletId.GetOr(t.walletId) && r.concept == p.concept.GetOr(t.concept)
    ensures r.category == (if p.category.Some? then p.category else t.category)
    ensures r.amount == p.amount.GetOr(t.amount) && r.date == p.date.GetOr(t.date)
  {
    t.(walletId := p.walletId.GetOr(t.walletId), concept := p.concept.GetOr(t.concept),
       category := if p.category.Some? then p.category else t.category,
       amount := p.amount.GetOr(t.amount), date := p.date.GetOr(t.date),
       transferId := if unlink then None else t.transferId)
  }

  /** One `findByIdAndUpdate` followed by the two `updateAmount` calls: reverse `before`
      on its wallet, apply the updated record on its (possibly new) wallet. When the
      record is gone the update yields `{}`: the reversal still runs and reading the
      category of `{}` throws. */
  function Rewrite(st: State, k: Id, before: Transaction, p: TxPatch, unlink: bool): (r: Step<Transaction>)
    ensures r.st.categories == st.categories && r.st.wallets.Keys == st.wallets.Keys
    ensures r.out.Done? ==>
      && k in st.txs && r.out.value == Patch(st.txs[k], p, unlink)
      && r.st.txs == st.txs[k := r.out.value]
      && KindOf(st.categories, before).Some? && KindOf(st.categories, r.out.value).Some?
    ensures (k in st.txs && KindOf(st.categories, before).Some? &&
             KindOf(st.categories, Patch(st.txs[k], p, unlink)).Some?) ==> r.out.Done?
    ensures k !in st.txs ==>
      && r.out.Crash? && r.st.txs == st.txs
      && forall w :: w in st.wallets ==>
           r.st.wallets[w] == st.wallets[w].(money := st.wallets[w].money - Weigh(ByCategory(st.categories, w), before))
  {
    var kb := KindOf(st.categories, before);
    if k !in st.txs then
      if kb.None? then Step(st, Crash)
      else Step(WalletStore.UpdateAmount(st, before.walletId, -before.amount, kb.value), Crash)
    else
      var after := Patch(st.txs[k], p, unlink);
      var st1 := st.(txs := st.txs[k := after]);
      var ka := KindOf(st.categories, after);
      if kb.None? then Step(st1, Crash)
      else
        var st2 := WalletStore.UpdateAmount(st1, before.walletId, -before.amount, kb.value);
        if ka.None? then Step(st2, Crash)
        else Step(WalletStore.UpdateAmount(st2, after.walletId, after.amount, ka.value), Done(after))
  }

  /** A completed rewrite moves each wallet by the change in its weight and by nothing
      else. */
  lemma RewriteMovesMoney(st: State, k: Id, before: Transaction, p: TxPatch, unlink: bool)
    ensures var r := Rewrite(st, k, before, p, unlink);
      r.out.Done? ==> forall w :: w in st.wallets ==>
        r.st.wallets[w] == st.wallets[w].(money := st.wallets[w].money
          - Weigh(ByCategory(st.categories, w), before) + Weigh(ByCategory(st.categories, w), r.out.value))
  {
  }

  /** A patch whose wallet and category, if given, exist. */
  predicate PatchFits(st: State, p: TxPatch) {
    (p.walletId.Some? ==> p.walletId.value in st.wallets) &&
    (p.category.Some? ==> p.category.value in st.categories)
  }

  /** `update`: with a live transfer partner, the patch minus `category` and
      `wallet_id` is applied to the partner first and then to the record; with a dangling
      partner the record's `transfer_id` is unset. The lists hold the partner first and
      the record last. */
  function Update(st: State, prior: Transaction, patch: TxPatch): (r: Step<(seq<Transaction>, seq<Transaction>)>)
    ensures r.st.categories == st.categories
    ensures r.out.Done? ==>
      var (priors, posts) := r.out.value;
      && |priors| == |posts| && 1 <= |priors| <= 2
      && priors[|priors| - 1] == prior && prior.id in st.txs
      && (Partner(prior).None? || Partner(prior).value !in st.txs ==> |priors| == 1)
    ensures r.out.Done? && Partner(prior).Some? && Partner(prior).value !in st.txs ==>
      r.out.value.1[0].transferId.None? && r.out.value.1[0] == Patch(st.txs[prior.id], patch, true)
    ensures r.out.Done? && Partner(prior).Some? && Partner(prior).value in st.txs ==>
      var u := st.txs[Partner(prior).value];
      var stripped := patch.(walletId := None, category := None);
      && r.out.value.0[0] == u
      && r.out.value.1[0] == Patch(u, stripped, false)
      && r.out.value.1[0].walletId == u.walletId && r.out.value.1[0].category == u.category
    ensures r.out.Done? && (Partner(prior).None? || Partner(prior).value !in st.txs) ==>
      var post := r.out.value.1[0];
      && post == Patch(st.txs[prior.id], patch, Partner(prior).Some?)
      && r.st.txs == st.txs[prior.id := post]
    ensures r.out.Done? && Partner(prior).Some? && Partner(prior).value in st.txs ==>
      var pid := Partner(prior).value;
      var stripped := patch.(walletId := None, category := None);
      var mid := st.txs[pid := Patch(st.txs[pid], stripped, false)];
      && |r.out.value.1| == 2
      && var post := r.out.value.1[1];
      && prior.id in mid
      && post == Patch(mid[prior.id], stripped, false)
      && post.walletId == st.txs[prior.id].walletId && post.category == st.txs[prior.id].category
      && r.st.txs == mid[prior.id := post]
  {
    var pid := Partner(prior);
    if pid.Some? && pid.value in st.txs then
      var u := st.txs[pid.value];
      var stripped := patch.(walletId := None, category := None);
      var s1 := Rewrite(st, pid.value, u, stripped, false);
      if s1.out.Crash? then Step(s1.st, Crash)
      else
        var s2 := Rewrite(s1.st, prior.id, prior, stripped, false);
        if s2.out.Crash? then Step(s2.st, Crash)
        else Step(s2.st, Done(([u, prior], [s1.out.value, s2.out.value])))
    else
      var s := Rewrite(st, prior.id, prior, patch, pid.Some?);
      if s.out.Crash? then Step(s.st, Crash)
      else Step(s.st, Done(([prior], [s.out.value])))
  }

}

=== FILE: validator.dfy ===
/** The field validators and ownership guards of `src/utils/validator.ts`. Each returns
    the error map it built and, where `validator.ts` returns one, the value it computed;
    a guard that dereferences a record the store does not have returns `Crash`. */
module Validator {
  import opened Common
  import opened Text
  import opened Ledger
  import WalletStore
  import TransactionStore

  const AMOUNT_ERROR: string := "Amount is not a number"
  const CATEGORY_MISSING_ERROR: string := "Category doesn't exist"
  const CATEGORY_OWNER_ERROR: string := "Category does not belong to the user"
  const CONCEPT_ERROR: string := "Concept must not be empty"
  const CURRENCY_EMPTY_ERROR: string := "Currency must not be empty"
  const CURRENCY_LENGTH_ERROR: string := "Currency must be a 3 letter acronym"
  const CURRENCY_PARENT_ERROR: string := "Currency must match its parent"
  const NAME_EMPTY_ERROR: string := "Wallet name must not be empty"
  const NAME_TAKEN_ERROR: string := "Wallet name already exists"
  const WALLET_OWNER_ERROR: string := "User does not own this wallet"
  const TRANSACTION_OWNER_ERROR: string := "User does not own this transaction"
  const PARENT_OWNER_ERROR: string := "User does not own parent wallet"
  const GENERATION_ERROR: string := "Only one generation of subwallets is allowed"

  /** One error under one field. */
  function FieldError<T>(field: string, message: string, value: T): (r: Verdict<T>)
    ensures !r.Valid() && r.errors == map[field := message] && r.value == value
  {
    var r := Verdict(map[field := message], value);
    assert field in r.errors;
    r
  }

  /** `Math.round(y)`: the nearest integer, halves rounding up. */
  function Round(y: real): (n: int)
    ensures y - 0.5 < n as real <= y + 0.5
  {
    (y + 0.5).Floor
  }

  /** `validateAmount`, on what `parseFloat` made of the text (`None` for `NaN`). The
      rounded value is a whole number of cents; `None` stands for the `NaN` `validator.ts`
      still returns as `rounded`. */
  function ValidateAmount(parsed: Option<real>): (r: Verdict<Option<int>>)
    ensures r.Valid() <==> parsed.Some?
    ensures r.value.Some? <==> parsed.Some?
    ensures !r.Valid() ==> r.errors == map["amount" := AMOUNT_ERROR]
    ensures parsed.Some? ==>
      parsed.value * 100.0 - 0.5 < r.value.value as real <= parsed.value * 100.0 + 0.5
  {
    match parsed
    case None => FieldError("amount", AMOUNT_ERROR, None)
    case Some(x) => Verdict(map[], Some(Round(x * 100.0)))
  }

  /** `validateCategory`: the category must exist and be global ("-1") or the user's. */
  function ValidateCategory(st: State, categoryId: Id, userId: string): (r: Verdict<()>)
    ensures r.Valid() <==>
      categoryId in st.categories &&
      (st.categories[categoryId].userId == SENTINEL || st.categories[categoryId].userId == userId)
    ensures categoryId !in st.categories ==> r.errors == map["category" := CATEGORY_MISSING_ERROR]
    ensures !r.Valid() && categoryId in st.categories ==> r.errors == map["category" := CATEGORY_OWNER_ERROR]
  {
    match TransactionStore.GetCategory(st, categoryId)
    case None => FieldError("category", CATEGORY_MISSING_ERROR, ())
    case Some(c) =>
      if c.userId != SENTINEL && c.userId != userId then FieldError("category", CATEGORY_OWNER_ERROR, ())
      else Verdict(map[], ())
  }

  /** `validateConcept`: `null` is an error, `undefined` makes `.trim()` throw, and a
      given concept must hold a visible character. */
  function ValidateConcept(concept: Field<string>): (r: Outcome<Verdict<()>>)
    ensures r.Crash? <==> concept.Undefined?
    ensures r.Done? ==>
      && (r.value.Valid() <==> concept.Given? && exists i :: 0 <= i < |concept.value| && !IsSpace(concept.value[i]))
      && (!r.value.Valid() ==> r.value.errors == map["concept" := CONCEPT_ERROR])
  {
    match concept
    case Undefined => Crash
    case Null => Done(FieldError("concept", CONCEPT_ERROR, ()))
    case Given(c) => if Trim(c) == "" then Done(FieldError("concept", CONCEPT_ERROR, ())) else Done(Verdict(map[], ()))
  }

  /** The currency's own shape: non-empty, then exactly three characters. */
  function CurrencyShape(out: string): (e: Errors)
    ensures e.Keys <= {"currency"}
    ensures e == map[] <==> |out| == 3
    ensures out == "" ==> e == map["currency" := CURRENCY_EMPTY_ERROR]
    ensures out != "" && |out| != 3 ==> e == map["currency" := CURRENCY_LENGTH_ERROR]
  {
    if out == "" then FieldError("currency", CURRENCY_EMPTY_ERROR, ()).errors
    else if |out| != 3 then FieldError("currency", CURRENCY_LENGTH_ERROR, ()).errors
    else map[]
  }

  /** `validateCurrency`: `null` is an error and `undefined` makes `.trim()` throw; the trimmed currency must be three
      characters and, under a parent wallet, equal the parent's currency; the mismatch
      message replaces any earlier one. A parent that does not exist makes
      `wallet.currency` throw. The value is the `output` `validateCurrency` returns. */
  function ValidateCurrency(st: State, currency: Field<string>, parent: string): (r: Outcome<Verdict<Option<string>>>)
    ensures currency.Undefined? ==> r == Crash
    ensures currency.Null? ==> r == Done(FieldError("currency", CURRENCY_EMPTY_ERROR, None))
    ensures currency.Given? && parent != SENTINEL && parent !in st.wallets ==> r == Crash
    ensures r.Done? && currency.Given? ==>
      var out := Trim(currency.value);
      var mismatch := parent != SENTINEL && st.wallets[parent].currency != Some(out);
      && r.value.value == Some(out)
      && r.value.errors == (if mismatch then map["currency" := CURRENCY_PARENT_ERROR] else CurrencyShape(out))
      && (r.value.Valid() <==> |out| == 3 && !mismatch)
  {
    match currency
    case Undefined => Crash
    case Null => Done(FieldError("currency", CURRENCY_EMPTY_ERROR, None))
    case Given(c) =>
      var out := Trim(c);
      var errors := CurrencyShape(out);
      if parent == SENTINEL then Done(Verdict(errors, Some(out)))
      else match WalletStore.GetById(st, parent)
        case None => Crash
        case Some(w) =>
          if w.currency != Some(out) then Done(FieldError("currency", CURRENCY_PARENT_ERROR, Some(out)))
          else Done(Verdict(errors, Some(out)))
  }

  /** `validateWalletName`: the name must hold a visible character, and no wallet of the
      user may carry exactly this (untrimmed) name. An `undefined` name drops out of the
      query, which then matches any wallet of the user; a `null` one matches no stored
      name. */
  function ValidateWalletName(st: State, name: Field<string>, userId: string): (r: Verdict<()>)
    ensures r.errors.Keys <= {"name"}
    ensures r.Valid() <==>
      && name.Given? && !AllSpace(name.value)
      && WalletStore.GetByName(st, userId, name.value) == {}
    ensures name.Given? && WalletStore.GetByName(st, userId, name.value) != {} ==>
      r.errors == map["name" := NAME_TAKEN_ERROR]
    ensures name.Undefined? && (exists k :: k in st.wallets && st.wallets[k].userId == userId) ==>
      r.errors == map["name" := NAME_TAKEN_ERROR]
  {
    var empty := !name.Given? || name.value == "" || Trim(name.value) == "";
    var taken := match name
      case Given(n) => WalletStore.GetByName(st, userId, n) != {}
      case Undefined => exists k :: k in st.wallets && st.wallets[k].userId == userId
      case Null => false;
    if taken then FieldError("name", NAME_TAKEN_ERROR, ())
    else if empty then FieldError("name", NAME_EMPTY_ERROR, ())
    else Verdict(map[], ())
  }

  /** The probe uses the raw name, so a name that only differs from an existing one by a
      leading space passes, and the handlers then store its trimmed form: the name the
      user already has. */
  lemma PaddedDuplicateNamePasses(st: State, userId: string, name: string)
    requires name != [] && !IsSpace(name[0]) && !IsSpace(name[|name| - 1])
    requires WalletStore.GetByName(st, userId, name) != {}
    requires WalletStore.GetByName(st, userId, " " + name) == {}
    ensures ValidateWalletName(st, Given(" " + name), userId).Valid()
    ensures Trim(" " + name) == name
  {
    PaddedTrim(name);
  }

  lemma PaddedTrim(name: string)
    requires name != [] && !IsSpace(name[0]) && !IsSpace(name[|name| - 1])
    ensures Trim(" " + name) == name && !AllSpace(" " + name)
  {
    var padded := " " + name;
    assert padded[1..] == name && padded[1] == name[0];
    assert TrimStart(padded) == name;
    assert TrimEnd(name) == name;
  }

  /** `setIconId`, on the text of the field when it is truthy (`None` when it is falsy):
      `parseInt` of it, or 0 when that is `NaN` or negative. */
  function SetIconId(icon: Option<string>): (r: nat)
    ensures icon.None? ==> r == 0
    ensures icon.Some? && ParseInt10(icon.value).None? ==> r == 0
    ensures icon.Some? && ParseInt10(icon.value).Some? ==>
      r == if ParseInt10(icon.value).value < 0 then 0 else ParseInt10(icon.value).value
  {
    match icon
    case None => 0
    case Some(s) =>
      match ParseInt10(s)
      case None => 0
      case Some(n) => if n < 0 then 0 else n
  }

  /** The field as the next call would see a stored icon id: 0 is falsy. */
  function IconField(n: nat): Option<string> {
    if n == 0 then None else Some(NatToString(n))
  }

  /** Feeding `setIconId` its own result gives that result back. */
  lemma SetIconIdIdempotent(icon: Option<string>)
    ensures SetIconId(IconField(SetIconId(icon))) == SetIconId(icon)
  {
    var n := SetIconId(icon);
    if n != 0 {
      ParseIntOfDigits(NatToString(n));
    }
  }

  /** `walletOwnership`: valid exactly when the user id is non-empty, the wallet exists
      and the user owns it; the fetched wallet comes back either way. */
  function WalletOwnership(st: State, userId: string, walletId: Id): (r: Verdict<Option<Wallet>>)
    ensures r.value == WalletStore.GetById(st, walletId)
    ensures r.Valid() <==> userId != "" && walletId in st.wallets && st.wallets[walletId].userId == userId
    ensures !r.Valid() ==> r.errors == map["wallet" := WALLET_OWNER_ERROR]
  {
    var w := WalletStore.GetById(st, walletId);
    if userId == "" || w.None? || w.value.userId != userId then FieldError("wallet", WALLET_OWNER_ERROR, w)
    else Verdict(map[], w)
  }

  /** `transactionOwnership`, the same guard over transactions. */
  function TransactionOwnership(st: State, userId: string, transId: Id): (r: Verdict<Option<Transaction>>)
    ensures r.value == TransactionStore.GetById(st, transId)
    ensures r.Valid() <==> userId != "" && transId in st.txs && st.txs[transId].userId == userId
    ensures !r.Valid() ==> r.errors == map["transaction" := TRANSACTION_OWNER_ERROR]
  {
    var t := TransactionStore.GetById(st, transId);
    if userId == "" || t.None? || t.value.userId != userId then FieldError("transaction", TRANSACTION_OWNER_ERROR, t)
    else Verdict(map[], t)
  }

  /** A wallet with no parent: `parent_id` is unset, empty or "-1". */
  predicate TopLevel(w: Wallet) {
    w.parent.None? || w.parent.value == "" || w.parent.value == SENTINEL
  }

  /** `walletLineage`: a blank parent means "-1" and needs no lookup; otherwise the
      parent must exist (or `wallet.user_id` throws), belong to the user, and not be a
      subwallet itself. The value is the normalised parent id. */
  function WalletLineage(st: State, userId: string, parentId: string): (r: Outcome<Verdict<string>>)
    ensures AllSpace(parentId) ==> r == Done(Verdict(map[], SENTINEL))
    ensures r.Done? ==> r.value.value == (if AllSpace(parentId) then SENTINEL else Trim(parentId))
    ensures var p := if AllSpace(parentId) then SENTINEL else Trim(parentId);
      && (p != SENTINEL && p !in st.wallets ==> r == Crash)
      && (p != SENTINEL && p in st.wallets ==>
            && r.Done?
            && (r.value.Valid() <==> st.wallets[p].userId == userId && TopLevel(st.wallets[p]))
            && (st.wallets[p].userId != userId ==> r.value.errors == map["parent_id" := PARENT_OWNER_ERROR]))
  {
    var p := if Trim(parentId) == "" then SENTINEL else Trim(parentId);
    if p == SENTINEL then Done(Verdict(map[], p))
    else match WalletStore.GetById(st, p)
      case None => Crash
      case Some(w) =>
        if w.userId != userId then Done(FieldError("parent_id", PARENT_OWNER_ERROR, p))
        else if !TopLevel(w) then Done(FieldError("parent_id", GENERATION_ERROR, p))
        else Done(Verdict(map[], p))
  }
}

=== FILE: wallet_store.dfy ===
/** The live wallet store (`src/database/dbWallets.ts`): insertion, the child list, the
    cascading delete, the queries, the field update that cannot touch `money`, and the
    balance increment every transaction write goes through. */
module WalletStore {
  import opened Common
  import opened Dates
  import opened Ledger

  /** `getById`. */
  function GetById(st: State, walletId: Id): (r: Option<Wallet>)
    ensures r.Some? <==> walletId in st.wallets
    ensures r.Some? ==> r.value == st.wallets[walletId]
  {
    if walletId in st.wallets then Some(st.wallets[walletId]) else None
  }

  /** `getByName`: the wallets `findOne({ user_id, name })` chooses from. A wallet is found
      exactly when one with that owner and that exact (untrimmed) name exists. */
  function GetByName(st: State, userId: string, name: string): (r: set<Id>)
    ensures r != {} <==> exists k :: k in st.wallets && st.wallets[k].userId == userId && st.wallets[k].name == name
    ensures forall k :: k in r ==> k in st.wallets && st.wallets[k].userId == userId && st.wallets[k].name == name
  {
    var r := set k | k in st.wallets && st.wallets[k].userId == userId && st.wallets[k].name == name;
    assert forall k :: k in st.wallets && st.wallets[k].userId == userId && st.wallets[k].name == name ==> k in r;
    r
  }

  /** `add`: a new wallet with no money; the "-1" parent is stored as no parent. An id
      already in use makes the insert throw. */
  function Add(st: State, id: Id, userId: string, name: string, iconId: Option<int>,
               currency: Option<string>, parentId: Option<string>, now: Date): (r: Step<Wallet>)
    ensures id in st.wallets ==> r == Step(st, Crash)
    ensures id !in st.wallets ==>
      && r.out.Done?
      && r.st == st.(wallets := st.wallets[id := r.out.value])
      && r.out.value.id == id && r.out.value.userId == userId && r.out.value.name == name
      && r.out.value.money == 0 && r.out.value.children == []
      && r.out.value.iconId == iconId && r.out.value.currency == currency
      && (parentId == Some(SENTINEL) ==> r.out.value.parent == None)
      && (parentId != Some(SENTINEL) ==> r.out.value.parent == parentId)
  {
    if id in st.wallets then Step(st, Crash)
    else
      var w := Wallet(id, userId, iconId, if parentId == Some(SENTINEL) then None else parentId,
                      [], name, currency, 0, now);
      Step(st.(wallets := st.wallets[id := w]), Done(w))
  }

  /** `addChild`: `$push` the child onto the parent's list; nothing happens when the parent
      does not exist. */
  function AddChild(st: State, parentId: Id, childId: Id): (r: State)
    ensures r.txs == st.txs && r.categories == st.categories
    ensures r.wallets.Keys == st.wallets.Keys
    ensures parentId in st.wallets ==>
      r.wallets[parentId] == st.wallets[parentId].(children := st.wallets[parentId].children + [childId])
    ensures forall k :: k in st.wallets && k != parentId ==> r.wallets[k] == st.wallets[k]
  {
    if parentId in st.wallets then
      var p := st.wallets[parentId];
      st.(wallets := st.wallets[parentId := p.(children := p.children + [childId])])
    else st
  }

  /** The wallets whose `parent_id` is the given wallet. */
  function ChildrenOf(st: State, walletId: Id): set<Id> {
    set k | k in st.wallets && st.wallets[k].parent == Some(walletId)
  }

  /** `delete`: remove the wallet, every wallet whose parent it is, and every transaction
      of those wallets; return the deleted wallet (`null` if there was none). The parent's
      child list is left as it is. */
  function Delete(st: State, walletId: Id): (r: (State, Option<Wallet>))
    ensures var doomed := ChildrenOf(st, walletId) + {walletId};
      && r.0.wallets.Keys == st.wallets.Keys - doomed
      && (forall k :: k in r.0.txs <==> k in st.txs && st.txs[k].walletId !in doomed)
    ensures forall k :: k in r.0.wallets ==> r.0.wallets[k] == st.wallets[k]
    ensures forall k :: k in r.0.txs ==> r.0.txs[k] == st.txs[k]
    ensures r.0.categories == st.categories
    ensures r.1 == GetById(st, walletId)
  {
    var doomed := ChildrenOf(st, walletId) + {walletId};
    var wallets := map k | k in st.wallets && k !in doomed :: st.wallets[k];
    (st.(wallets := wallets, txs := TxsOutside(st.txs, doomed)), GetById(st, walletId))
  }

  /** Deleting a wallet keeps the live invariant for the wallets that remain: the
      transactions it removes all belong to removed wallets. */
  lemma DeleteKeepsInvariant(st: State, walletId: Id)
    requires Invariant(st)
    ensures Invariant(Delete(st, walletId).0)
  {
    var st' := Delete(st, walletId).0;
    forall w | w in st'.wallets ensures BalancedAt(st', w) {
      SumSubmap(st.txs, st'.txs, ByCategory(st.categories, w));
    }
  }

  /** `getWallets`: exactly the user's wallets that have no parent. */
  function GetWallets(st: State, userId: string): (r: map<Id, Wallet>)
    ensures forall k :: k in r <==> k in st.wallets && st.wallets[k].userId == userId && st.wallets[k].parent.None?
    ensures forall k :: k in r ==> r[k] == st.wallets[k]
  {
    map k | k in st.wallets && st.wallets[k].userId == userId && st.wallets[k].parent.None? :: st.wallets[k]
  }

  /** The fields `update` may `$set`. */
  datatype WalletPatch = WalletPatch(name: Option<string>, currency: Option<string>, iconId: Option<int>, money: Option<int>)

  /** `update`: overwrite the supplied fields. `money` is cleared from the patch before the
      `$set`, so the balance never changes here. A missing wallet yields `null`. */
  function Update(st: State, walletId: Id, patch: WalletPatch): (r: (State, Option<Wallet>))
    ensures r.0.txs == st.txs && r.0.categories == st.categories
    ensures r.0.wallets.Keys == st.wallets.Keys
    ensures forall k :: k in st.wallets && k != walletId ==> r.0.wallets[k] == st.wallets[k]
    ensures walletId !in st.wallets ==> r == (st, None)
    ensures walletId in st.wallets ==>
      var old_, new_ := st.wallets[walletId], r.0.wallets[walletId];
      && r.1 == Some(new_)
      && new_.money == old_.money
      && new_.name == patch.name.GetOr(old_.name)
      && new_.currency == (if patch.currency.Some? then patch.currency else old_.currency)
      && new_.iconId == (if patch.iconId.Some? then patch.iconId else old_.iconId)
      && new_.(name := old_.name, currency := old_.currency, iconId := old_.iconId) == old_
  {
    if walletId in st.wallets then
      var w := st.wallets[walletId];
      // the patch's `money` is cleared before the write
      var w' := w.(
        name := patch.name.GetOr(w.name),
        currency := if patch.currency.Some? then patch.currency else w.currency,
        iconId := if patch.iconId.Some? then patch.iconId else w.iconId);
      (st.(wallets := st.wallets[walletId := w']), Some(w'))
    else (st, None)
  }

  /** `updateAmount`: `$inc` the named wallet's money by `+amount` for "Income" and
      `-amount` otherwise. No other wallet changes; in particular nothing is carried to
      the wallet's parent. A missing wallet is left alone. */
  function UpdateAmount(st: State, walletId: Id, amount: int, kind: string): (r: State)
    ensures r.txs == st.txs && r.categories == st.categories
    ensures r.wallets.Keys == st.wallets.Keys
    ensures walletId in st.wallets ==>
      r.wallets[walletId] == st.wallets[walletId].(money := st.wallets[walletId].money + Signed(kind, amount))
    ensures forall k :: k in st.wallets && k != walletId ==> r.wallets[k] == st.wallets[k]
  {
    if walletId in st.wallets then
      var w := st.wallets[walletId];
      st.(wallets := st.wallets[walletId := w.(money := w.money + Signed(kind, amount))])
    else st
  }

  /** An increment of zero changes nothing. */
  lemma UpdateAmountZero(st: State, walletId: Id, kind: string)
    ensures UpdateAmount(st, walletId, 0, kind) == st
  {
    if walletId in st.wallets {
      assert st.wallets[walletId := st.wallets[walletId]] == st.wallets;
    }
  }

  /** An income followed by an expense of the same amount restores the wallet. */
  lemma UpdateAmountIncomeThenExpense(st: State, walletId: Id, amount: int)
    ensures UpdateAmount(UpdateAmount(st, walletId, amount, INCOME), walletId, amount, EXPENSE) == st
  {
    if walletId in st.wallets {
      assert st.wallets[walletId := st.wallets[walletId]] == st.wallets;
    }
  }

  /** Applying the negated amount under the same kind undoes an increment. */
  lemma UpdateAmountUndo(st: State, walletId: Id, amount: int, kind: string)
    ensures UpdateAmount(UpdateAmount(st, walletId, amount, kind), walletId, -amount, kind) == st
  {
    if walletId in st.wallets {
      assert st.wallets[walletId := st.wallets[walletId]] == st.wallets;
    }
  }
}
